=== FILE: README.md ===
# Game-server log tail, abuse guard and Source query server — a Dafny model

This project models the core of a Python service that sits next to a game
server. The service does four things:

- It tails the server's log files, including the date-rotated archives `base.YYYY-MM-DD`.
- It classifies each log line: account logins (`PostLogin Account: <id>`),
  nickname joins (`Join succeeded: <name>`), logouts and connection samples
  (`[YYYY.MM.DD-hh.mm.ss:fff] … accepted from: a.b.c.d`).
- It keeps the presence table (who is online on which server) and the player
  directory (account id -> display name, saved with a cooldown).
- It feeds connection samples to a sliding-window abuse guard that blocks an
  address once it sends too many samples in the window.

The same package answers Source-engine server queries over UDP: `A2S_INFO`,
the get-challenge request and `A2S_PLAYER`. The answers use the players the
log side announced, and the challenge handshake guards the player list.

Every operation is a pure function. Its inputs are the state before the call
and whatever the surroundings supply: the wall clock, file contents, the
result of a firewall command, the random challenge. It returns the state
afterwards and the side effects it would have caused, such as "the block list
was written" or "an event was published". A Python exception is the `Raised`
case of `Common.Result`. Where the Python code mutates state before raising,
the model returns that partial state with a `raised` flag.

Modules, in dependency order:

| module | models |
|---|---|
| `Common` | options, exceptions, `str.strip`, the ASCII `\d`/`\w` classes, decimal text |
| `Json` | decoded JSON values; a dict is an ordered list of items |
| `Timestamps` | `strptime` of the log stamp, as integer microsecond ticks |
| `Config` | `Config.get` (dotted paths) and `Config.get_server` |
| `Patterns` | the log-line regular expressions of `src/constants.py`, as recognisers with `re.search` semantics |
| `PlayerDirectory` | `PlayersDataManager` (load, update, cooldown save) |
| `AbuseGuard` | `DDOSProtection` (sliding window, block, periodic sweep) |
| `LineProcessor` | `LogLineProcessor.process_line` |
| `LogParser` | the older `LogParser`: configured files, its own line handler, the players table, the tail step |
| `LogFiles` | `LogFileManager`: rotated-name recognition, sort by date, date filter |
| `Wire` | `struct.pack` of unsigned little-endian numbers, UTF-8, front-consuming readers |
| `A2S` | the query packets: request recognition, challenge, player and info replies, with client-side parsers to state round trips |
| `QueryServer` | `QueryServer`: state between datagrams, `route_request`, `handle_request`, `handle_event`, `player_query`, the receive loop |

Notes on the code that shape the model:

- **Truncation.** `src/log_parser/log_parser.py:112-117` means to re-read a
  file from offset 0 once it shrinks below the stored offset. The check
  compares the position after reading with the stored offset. Under
  CPython's seek semantics that position never falls below the offset, so
  the check cannot fire (finding F3). How the position behaves after a seek
  past the end is the `LogParser.SeekMode` parameter.
- **Nickname pattern.** `line_processor.py` imports a pattern named
  `JOIN_NICKNAME_SERVER`, which `src/constants.py` does not define. The model
  uses the `Join succeeded:` pattern that `src/constants.py:11` defines.
- **Character offsets.** The code opens files in text mode
  (`src/log_parser/log_parser.py:105`) and tracks a file only by its base
  name (`src/log_parser/log_parser.py:99`). In the model, offsets count
  characters and a file is known by its base name.

## Model

| member | source | states |
|---|---|---|
| Common.Strip | src/log_parser/log_parser.py:122 | `str.strip()`: the result is a slice of the input, with only whitespace cut from each side, and it has no whitespace at either end |
| Common.DigitsValueOfNatToString | src/config.py:36 | `str(n)` is decimal text that reads back as `n` |
| Common.StripDigits | src/log_parser/line_processor.py:86 | stripping a digit capture changes nothing |
| Json.Lookup | src/config.py:28 | `d.get(k)` finds a value exactly when the key is present, and the value is the one bound to that key |
| Timestamps.ParseStamp | src/log_parser/ddos_protection.py:81-85 | the log stamp parses exactly when it has the fixed shape and its fields form a valid date and time; the result is the ticks of those fields |
| Timestamps.YearLength | src/log_parser/ddos_protection.py:82 | a year has 366 days when it is a leap year and 365 otherwise |
| Timestamps.OrdinalNewYear | src/log_parser/ddos_protection.py:82 | January 1 is the day after December 31 of the year before |
| Timestamps.OrdinalNextDay | src/log_parser/ddos_protection.py:82 | the day after a valid date is valid and has the next day number, across month and year ends |
| Timestamps.OrdinalAscends | src/log_parser/ddos_protection.py:82 | day numbers follow calendar order |
| Timestamps.TicksAscend | src/log_parser/ddos_protection.py:82 | a later timestamp has more ticks |
| Timestamps.TicksOrder | src/log_parser/ddos_protection.py:82 | ticks compare exactly as the timestamps' fields do, and equal ticks mean the same timestamp |
| Timestamps.TicksSecondsApart | src/log_parser/ddos_protection.py:82 | `k` seconds later is `k` seconds of ticks later |
| Timestamps.TicksNextDay | src/log_parser/ddos_protection.py:82 | the same time on the next day is 86400 seconds of ticks later |
| Timestamps.FormatStamp | src/log_parser/ddos_protection.py:79 | a valid timestamp written as `YYYY.MM.DD-hh.mm.ss:fff` has the log's shape and its fields read back |
| Timestamps.ParseFormatStamp | src/log_parser/ddos_protection.py:79-82 | parsing a written timestamp gives its ticks |
| Config.IndexOf | src/config.py:24 | the first separator: it is at the returned index and nowhere before it |
| Config.Split | src/config.py:24 | `key.split('.')` gives at least one segment, and no segment contains the separator |
| Config.SplitJoin | src/config.py:24 | joining the segments with the separator gives back the key (split is inverted by join) |
| Config.SplitCons | src/config.py:24 | a dot-free first segment splits off as the first part, and the rest splits independently |
| Config.GetTopLevel | src/config.py:19-31 | a dot-free key gives the stored value when the root is a dict holding a non-null value under it, and the default otherwise |
| Config.GetDescends | src/config.py:26-30 | `get("a.rest")` on a dict root equals `get("rest")` on whatever `a` holds |
| Config.GetOneSegment | src/config.py:24-31 | a one-segment key walks exactly that segment |
| Config.GetThreeSegments | src/config.py:24-31 | a three-segment key walks those three segments in order |
| Config.GetStopsAtNonDict | src/config.py:27-30 | the walk returns the default as soon as an intermediate value is not a dict |
| Config.GetOnNonDict | src/config.py:26-30 | a root that is not a dict gives the default for every key |
| Config.GetNeverNull | src/config.py:31 | a stored `null` is replaced by the default, so the result is never null unless the default is |
| Config.GetServer | src/config.py:33-36 | raises exactly when the root or its `SERVERS` value is not a dict; otherwise the result is the `SERVERS` table's binding for `str(server_id)`, found exactly when that key is present |
| Config.GetServerIntIsString | src/config.py:36 | an integer server id and its decimal text find the same entry |
| Patterns.LiteralThenRun | src/constants.py:10-12 | a capture is a non-empty run of the capture class |
| Patterns.DigitGroups | src/constants.py:5-7 | the dotted digit groups end past their start and inside the line |
| Patterns.LobbyAt | src/constants.py:14 | the lobby login captures a comma-free nickname and a non-empty digit id |
| Patterns.SearchFrom | src/constants.py:5-23 | `re.search` finds the leftmost position with a match, and there is no match before it (or anywhere, when it fails) |
| Patterns.AccountCapturesDigits | src/constants.py:10-15 | every PostLogin or logout match captures a non-empty digit run |
| Patterns.JoinCapturesWord | src/constants.py:11 | a `Join succeeded` match captures a non-empty run of word characters |
| Patterns.UnifiedLoginGroups | src/constants.py:20-23 | the unified login sets group 1 alone (server form) or groups 2 and 3 (lobby form) |
| Patterns.IpCaptureShapes | src/constants.py:5-7 | the IP pattern captures a stamp of the parseable shape and a dotted quad |
| Patterns.LastAcceptedQuad | src/constants.py:5-7 | the greedy `.*` leaves a dotted quad as the address capture |
| Patterns.LastAcceptedFinds | src/constants.py:5-7 | the greedy `.*` picks the last position where `accepted from:` and a quad match |
| Patterns.DigitGroupsPrefix | src/constants.py:5-7 | digit groups do not depend on the text after them |
| Patterns.DigitGroupsChars | src/constants.py:5-7 | everything inside digit groups is a digit or a dot |
| Patterns.RunEndCharacterised | src/constants.py:10-12 | a greedy run ends at the first character outside its class |
| Patterns.LiteralThenRunRecognised | src/constants.py:10-12 | a literal, whitespace and a maximal run are recognised with the run as the capture |
| Patterns.SimpleRecognised | src/constants.py:10-12 | `PostLogin`, `Join succeeded` and `Logout` lines of the documented form are found with exactly their capture |
| Patterns.NotAcceptedAt | src/constants.py:5-7 | no `accepted from:` match starts anywhere but at an `a` |
| Patterns.NoLaterA | src/constants.py:5-7 | `accepted from: ` followed by a quad holds no later `a` |
| Patterns.NoLaterAccepted | src/constants.py:5-7 | no second `accepted from:` match starts after the first one in such a line |
| Patterns.AcceptedAtEnd | src/constants.py:5-7 | `accepted from: ` and a final dotted quad capture that quad |
| Patterns.NoNewlineFrom | src/constants.py:5-7 | `.*` runs to the end of a newline-free line |
| Patterns.IpRecognised | src/constants.py:5-7 | a sample line `[stamp] … accepted from: quad` is found with exactly the stamp and the quad |
| Patterns.MatchStartsWithLead | src/constants.py:5-15 | each non-unified pattern's match begins with that pattern's lead character |
| Patterns.NoLeadNoMatch | src/constants.py:5-15 | a line without that lead character does not match |
| PlayerDirectory.ValidEntries | src/log_parser/players_data_manager.py:23-28 | `load` keeps exactly the entries that are dicts with a `name` key, unchanged |
| PlayerDirectory.Load | src/log_parser/players_data_manager.py:17-36 | a missing or undecodable file leaves an empty table; a decoded non-dict raises; the save clock is untouched |
| PlayerDirectory.Create | src/log_parser/players_data_manager.py:10-15 | a new directory is empty and its last save lies one cooldown before now |
| PlayerDirectory.GetPlayerName | src/log_parser/players_data_manager.py:62-65 | an unknown id gives `None`; a non-`None` result is the stored entry's `name`, and a stored `name` is always returned |
| PlayerDirectory.LoadThenGetName | src/log_parser/players_data_manager.py:17-65 | after a load, an id reads back the stored name exactly when the file held a valid entry for it |
| PlayerDirectory.UpdatePlayer | src/log_parser/players_data_manager.py:54-60 | reports a change exactly when the stored name differs; the new name always reads back |
| PlayerDirectory.UpdatePlayerIsolated | src/log_parser/players_data_manager.py:54-60 | an update leaves every other id's name and presence as it was |
| PlayerDirectory.UpdatePlayerIdempotent | src/log_parser/players_data_manager.py:56-60 | a second update with the same name reports no change and changes nothing |
| PlayerDirectory.SaveIfNeeded | src/log_parser/players_data_manager.py:38-52 | a save moves the last-save time to now and keeps the table; no save changes nothing |
| PlayerDirectory.SaveIfNeededCooldown | src/log_parser/players_data_manager.py:41-45 | a save happens exactly when the cooldown has elapsed since the last one |
| PlayerDirectory.FirstSaveHappens | src/log_parser/players_data_manager.py:14 | the first save after construction is not held back by the cooldown |
| PlayerDirectory.SavesAreSpaced | src/log_parser/players_data_manager.py:38-60 | two saves are at least the cooldown apart, whatever update comes between |
| AbuseGuard.KeepAfter | src/log_parser/ddos_protection.py:108-109 | the filter keeps exactly the samples after the cutoff, with their multiplicity |
| AbuseGuard.IsBlocked | src/log_parser/ddos_protection.py:98-103 | an address not in the list is not blocked; an unparsable stored stamp raises; otherwise it is blocked exactly while the block period has not run out |
| AbuseGuard.CleanupOldRequests | src/log_parser/ddos_protection.py:105-110 | only `ip`'s window changes; it keeps exactly its samples inside the interval and never stays empty |
| AbuseGuard.BlockIp | src/log_parser/ddos_protection.py:147-187 | an address already blocked is left alone; otherwise the block is recorded and saved exactly when there is no admin or the firewall rule was added; an unparsable stored stamp raises |
| AbuseGuard.BlockIpThenBlocked | src/log_parser/ddos_protection.py:98-187 | a recorded block is reported by `is_blocked` for the whole block period |
| AbuseGuard.AddRequest | src/log_parser/ddos_protection.py:75-96 | an unparsable stamp changes nothing; only `ip`'s window and block entry may change; windows stay below the threshold and never empty |
| AbuseGuard.AddRequestWindowRecent | src/log_parser/ddos_protection.py:88-91 | after a sample, `ip`'s window ends with it and holds only samples inside the interval |
| AbuseGuard.AddRequestAtThreshold | src/log_parser/ddos_protection.py:94-96 | reaching the threshold clears the window and blocks the address (saved exactly when there is no admin or the firewall succeeded) |
| AbuseGuard.AddRequestBelowThreshold | src/log_parser/ddos_protection.py:88-96 | below the threshold the window becomes exactly its samples inside the interval followed by the new one; nothing is blocked or saved |
| AbuseGuard.PruneAll | src/log_parser/ddos_protection.py:120-121 | an address keeps a window exactly when some of its samples are recent, and that window is exactly its recent samples; emptied windows disappear |
| AbuseGuard.PruneAllCleansEach | src/log_parser/ddos_protection.py:120-121 | the loop leaves each address the window `_cleanup_old_requests` would give it on its own |
| AbuseGuard.Sweep | src/log_parser/ddos_protection.py:130-145 | the corrected sweep only removes block entries, never raises, and saves exactly when it removed one |
| AbuseGuard.SweepAgreesWithIsBlocked | src/log_parser/ddos_protection.py:98-145 | the corrected sweep keeps an entry exactly when `is_blocked` still reports it, or when its firewall rule could not be removed |
| AbuseGuard.SweepRetriesFailedUnblock | src/log_parser/ddos_protection.py:208-219 | an entry whose unblock failed is kept and released by a later sweep whose unblock succeeds, as the comments at those lines intend |
| AbuseGuard.CleanupRound | src/log_parser/ddos_protection.py:112-128 | one periodic round with the corrected sweep (as written the sweep raises, finding F1): the windows are those `PruneAll` leaves, the block list and the save are the corrected sweep's, no address is newly blocked, and a kept entry is still reported by `is_blocked` unless its unblock failed |
| AbuseGuard.SweepAsWritten | src/log_parser/ddos_protection.py:130-224 | the sweep as written never touches the windows |
| AbuseGuard.ScanWithoutAdmin | src/log_parser/ddos_protection.py:133-198 | without admin rights, the scan collects exactly the releasable entries |
| AbuseGuard.SweepAsWrittenWithoutAdmin | src/log_parser/ddos_protection.py:130-145 | without admin rights, the sweep as written equals the corrected one |
| AbuseGuard.SweepAsWrittenAbortsAfterUnblock | src/log_parser/ddos_protection.py:133-224 | with admin rights, a successful unblock deletes from the dict being iterated: the sweep raises and the next expired entry stays (F1) |
| AbuseGuard.SweepAsWrittenDropsFailedUnblock | src/log_parser/ddos_protection.py:137-219 | an entry whose firewall unblock failed is still removed from the block list (F2) |
| LineProcessor.Join | src/log_parser/line_processor.py:28-65 | binds the pending id to the nickname on this server and clears the pending id; the directory is updated only for a new id whose stored name is not already this nickname, or a renamed `Unknown_` placeholder, and is then saved exactly when the cooldown has elapsed, the save moving the save clock to now; otherwise the directory is unchanged and not saved |
| LineProcessor.Rename | src/log_parser/line_processor.py:43-60 | the directory gets `update_player`'s table; the save is attempted whether or not the name changed and happens exactly when the cooldown has elapsed, moving the save clock to now |
| LineProcessor.Sample | src/log_parser/line_processor.py:67-73 | a connection sample that raises leaves the guard unchanged |
| LineProcessor.Logout | src/log_parser/line_processor.py:84-94 | the id is offline on that server afterwards; every other session is kept; sessions stay filed under their server |
| LineProcessor.AccountStep | src/log_parser/line_processor.py:76-94 | PostLogin and logout lines touch at most one session and neither the directory nor the guard |
| LineProcessor.ProcessLine | src/log_parser/line_processor.py:23-94 | empty lines do nothing; live lines never touch the guard; a raise leaves the state unchanged; at most one session changes |
| LineProcessor.JoinLine | src/log_parser/line_processor.py:28-65 | a join line while an id is pending is exactly the join branch on the captured nickname: it creates the session, renames an `Unknown_` one or keeps a named one, and a new session records the name |
| LineProcessor.PostLoginLine | src/log_parser/line_processor.py:76-81 | a PostLogin line sets the pending id to the captured account id |
| LineProcessor.LogoutLine | src/log_parser/line_processor.py:84-94 | a logout line takes the captured id offline on this server |
| LineProcessor.HistorySample | src/log_parser/line_processor.py:67-73 | on history lines a connection sample goes to the abuse guard |
| LineProcessor.ResetThenJoinIgnored | src/log_parser/line_processor.py:106-107 | after the pending id is reset, a nickname line binds nobody |
| LineProcessor.ResetPending | src/log_parser/line_processor.py:106-107 | no id is pending afterwards, and sessions, directory and guard are unchanged |
| LineProcessor.LoginStep | src/log_parser/line_processor.py:76-81 | `PostLogin Account: <id>` sets exactly that pending id |
| LineProcessor.NickStep | src/log_parser/line_processor.py:41-53 | `Join succeeded: <name>` opens the session `name` for the pending id |
| LineProcessor.LogoutLineNoOther | src/constants.py:5-10 | a logout line is neither a PostLogin line nor a connection sample |
| LineProcessor.LogoutStep | src/log_parser/line_processor.py:84-94 | `Logout Account: <id>` takes that id offline |
| LineProcessor.LoginJoinLogout | src/log_parser/line_processor.py:23-94 | login, join and logout bring the id online under its name and offline again |
| LineProcessor.LoginJoinLogoutExample | src/log_parser/line_processor.py:23-94 | the same session for account 777 and nickname Hero |
| LogParser.ServerLogFiles | src/log_parser/log_parser.py:26-38 | a server entry contributes its list whole or its single path; a non-dict entry raises |
| LogParser.Collect | src/log_parser/log_parser.py:26-38 | raises exactly when some entry is not a dict; every path comes from some entry |
| LogParser.CollectAppend | src/log_parser/log_parser.py:30-38 | the contributions of two runs of entries are concatenated in order |
| LogParser.ConfiguredLogFiles | src/log_parser/log_parser.py:26-38 | succeeds exactly when `SERVERS` and each of its entries is a dict |
| LogParser.ConfiguredLogFilesExample | src/log_parser/log_parser.py:26-38 | a list entry and a single-path entry give three paths in order |
| LogParser.ProcessLine | src/log_parser/log_parser.py:131-175 | empty lines do nothing; only a login changes an existing name; lines that are neither login nor logout leave the table alone |
| LogParser.LoginLine | src/log_parser/log_parser.py:151-162 | a login line records the id under its name or an `Unknown_` placeholder |
| LogParser.LoginRepeated | src/log_parser/log_parser.py:151-162 | repeating a login line changes nothing further |
| LogParser.LogoutLine | src/log_parser/log_parser.py:165-175 | a logout line drops the captured id and nothing else |
| LogParser.PlayerCountTracksLines | src/log_parser/log_parser.py:182-184 | the count grows by one only on the login of a new id and shrinks by one only on the logout of a tracked id |
| LogParser.ConnectedPlayersQuery | src/log_parser/log_parser.py:177-180 | the copy binds exactly the same ids to the same names |
| LogParser.PlayerCount | src/log_parser/log_parser.py:182-184 | the count is the number of tracked ids, zero exactly when none is tracked |
| LogParser.ProcessLines | src/log_parser/log_parser.py:121-122 | a batch publishes at most one event per line |
| LogParser.FoldAppend | src/log_parser/log_parser.py:121-122 | handling two runs of lines one after the other is handling their concatenation |
| LogParser.ProcessLinesAppend | src/log_parser/log_parser.py:121-122 | two batches in a row leave the table the concatenated batch leaves, with the events in order |
| LogParser.SplitLines | src/log_parser/log_parser.py:107 | `readlines()` gives non-empty lines, each ending at its only newline except possibly the last |
| LogParser.SplitLinesConcat | src/log_parser/log_parser.py:107 | joining the lines gives back the text |
| LogParser.SplitLinesIsLineSplit | src/log_parser/log_parser.py:107 | `readlines()` cuts the text into non-empty pieces that join back to it, each ending at its first newline |
| LogParser.LineSplitUnique | src/log_parser/log_parser.py:107 | that cut is unique: any such cut is the one `readlines()` gives |
| LogParser.ReadFrom | src/log_parser/log_parser.py:105-111 | from an offset inside the file, the lines are a `readlines()` cut of exactly the rest of the text and the position ends at the file's end; past the end nothing is read and the position is the offset (CPython) or the end (clamping) |
| LogParser.Basename | src/log_parser/log_parser.py:99 | the base name is the separator-free tail of the path |
| LogParser.HandleFileChange | src/log_parser/log_parser.py:97-125 | another file or an unreadable one changes nothing; the tracked name never changes |
| LogParser.StripAll | src/log_parser/log_parser.py:121-122 | each delivered line is its read line stripped |
| LogParser.AppendDelivered | src/log_parser/log_parser.py:97-122 | a file that only grew delivers exactly the appended lines and moves the offset to its end |
| LogParser.StaysAtTargetNeverRereads | src/log_parser/log_parser.py:105-112 | under CPython's seek rule the end position is never below the stored offset |
| LogParser.TruncationMissed | src/log_parser/log_parser.py:111-117 | as written, a file truncated below the offset delivers nothing and keeps the stale offset (F3) |
| LogParser.HandleFileChangeChecked | src/log_parser/log_parser.py:97-125 | the corrected step always ends at the file's length |
| LogParser.CheckedDeliversTruncated | src/log_parser/log_parser.py:112-117 | the corrected step re-reads a truncated file from the start |
| LogParser.CheckedAgreesWhenNotTruncated | src/log_parser/log_parser.py:97-125 | on a file that did not shrink, the corrected step does what the code does |
| LogParser.ClampsToEndAgrees | src/log_parser/log_parser.py:105-117 | when the position is clamped to the end, the code already behaves like the corrected step |
| LogFiles.ParseDate | utils/log_file_manager.py:59-64 | a suffix of the `YYYY-MM-DD` shape parses exactly when its fields form a valid date, and the result is that date's day number |
| LogFiles.MonthFields | utils/log_file_manager.py:69 | the `%m` alternatives each read a month from 1 to 12 in one or two characters |
| LogFiles.DayFields | utils/log_file_manager.py:69 | the `%d` alternatives each read a day from 1 to 31 in one or two characters |
| LogFiles.StrptimeDate | utils/log_file_manager.py:69 | `strptime(s, "%Y-%m-%d")` succeeds only on eight to ten characters with four leading digits and a dash |
| LogFiles.StrptimeAgreesOnShape | utils/log_file_manager.py:63-69 | on the fixed `YYYY-MM-DD` shape `strptime` reads what the fixed-shape parser reads |
| LogFiles.StrptimeReadsDateText | utils/log_file_manager.py:69 | a date written with or without zero padding of month and day reads back |
| LogFiles.LastSegment | utils/log_file_manager.py:63 | the text after the last dot |
| LogFiles.ExtractDate | utils/log_file_manager.py:59-64 | gives no date exactly for names `_is_date_suffix_file` rejects |
| LogFiles.ExtractDateReadsSuffix | utils/log_file_manager.py:52-64 | an accepted name's date is its suffix, or invalid when `strptime` rejects it |
| LogFiles.LastSegmentOf | utils/log_file_manager.py:63 | the last segment after a dot is read back |
| LogFiles.TrailingNewlineAccepted | utils/log_file_manager.py:52-57 | `$` lets a name with a trailing newline pass, and its date then fails to parse |
| LogFiles.OtherSuffixesRejected | utils/log_file_manager.py:52-57 | names such as `base.1`, `base.tmp` and the base itself are rejected |
| LogFiles.Insert | utils/log_file_manager.py:38 | insertion keeps the order and adds exactly one name |
| LogFiles.SortBy | utils/log_file_manager.py:38 | the sort is ordered by key and a permutation of its input |
| LogFiles.SortByDate | utils/log_file_manager.py:38 | sorting by date orders the names by day and is a permutation |
| LogFiles.Accepted | utils/log_file_manager.py:26-37 | keeps exactly the names that match the rotated-name pattern |
| LogFiles.RotatedLogFiles | utils/log_file_manager.py:26-39 | raises exactly when an accepted name has an invalid date; otherwise the accepted names as a permutation, sorted by date |
| LogFiles.AllLogFiles | utils/log_file_manager.py:41-50 | the current file first, when it exists, then the rotated files |
| LogFiles.FindAfterDateAsWritten | utils/log_file_manager.py:66-81 | as written, it succeeds exactly when `strptime` accepts a string target and there are no rotated files, and then gives the current file alone (F4) |
| LogFiles.TextTargetDay | utils/log_file_manager.py:69 | a target string names its date whether or not it is zero-padded |
| LogFiles.UnpaddedTargetAccepted | utils/log_file_manager.py:66-81 | with no rotated files, an unpadded target keeps the current file |
| LogFiles.UnpaddedTargetExample | utils/log_file_manager.py:69 | `2024-1-5` and `2024-01-05` are the same target day |
| LogFiles.OnOrAfter | utils/log_file_manager.py:76-79 | keeps exactly the rotated names dated on or after the day, and keeps date order |
| LogFiles.FindAfterDate | utils/log_file_manager.py:66-81 | corrected (F4): succeeds exactly when `strptime` accepts a string target and the rotated dates parse; the current file first, then exactly the rotated files dated on or after the target, in date order |
| LogFiles.OneArchiveAfterTarget | utils/log_file_manager.py:77-79 | one archive on or after a `datetime` target makes the code raise, while the corrected filter returns it (F4) |
| Wire.LE | src/query_server/query_request/challenge_query.py:12 | `struct.pack` gives exactly `w` bytes |
| Wire.FromLEOfLE | src/query_server/query_request/challenge_query.py:12 | unpacking a packed number gives it back |
| Wire.LEOfFromLE | src/query_server/query_request/player_query.py:24 | packing an unpacked value gives the bytes back |
| Wire.Pack | src/query_server/query_request/info_query.py:24-37 | `struct.pack` raises exactly outside the unsigned range and otherwise gives `w` bytes that read back as `n` |
| Wire.Utf8Char | src/query_server/query_request/player_query.py:51 | one to four bytes, containing a zero byte exactly for NUL |
| Wire.Utf8 | src/query_server/query_request/player_query.py:51 | the encoding holds a zero byte exactly when the text holds NUL |
| Wire.Utf8Append | src/query_server/query_request/player_query.py:51 | encoding distributes over concatenation |
| Wire.Utf8CharDecodes | src/query_server/query_request/player_query.py:51 | each encoded character announces its length and decodes to itself |
| Wire.DecodeUtf8OfUtf8 | src/query_server/query_request/player_query.py:51 | decoding an encoded string gives it back |
| Wire.MalformedRejected | src/query_server/query_request/player_query.py:51 | an overlong encoding and a missing continuation byte are not decoded |
| Wire.ReadCString | src/query_server/query_request/info_query.py:20-23 | a NUL-terminated string is read as the NUL-free text up to the first NUL |
| Wire.ReadCStringOf | src/query_server/query_request/info_query.py:20-23 | a NUL-free string with its terminator reads back |
| Wire.ReadLEOf | src/query_server/query_request/info_query.py:24-37 | a packed number reads back with the rest untouched |
| Wire.ReadBytesOf | src/query_server/query_request/info_query.py:17-19 | a byte block reads back with the rest untouched |
| Wire.ExpectOf | src/query_server/query_request/info_query.py:17-19 | a fixed prefix is consumed |
| A2S.PlayerRequest | src/constants.py:27 | the request a client replays is recognised as a player request |
| A2S.ChallengeRequestHasPlayerShape | src/query_server/query_server.py:100-116 | the get-challenge request also matches the player pattern, so the order of the tests decides |
| A2S.RequestsDisjoint | src/constants.py:25-27 | an info request is neither a challenge nor a player request |
| A2S.NewlineChallengeUnrecognised | src/constants.py:27 | as written, a replayed challenge 10 (`0A 00 00 00`) matches no pattern (F5) |
| A2S.PlayerPatternsAgree | src/constants.py:27 | the pattern as written and the intended pattern agree when the challenge has no newline byte |
| A2S.ChallengeOf | src/query_server/query_request/player_query.py:23-24 | unpacking the last four bytes raises exactly on shorter data, and re-packs to those bytes |
| A2S.ChallengeOfPlayerRequest | src/query_server/query_request/player_query.py:23-24 | the challenge is read back from a player request |
| A2S.ChallengeReply | src/query_server/query_request/challenge_query.py:17 | the challenge reply is nine bytes |
| A2S.ChallengeReplyRoundTrip | src/query_server/query_request/challenge_query.py:10-17 | a client reads back the issued challenge, and its replayed request carries it |
| A2S.NameOf | src/query_server/query_request/player_query.py:51 | a name encodes only when the entry is a dict whose `name` is a string |
| A2S.AllListIff | src/query_server/query_request/player_query.py:42-53 | the loop's no-failure condition holds exactly when no later entry fails |
| A2S.Listed | src/query_server/query_request/player_query.py:42-53 | each emitted record names its entry, at the entry's 1-based position |
| A2S.ListedOkIff | src/query_server/query_request/player_query.py:42-53 | the loop succeeds exactly when every entry lists |
| A2S.ListedRaises | src/query_server/query_request/player_query.py:44-51 | the loop raises exactly when some entry fails the name test or its encoding |
| A2S.ListedStep | src/query_server/query_request/player_query.py:44-53 | an unnamed entry adds nothing; a named one adds its record in front |
| A2S.ListedIncreasing | src/query_server/query_request/player_query.py:42-50 | records come in dict order with strictly increasing indices |
| A2S.ListedComplete | src/query_server/query_request/player_query.py:42-51 | every named entry is listed at its position |
| A2S.UnnamedCountedNotListed | src/query_server/query_request/player_query.py:40-47 | an unnamed entry is counted in the header but no record carries its index |
| A2S.PlayerReply | src/query_server/query_request/player_query.py:40-55 | succeeds exactly when the count fits a byte and the loop succeeds; the header count is the number of entries |
| A2S.ParseRecordsOfEncode | src/query_server/query_request/player_query.py:50-53 | a client reads the emitted records back |
| A2S.ParsePlayerReplyOf | src/query_server/query_request/player_query.py:40-53 | a client reads back the count and the records |
| A2S.ListedRecordsFit | src/query_server/query_request/player_query.py:50-51 | listed indices fit a byte, and names without NUL encode without a zero byte |
| A2S.PlayerReplyRoundTrip | src/query_server/query_request/player_query.py:40-55 | a client reads back the count of all entries and exactly the named players, with zero score and duration |
| A2S.IdsFit | src/query_server/query_request/info_query.py:9-12 | the Steam id and the game id fit their eight-byte fields |
| A2S.NamesHaveNoNul | src/query_server/query_request/info_query.py:21-23 | the fixed map, folder and game strings hold no NUL |
| A2S.KeywordsHaveNoNul | src/query_server/query_request/info_query.py:13-15 | the fixed parts of the keywords hold no NUL |
| A2S.PyLen | src/query_server/query_request/info_query.py:25 | `len` succeeds exactly on a dict, list or string |
| A2S.StrOf | src/query_server/query_request/info_query.py:20-32 | `.encode` succeeds exactly on a string |
| A2S.IntOf | src/query_server/query_request/info_query.py:8-34 | `struct.pack` takes exactly an int or a bool |
| A2S.InfoQuery | src/query_server/query_request/info_query.py:5-39 | raises exactly on a wrongly typed or out-of-range setting, and otherwise is the info reply for those settings |
| A2S.ReadFourStringsOf | src/query_server/query_request/info_query.py:20-23 | the four strings read back |
| A2S.ExtraDataRoundTrip | src/query_server/query_request/info_query.py:33-37 | a client reads back the port, Steam id, keywords and game id that the flags announce |
| A2S.InfoHeadRoundTrip | src/query_server/query_request/info_query.py:17-23 | a client reads back the protocol and the four strings |
| A2S.InfoBodyRoundTrip | src/query_server/query_request/info_query.py:24-37 | a client reads back the app id, the counts, the version and the extra data |
| A2S.InfoReplyRoundTrip | src/query_server/query_request/info_query.py:16-38 | a client reads back every field of the info reply |
| A2S.InfoQueryRoundTrip | src/query_server/query_request/info_query.py:5-39 | well-typed settings give a reply from which a client reads back the player count, name, version and port |
| QueryServer.Find | src/query_server/query_request/player_query.py:20 | a key is found exactly when some item has a key that compares equal to it |
| QueryServer.Put | src/query_server/query_request/player_query.py:20 | `d[k] = v`: keys stay distinct, `k` reads back `v`, every other key is unchanged, no unrelated key is added |
| QueryServer.PutBehindHead | src/query_server/query_request/player_query.py:20 | putting a key past an unrelated head keeps the keys distinct |
| QueryServer.PutKeys | src/query_server/query_request/player_query.py:20 | putting a key adds that key and no other |
| QueryServer.SteamIdOf | src/query_server/query_request/player_query.py:20 | `player["steam_id"]` succeeds only on a dict holding that key, and the value must be hashable |
| QueryServer.ReKey | src/query_server/query_request/player_query.py:19-20 | the re-keying raises exactly when some player lacks a usable Steam id; the keys are distinct |
| QueryServer.AllIdsSplit | src/query_server/query_request/player_query.py:20 | every player has an id exactly when all but the last do and the last does |
| QueryServer.ReKeyLastWins | src/query_server/query_request/player_query.py:20 | a player listed last under its Steam id is the one kept |
| QueryServer.ReKeyOnlyListedIds | src/query_server/query_request/player_query.py:20 | the re-keyed dict has exactly the Steam ids the players carry |
| QueryServer.DictOf | src/query_server/query_request/player_query.py:42 | a decoded object's items become a dict of string keys in the same order |
| QueryServer.AsPlayers | src/query_server/query_request/player_query.py:19-20 | only a list whose re-keying fails raises |
| QueryServer.PlayerQuery | src/query_server/query_request/player_query.py:9-55 | a non-zero challenge is answered only when it equals the one issued to the host, which it consumes before the reply is built, so also when building the reply raises; a request with challenge 0 or the issued one gets exactly the player reply whenever that reply can be built, for a dict or a re-keyed list of players; a `Some` reply is always that reply |
| QueryServer.Create | src/query_server/query_server.py:17-28 | construction raises exactly when the configured version is not a string; the tables start empty |
| QueryServer.HandleEvent | src/query_server/query_server.py:51-62 | a players event stores a truthy payload as is and a falsy one as `{}`; a version event stores its truthy data or the default version; other events change nothing; the configuration and the challenges never change |
| QueryServer.ConfiguredVersionIsGet | src/query_server/query_server.py:27-43 | the version path is `Config.get("VERSION_GAME", …)` |
| QueryServer.ConfiguredNameIsGet | src/query_server/query_server.py:41-43 | the server-name path is `Config.get("SERVERS.1005.SERVER_NAME", …)` |
| QueryServer.ConfiguredPortIsGet | src/query_server/query_server.py:41-43 | the game-port path is `Config.get("SERVERS.1005.GAME_PORT", …)` |
| QueryServer.HandleRequest | src/query_server/query_server.py:30-49 | only the challenge table can change; an info request changes nothing; a get-challenge request stores the random value for the host; an unknown type is ignored |
| QueryServer.Classify | src/query_server/query_server.py:100-116 | corrected pattern (F5): a request is a player request only when it has that shape and is not the challenge request; an unknown one matches no pattern |
| QueryServer.RouteRequest | src/query_server/query_server.py:100-116 | corrected pattern (F5): an unrecognised datagram changes nothing and gets no reply |
| QueryServer.RouteRequestAsWritten | src/query_server/query_server.py:100-116 | the same with the player pattern as compiled |
| QueryServer.ClassifyAgrees | src/constants.py:27 | the pattern as compiled and the corrected one classify alike when no challenge byte is a newline |
| QueryServer.RouteRequestAgrees | src/query_server/query_server.py:100-116 | on such a request the routing as written and the corrected routing give the same state and reply |
| QueryServer.Serve | src/query_server/query_server.py:81-91 | over the corrected routing (F5): a reply is sent exactly when routing produced one, and a raised exception only drops the reply |
| QueryServer.NonZeroChallengeRequest | src/query_server/query_server.py:100-116 | corrected pattern (F5): a replayed non-zero challenge is routed as a player request |
| QueryServer.NonZeroChallengeRequestAsWritten | src/query_server/query_server.py:100-116 | as written, a replayed non-zero challenge without a newline byte is routed as a player request |
| QueryServer.ServeChallenge | src/query_server/query_server.py:44-46 | a get-challenge request is answered with the challenge reply, and the challenge is stored for the host |
| QueryServer.ServePlayer | src/query_server/query_server.py:47-49 | a player request is `player_query` on the server's tables |
| QueryServer.PlayerRequestAccepted | src/query_server/query_request/player_query.py:27-40 | corrected pattern (F5): the issued challenge is accepted once and consumed, and the player reply is sent |
| QueryServer.PlayerRequestAcceptedAsWritten | src/query_server/query_request/player_query.py:27-40 | as written, the same exchange without a newline byte in the challenge gets the player reply and consumes the challenge |
| QueryServer.ChallengeThenPlayers | src/query_server/query_server.py:44-49 | asking for a challenge, then replaying it, gets the player reply |
| QueryServer.ReplayRejected | src/query_server/query_request/player_query.py:27-34 | a wrong or already consumed challenge gets no reply and changes nothing |
| QueryServer.ZeroChallengeSkipsCheck | src/query_server/query_request/player_query.py:27-55 | a request with challenge 0 is never rejected, leaves the table alone, and gets the player reply of a dict of players whenever it can be built |
| QueryServer.NewlineChallengeDropped | src/constants.py:27 | as written, challenge 10 is issued and its replay is dropped; the intended pattern answers it (F5) |
| QueryServer.ServeInfo | src/query_server/query_server.py:38-43 | an info request is answered with `info_query` on the configured values |
| QueryServer.InfoAfterPlayersEvent | src/query_server/query_server.py:38-62 | after a players event, a client reading the info reply sees that many players |

## Left out

- File and socket I/O, the logger, the mediator, the watchdog, asyncio tasks
  and signal handling are not modelled. File contents, datagrams, the sender's
  host, the wall clock, firewall and admin outcomes and the random challenge
  are inputs. Writes to disk and published events are outputs.
- The firewall (`netsh`) commands and the admin check are not modelled: their
  outcomes are the boolean inputs `firewallOk`, `Settings.admin` and the set
  `unblockOk`.
- Clocks are integer microsecond ticks, so floating-point seconds are not modelled.
- Timestamps.ParseStamp: parses only the fixed-width shape the log pattern
  captures, not every form `strptime` would accept, because no other shape
  reaches it.
- LogFiles.StrptimeDate: `\d` is taken as the ASCII digits, while Python's
  `strptime` pattern also accepts other Unicode decimal digits.
- LogParser.SplitLines: the universal-newline translation of `\r` and `\r\n`
  that text mode performs is not modelled; lines end only at `\n`.
- Json.Lookup: returns the first binding of a key, while `json.load` keeps the
  last one; decoded objects are taken to have distinct keys.
- QueryServer.Classify: states the corrected player pattern (finding F5); the
  pattern as compiled agrees only when no challenge byte is 0x0A (QueryServer.RouteRequestAgrees).
- QueryServer.RouteRequest: states the corrected player pattern (finding F5); the
  pattern as compiled agrees only when no challenge byte is 0x0A (QueryServer.RouteRequestAgrees).
- QueryServer.Serve: states the corrected player pattern (finding F5); the
  pattern as compiled agrees only when no challenge byte is 0x0A (QueryServer.RouteRequestAgrees).
- QueryServer.NonZeroChallengeRequest: states the corrected player pattern (finding F5); the
  pattern as compiled agrees only when no challenge byte is 0x0A (QueryServer.RouteRequestAgrees).
- QueryServer.PlayerRequestAccepted: states the corrected player pattern (finding F5); the
  pattern as compiled agrees only when no challenge byte is 0x0A (QueryServer.RouteRequestAgrees).
- A replayed challenge with a 0x0A byte gets no answer from the code as
  written (A2S.NewlineChallengeUnrecognised, finding F5).
- Patterns.SearchFrom: `\d`, `\w` and `\s` use ASCII digits and word
  characters and the `str.isspace` set, not full Unicode categories.
- LogParser.ReadFrom: offsets count characters, not bytes, because files are
  modelled as text.
- `IP_PATTERN` (`src/constants.py:18`) is not modelled: no core code uses it.
- `_parse_history`, `start_parsing` and `_parse_single_log` are plumbing over
  the modelled line handler and tail step, and are not modelled.
- `QueryServer.game_version` is kept in the state but no reply reads it, as in
  the code.
- `server_ip` and `query_port` only bind the socket, so they are not modelled.
- Wire.Utf8: lone surrogates cannot occur in a Dafny `char`, so the encoding
  error `encode` raises for them is not modelled.
- Json: floating-point values are not modelled; numbers are integers. So a
  float setting such as a `GAME_PORT` of `1.0`, which makes `struct.pack`
  raise in `info_query.py`, cannot be expressed.
- QueryServer.Find: of the dict keys that compare equal across types, only
  `True`/`1` and `False`/`0` are modelled, because the model has no floats; a
  float Steam id such as `1.0` would collide with the int `1`.
- AbuseGuard.BlockedAt: a stored block stamp that is not a string, or that is
  timezone-aware, makes `fromisoformat` or the subtraction raise `TypeError`,
  which `_unblock_expired_ips` (`src/log_parser/ddos_protection.py:139`) does
  not catch. The model has only the `ValueError` case (`Unparsable`), because
  such a stamp needs a hand-edited block list.
- A2S.PlayerReply: the four-byte float duration is always zero, so it is
  modelled as four zero bytes.
- `_notify_players_changed` and the `telegram_token` property only publish
  or read a setting, so they are not modelled.
- LogParser.HandleFileChange: rotation and delete-recreate detection are not
  modelled, because the code tracks a file only by its base name.

## Findings

| source | as written | input that shows it | evidently intended | confidence | as-written member | corrected member |
|---|---|---|---|---|---|---|
| src/log_parser/ddos_protection.py:133-224 | `_unblock_ip` deletes from `blocked_ips` while `_unblock_expired_ips` iterates over it, so the dict changes size during iteration and `RuntimeError` escapes the sweep | admin rights, two entries expired an hour ago, both unblocks succeed | release every expired entry whose unblock succeeded | not executed | AbuseGuard.SweepAsWrittenAbortsAfterUnblock | AbuseGuard.Sweep |
| src/log_parser/ddos_protection.py:137-219 | after a failed firewall unblock the caller still deletes the entry, although the comments say it is kept for a retry | admin rights, one expired entry whose unblock fails | keep the entry and retry on the next sweep | not executed | AbuseGuard.SweepAsWrittenDropsFailedUnblock | AbuseGuard.SweepRetriesFailedUnblock |
| src/log_parser/log_parser.py:111-117 | the truncation check compares the position after reading with the stored offset, and that position is never below the offset after a seek past the end | stored offset 100, file truncated to 10 characters | detect the shrink and re-read from the start | not executed | LogParser.TruncationMissed | LogParser.CheckedDeliversTruncated |
| utils/log_file_manager.py:77-79 | compares a `datetime` with a `date`, which raises `TypeError` for any rotated file when the target is a `datetime` | target a `datetime`, one archive dated on or after it | compare days | not executed | LogFiles.OneArchiveAfterTarget | LogFiles.FindAfterDate |
| src/constants.py:27 | `.` in the player pattern does not match a newline byte, because `re.DOTALL` is missing | challenge 10 issued, replayed as `FF FF FF FF 55 0A 00 00 00` | accept any four challenge bytes | not executed | QueryServer.NewlineChallengeDropped | QueryServer.ChallengeThenPlayers |

=== FILE: a2s.dfy ===
/** The Source-engine query packets the query server answers: recognising
    the three requests, and the challenge, info and player replies, each
    with a decoder that reads a reply back as a client would. */
module A2S {
  import opened Common
  import opened Json
  import opened Wire

  /** Bytes of a string literal whose characters are all ASCII. */
  function Ascii(s: string): (r: Bytes)
    requires forall i :: 0 <= i < |s| ==> s[i] as int < 128
    ensures |r| == |s|
  {
    seq(|s|, i requires 0 <= i < |s| => s[i] as int)
  }

  lemma AsciiNoNul(s: string)
    requires forall i :: 0 <= i < |s| ==> s[i] as int < 128
    requires '\0' !in s
    ensures 0 !in Ascii(s)
  {
    forall i | 0 <= i < |s| ensures Ascii(s)[i] != 0 {
      assert s[i] != '\0';
    }
  }

  /** A NUL-terminated string. */
  function CStr(s: Bytes): Bytes { s + [0] }

  const HEADER: Bytes := [0xFF, 0xFF, 0xFF, 0xFF]
  const NEWLINE: byte := 0x0A

  const INFO_REQUEST: Bytes := HEADER + [0x54] + CStr(Ascii("Source Engine Query"))
  const CHALLENGE_REQUEST: Bytes := HEADER + [0x55, 0, 0, 0, 0]

  // ---------------------------------------------------------------------
  // Recognising requests (`A2S_INFO`, `A2S_SERVERQUERY_GETCHALLENGE`,
  // `A2S_PLAYER` with `re.match`)

  /** `^lit$`: `$` also matches just before a final newline. */
  predicate MatchesExactly(d: Bytes, lit: Bytes) {
    d == lit || d == lit + [NEWLINE]
  }

  predicate IsInfoRequest(d: Bytes) { MatchesExactly(d, INFO_REQUEST) }

  predicate IsChallengeRequest(d: Bytes) { MatchesExactly(d, CHALLENGE_REQUEST) }

  /** `^\xFF\xFF\xFF\xFF[UV](.{4})$` without the restriction on what `.`
      matches: header, `U` or `V`, four bytes, optionally a final newline. */
  predicate PlayerShape(d: Bytes) {
    && (|d| == 9 || (|d| == 10 && d[9] == NEWLINE))
    && d[..4] == HEADER
    && (d[4] == 0x55 || d[4] == 0x56)
  }

  /** The player pattern as compiled: without `re.DOTALL`, `.` does not
      match a newline byte, so none of the four challenge bytes may be 0x0A. */
  predicate IsPlayerRequestAsWritten(d: Bytes) {
    PlayerShape(d) && forall k :: 5 <= k < 9 ==> d[k] != NEWLINE
  }

  /** The player pattern with `re.DOTALL`: any four challenge bytes. */
  predicate IsPlayerRequest(d: Bytes) { PlayerShape(d) }

  /** The request a client sends to replay challenge `c`. */
  function PlayerRequest(c: nat): (r: Bytes)
    requires c < Pow256(4)
    ensures IsPlayerRequest(r)
  {
    assert (HEADER + [0x55] + LE(c, 4))[..4] == HEADER;
    HEADER + [0x55] + LE(c, 4)
  }

  /** The get-challenge request also has the player request's shape; only
      the order of the tests sends it to the challenge handler. */
  lemma ChallengeRequestHasPlayerShape(d: Bytes)
    requires IsChallengeRequest(d)
    ensures IsPlayerRequestAsWritten(d) && IsPlayerRequest(d)
  {
    assert d[..4] == HEADER;
  }

  /** The three patterns are told apart by length or by the type byte. */
  lemma RequestsDisjoint(d: Bytes)
    ensures !(IsInfoRequest(d) && IsChallengeRequest(d))
    ensures !(IsInfoRequest(d) && IsPlayerRequest(d))
  {
    assert |INFO_REQUEST| == 25;
  }

  /** As written, a replayed challenge with a 0x0A byte matches no pattern
      (challenge 10 is `0A 00 00 00`); with `re.DOTALL` it is a player request. */
  lemma NewlineChallengeUnrecognised()
    ensures var d := PlayerRequest(10);
            !IsInfoRequest(d) && !IsChallengeRequest(d) && !IsPlayerRequestAsWritten(d)
            && IsPlayerRequest(d)
  {
    var d := PlayerRequest(10);
    assert LE(10, 4) == [10, 0, 0, 0];
    assert d[5] == 10;
    assert d != CHALLENGE_REQUEST;
    assert |d| == 9 && |INFO_REQUEST| == 25;
  }

  /** Both forms agree on every request whose challenge bytes hold no newline. */
  lemma PlayerPatternsAgree(d: Bytes)
    requires forall k :: 5 <= k < 9 && k < |d| ==> d[k] != NEWLINE
    ensures IsPlayerRequestAsWritten(d) <==> IsPlayerRequest(d)
  {
  }

  /** `struct.unpack('<I', data[-4:])`: raises unless there are four bytes. */
  function ChallengeOf(d: Bytes): (r: Result<nat>)
    ensures r.Ok? <==> |d| >= 4
    ensures r.Ok? ==> r.value < Pow256(4) && LE(r.value, 4) == d[|d| - 4..]
  {
    if |d| < 4 then Raised
    else
      LEOfFromLE(d[|d| - 4..]);
      Ok(FromLE(d[|d| - 4..]))
  }

  lemma ChallengeOfPlayerRequest(c: nat)
    requires c < Pow256(4)
    ensures ChallengeOf(PlayerRequest(c)) == Ok(c)
  {
    var d := PlayerRequest(c);
    assert d[|d| - 4..] == LE(c, 4);
    FromLEOfLE(c, 4);
  }

  // ---------------------------------------------------------------------
  // Challenge reply

  /** `b'\xFF\xFF\xFF\xFFA' + struct.pack('<I', c)`. */
  function ChallengeReply(c: nat): (r: Bytes)
    requires c < Pow256(4)
    ensures |r| == 9
  {
    HEADER + [0x41] + LE(c, 4)
  }

  /** A client reading a challenge reply. */
  function ParseChallengeReply(b: Bytes): Option<nat> {
    var rest :- Expect(b, HEADER + [0x41]);
    if |rest| == 4 then Some(FromLE(rest)) else None
  }

  /** The client reads back the issued challenge, and replaying it forms a
      player request carrying it. */
  lemma ChallengeReplyRoundTrip(c: nat)
    requires c < Pow256(4)
    ensures ParseChallengeReply(ChallengeReply(c)) == Some(c)
    ensures ChallengeOf(PlayerRequest(c)) == Ok(c)
  {
    ExpectOf(HEADER + [0x41], LE(c, 4));
    FromLEOfLE(c, 4);
    ChallengeOfPlayerRequest(c);
  }

  // ---------------------------------------------------------------------
  // Player reply

  /** `"name" in player_data`: a key test for a dict, a substring test for
      a string, a membership test for a list; `TypeError` otherwise. */
  function HasName(v: Json): Result<bool> {
    match v
    case JObj(fs) => Ok(HasKey(fs, "name"))
    case JStr(s) => Ok(Contains(s, "name"))
    case JList(xs) => Ok(JStr("name") in xs)
    case _ => Raised
  }

  /** `t in s` for strings: `t` occurs at some position of `s`. */
  predicate Contains(s: string, t: string) {
    StartsWith(s, t) || (s != [] && Contains(s[1..], t))
  }

  /** `player_data["name"].encode('utf-8')`: only a dict whose name is a
      string gets through. */
  function NameOf(v: Json): (r: Result<string>)
    ensures r.Ok? ==> v.JObj? && Lookup(v.fields, "name") == Some(JStr(r.value))
  {
    if v.JObj? then
      match Lookup(v.fields, "name")
      case Some(JStr(n)) => Ok(n)
      case _ => Raised
    else Raised
  }

  /** Listing this player raises. */
  predicate FailsToList(v: Json) {
    HasName(v).Raised? || (HasName(v) == Ok(true) && NameOf(v).Raised?)
  }

  /** No entry from position `from` on fails to list. */
  predicate AllList(entries: seq<(Json, Json)>, from: nat)
    requires from <= |entries|
    decreases |entries| - from
  {
    from == |entries| || (!FailsToList(entries[from].1) && AllList(entries, from + 1))
  }

  lemma {:induction false} AllListIff(entries: seq<(Json, Json)>, from: nat)
    requires from <= |entries|
    ensures AllList(entries, from) <==> forall j :: from <= j < |entries| ==> !FailsToList(entries[j].1)
    decreases |entries| - from
  {
    if from < |entries| {
      AllListIff(entries, from + 1);
    }
  }

  /** A record names the entry at its 1-based position, by that entry's name. */
  predicate Names(entries: seq<(Json, Json)>, rec: (nat, string)) {
    0 < rec.0 <= |entries| && NameOf(entries[rec.0 - 1].1) == Ok(rec.1)
  }

  /** The players the loop emits, from position `from` on: the 1-based
      position of each entry that has a name, with that name. */
  function Listed(entries: seq<(Json, Json)>, from: nat): (r: Result<seq<(nat, string)>>)
    requires from <= |entries|
    ensures r.Ok? ==> forall k :: 0 <= k < |r.value| ==> from < r.value[k].0 && Names(entries, r.value[k])
    decreases |entries| - from
  {
    if from == |entries| then Ok([])
    else
      var v := entries[from].1;
      match HasName(v)
      case Raised => Raised
      case Ok(has) =>
        if !has then Listed(entries, from + 1)
        else
          match NameOf(v)
          case Raised => Raised
          case Ok(name) =>
            match Listed(entries, from + 1)
            case Raised => Raised
            case Ok(rest) =>
              PositionsCons(entries, from, name, rest);
              Ok([(from + 1, name)] + rest)
  }

  /** The named entry at `from`, put in front of the later ones, keeps
      every record at its entry's position with its entry's name. */
  lemma PositionsCons(entries: seq<(Json, Json)>, from: nat, name: string, rest: seq<(nat, string)>)
    requires from < |entries| && NameOf(entries[from].1) == Ok(name)
    requires forall k :: 0 <= k < |rest| ==> from + 1 < rest[k].0 && Names(entries, rest[k])
    ensures var r := [(from + 1, name)] + rest;
            forall k :: 0 <= k < |r| ==> from < r[k].0 && Names(entries, r[k])
  {
    var r := [(from + 1, name)] + rest;
    forall k | 0 <= k < |r| ensures from < r[k].0 && Names(entries, r[k]) {
      if k > 0 {
        assert r[k] == rest[k - 1];
      }
    }
  }

  lemma {:induction false} ListedOkIff(entries: seq<(Json, Json)>, from: nat)
    requires from <= |entries|
    ensures Listed(entries, from).Ok? <==> AllList(entries, from)
    decreases |entries| - from
  {
    if from < |entries| {
      ListedOkIff(entries, from + 1);
    }
  }

  /** Listing raises exactly when some entry fails to list. */
  lemma ListedRaises(entries: seq<(Json, Json)>, from: nat)
    requires from <= |entries|
    ensures Listed(entries, from).Raised? <==> exists j :: from <= j < |entries| && FailsToList(entries[j].1)
  {
    ListedOkIff(entries, from);
    AllListIff(entries, from);
  }

  /** One step of the loop: an entry without a name adds nothing, an
      entry with one adds its position and name in front of the rest. */
  lemma ListedStep(entries: seq<(Json, Json)>, from: nat)
    requires from < |entries| && Listed(entries, from).Ok?
    ensures Listed(entries, from + 1).Ok? && HasName(entries[from].1).Ok?
    ensures HasName(entries[from].1) == Ok(false) ==> Listed(entries, from).value == Listed(entries, from + 1).value
    ensures HasName(entries[from].1) == Ok(true) ==>
              && NameOf(entries[from].1).Ok?
              && Listed(entries, from).value == [(from + 1, NameOf(entries[from].1).value)] + Listed(entries, from + 1).value
  {
  }

  /** Strictly increasing positions. */
  predicate Increasing(r: seq<(nat, string)>) {
    forall k, l :: 0 <= k < l < |r| ==> r[k].0 < r[l].0
  }

  lemma IncreasingCons(x: (nat, string), tail: seq<(nat, string)>)
    requires Increasing(tail)
    requires forall k :: 0 <= k < |tail| ==> x.0 < tail[k].0
    ensures Increasing([x] + tail)
  {
    var r := [x] + tail;
    forall k, l | 0 <= k < l < |r| ensures r[k].0 < r[l].0 {
      assert r[l] == tail[l - 1];
      if k > 0 {
        assert r[k] == tail[k - 1];
      }
    }
  }

  /** Players are listed in their order in the dict. */
  lemma {:induction false} ListedIncreasing(entries: seq<(Json, Json)>, from: nat)
    requires from <= |entries| && Listed(entries, from).Ok?
    ensures Increasing(Listed(entries, from).value)
    decreases |entries| - from
  {
    if from < |entries| {
      ListedStep(entries, from);
      ListedIncreasing(entries, from + 1);
      if HasName(entries[from].1) == Ok(true) {
        IncreasingCons((from + 1, NameOf(entries[from].1).value), Listed(entries, from + 1).value);
      }
    }
  }

  /** Every entry that has a name is listed, at its 1-based position. */
  lemma {:induction false} ListedComplete(entries: seq<(Json, Json)>, from: nat, j: nat)
    requires from <= j < |entries| && Listed(entries, from).Ok?
    requires HasName(entries[j].1) == Ok(true)
    ensures NameOf(entries[j].1).Ok? && (j + 1, NameOf(entries[j].1).value) in Listed(entries, from).value
    decreases |entries| - from
  {
    ListedStep(entries, from);
    var r := Listed(entries, from).value;
    var tail := Listed(entries, from + 1).value;
    if j == from {
      assert r[0] == (j + 1, NameOf(entries[j].1).value);
    } else {
      ListedComplete(entries, from + 1, j);
      var x := (j + 1, NameOf(entries[j].1).value);
      if HasName(entries[from].1) == Ok(true) {
        assert x in [(from + 1, NameOf(entries[from].1).value)] + tail;
      }
    }
  }

  const ZERO4: Bytes := [0, 0, 0, 0]

  /** One emitted player: index byte, name, zero score, zero duration. */
  function EncodeRecords(recs: seq<(nat, string)>): Bytes
    requires forall k :: 0 <= k < |recs| ==> recs[k].0 < 256
  {
    if recs == [] then []
    else [recs[0].0] + (CStr(Utf8(recs[0].1)) + (ZERO4 + (ZERO4 + EncodeRecords(recs[1..]))))
  }

  /** `player_query`'s reply for a dict given as its items: the header, the
      number of entries (named or not), then each named player. */
  function PlayerReply(entries: seq<(Json, Json)>): (r: Result<Bytes>)
    ensures r.Ok? <==> |entries| < 256 && Listed(entries, 0).Ok?
    ensures r.Ok? ==> r.value == HEADER + [0x44] + ([|entries|] + EncodeRecords(Listed(entries, 0).value))
  {
    var count :- Pack(|entries|, 1);
    assert count == [|entries|];
    var recs :- Listed(entries, 0);
    Ok(HEADER + [0x44] + (count + EncodeRecords(recs)))
  }

  /** A player as a client reads it: index, raw name bytes, and the raw
      32-bit score and duration fields. */
  datatype PlayerRecord = PlayerRecord(index: nat, name: Bytes, score: nat, duration: nat)

  function ParseRecords(b: Bytes): Option<seq<PlayerRecord>>
    decreases |b|
  {
    if b == [] then Some([])
    else
      var idx :- ReadLE(b, 1);
      var name :- ReadCString(idx.1);
      var score :- ReadLE(name.1, 4);
      var duration :- ReadLE(score.1, 4);
      assert |duration.1| < |b|;
      var tail :- ParseRecords(duration.1);
      Some([PlayerRecord(idx.0, name.0, score.0, duration.0)] + tail)
  }

  /** A client reading a player reply: the announced count and the players. */
  function ParsePlayerReply(b: Bytes): Option<(nat, seq<PlayerRecord>)> {
    var rest :- Expect(b, HEADER + [0x44]);
    var count :- ReadLE(rest, 1);
    var players :- ParseRecords(count.1);
    Some((count.0, players))
  }

  /** What the client should read for the emitted players. */
  function Expected(recs: seq<(nat, string)>): (r: seq<PlayerRecord>)
    ensures |r| == |recs|
  {
    if recs == [] then [] else [PlayerRecord(recs[0].0, Utf8(recs[0].1), 0, 0)] + Expected(recs[1..])
  }

  lemma {:induction false} ParseRecordsOfEncode(recs: seq<(nat, string)>)
    requires forall k :: 0 <= k < |recs| ==> recs[k].0 < 256 && '\0' !in recs[k].1
    ensures ParseRecords(EncodeRecords(recs)) == Some(Expected(recs))
  {
    if recs != [] {
      var rest := EncodeRecords(recs[1..]);
      var name := Utf8(recs[0].1);
      FromLEOfLE(0, 4);
      assert LE(0, 4) == ZERO4;
      assert 0 < Pow256(1) == 256;
      ReadLEOf(recs[0].0, 1, CStr(name) + (ZERO4 + (ZERO4 + rest)));
      assert LE(recs[0].0, 1) == [recs[0].0];
      ReadCStringOf(name, ZERO4 + (ZERO4 + rest));
      ReadLEOf(0, 4, ZERO4 + rest);
      ReadLEOf(0, 4, rest);
      ParseRecordsOfEncode(recs[1..]);
    }
  }

  /** A player whose value is a dict without a name, or a string not
      containing "name", is counted but not listed. */
  lemma UnnamedCountedNotListed(entries: seq<(Json, Json)>, j: nat)
    requires j < |entries| && HasName(entries[j].1) == Ok(false)
    requires Listed(entries, 0).Ok?
    ensures forall k :: 0 <= k < |Listed(entries, 0).value| ==> Listed(entries, 0).value[k].0 != j + 1
  {
    var r := Listed(entries, 0).value;
    forall k | 0 <= k < |r| ensures r[k].0 != j + 1 {
      var v := entries[r[k].0 - 1].1;
      assert NameOf(v).Ok? && HasKey(v.fields, "name");
    }
  }

  lemma {:induction false} ParsePlayerReplyOf(count: nat, recs: seq<(nat, string)>)
    requires count < 256
    requires forall k :: 0 <= k < |recs| ==> recs[k].0 < 256 && '\0' !in recs[k].1
    ensures ParsePlayerReply(HEADER + [0x44] + ([count] + EncodeRecords(recs))) == Some((count, Expected(recs)))
  {
    var body := EncodeRecords(recs);
    ExpectOf(HEADER + [0x44], [count] + body);
    ReadLEOf(count, 1, body);
    assert LE(count, 1) == [count];
    ParseRecordsOfEncode(recs);
  }

  /** Listed records have one-byte positions and, when the names carry
      no NUL, NUL-free names. */
  lemma ListedRecordsFit(entries: seq<(Json, Json)>)
    requires |entries| < 256 && Listed(entries, 0).Ok?
    requires forall j :: 0 <= j < |entries| && NameOf(entries[j].1).Ok? ==> '\0' !in NameOf(entries[j].1).value
    ensures forall k :: 0 <= k < |Listed(entries, 0).value| ==>
              Listed(entries, 0).value[k].0 < 256 && '\0' !in Listed(entries, 0).value[k].1
  {
    var recs := Listed(entries, 0).value;
    forall k | 0 <= k < |recs| ensures recs[k].0 < 256 && '\0' !in recs[k].1 {
      assert Names(entries, recs[k]);
      assert NameOf(entries[recs[k].0 - 1].1) == Ok(recs[k].1);
    }
  }

  /** The client reads back the count of all entries and exactly the named
      players, by 1-based position, with their UTF-8 names. */
  lemma PlayerReplyRoundTrip(entries: seq<(Json, Json)>)
    requires PlayerReply(entries).Ok?
    requires forall j :: 0 <= j < |entries| && NameOf(entries[j].1).Ok? ==> '\0' !in NameOf(entries[j].1).value
    ensures ParsePlayerReply(PlayerReply(entries).value)
            == Some((|entries|, Expected(Listed(entries, 0).value)))
  {
    ListedRecordsFit(entries);
    ParsePlayerReplyOf(|entries|, Listed(entries, 0).value);
  }

  // ---------------------------------------------------------------------
  // Info reply

  const MAP_NAME: Bytes := Ascii("Map_Lobby")
  const GAME_FOLDER: Bytes := Ascii("MOE")
  const GAME_NAME: Bytes := Ascii("MOE")
  const KEYWORDS_HEAD: Bytes :=
    Ascii("BUILDID:0,") + Ascii("OWNINGID:") + Ascii("90263762") + Ascii("545778710,") + Ascii("OWNINGNAME:")
  const KEYWORDS_TAIL: Bytes :=
    Ascii(",SESSION") + Ascii("FLAGS:552,") + Ascii("MATCH") + Ascii("TIMEOUT_f:") + Ascii("120.000000,")
    + Ascii("GameMode_s:") + Ascii("SG")

  const PROTOCOL: byte := 0x11
  const MAX_PLAYERS: byte := 100
  /** Extra-data flags: port (0x80), Steam id (0x10), keywords (0x20), game id (0x01). */
  const EDF: byte := 0x80 + 0x10 + 0x20 + 0x01
  const STEAM_ID: nat := 90263762545778710
  const GAME_ID: nat := 9000

  /** The Steam id and game id fit their eight-byte fields. */
  lemma IdsFit()
    ensures STEAM_ID < Pow256(8) && GAME_ID < Pow256(8)
  {
    assert Pow256(8) == 18446744073709551616;
  }

  /** The fixed strings of the info reply carry no NUL. */
  lemma NamesHaveNoNul()
    ensures 0 !in MAP_NAME && 0 !in GAME_FOLDER && 0 !in GAME_NAME
  {
    AsciiNoNul("Map_Lobby");
    AsciiNoNul("MOE");
  }

  lemma KeywordsHaveNoNul()
    ensures 0 !in KEYWORDS_HEAD && 0 !in KEYWORDS_TAIL
  {
    KeywordsHeadHasNoNul();
    KeywordsTailHasNoNul();
  }

  lemma KeywordsHeadHasNoNul()
    ensures 0 !in KEYWORDS_HEAD
  {
    AsciiNoNul("BUILDID:0,");
    AsciiNoNul("OWNINGID:");
    AsciiNoNul("90263762");
    AsciiNoNul("545778710,");
    AsciiNoNul("OWNINGNAME:");
  }

  lemma KeywordsTailHasNoNul()
    ensures 0 !in KEYWORDS_TAIL
  {
    AsciiNoNul(",SESSION");
    AsciiNoNul("FLAGS:552,");
    AsciiNoNul("MATCH");
    AsciiNoNul("TIMEOUT_f:");
    AsciiNoNul("120.000000,");
    AsciiNoNul("GameMode_s:");
    AsciiNoNul("SG");
  }

  /** The keywords string naming the server. */
  function Keywords(name: string): Bytes {
    KEYWORDS_HEAD + Utf8(name) + KEYWORDS_TAIL
  }

  /** Counts and flags after the game id: players, maximum, bots, dedicated
      (`d`), Windows (`w`), no password, VAC on. */
  function Fixed(players: byte): Bytes {
    [players, MAX_PLAYERS, 0, 0x64, 0x77, 0, 1]
  }

  /** The extra-data block: flags, port, Steam id, keywords, game id. */
  function ExtraData(port: nat, name: string): Bytes
    requires port < Pow256(2)
  {
    IdsFit();
    [EDF] + (LE(port, 2) + (LE(STEAM_ID, 8) + (CStr(Keywords(name)) + LE(GAME_ID, 8))))
  }

  /** The info reply for a player count, version, server name and port. */
  function InfoReply(players: byte, version: string, name: string, port: nat): Bytes
    requires port < Pow256(2)
  {
    HEADER + [0x49, PROTOCOL]
    + (CStr(Utf8(name))
    + (CStr(MAP_NAME)
    + (CStr(GAME_FOLDER)
    + (CStr(GAME_NAME)
    + ([0, 0]
    + (Fixed(players)
    + (CStr(Utf8(version))
    + ExtraData(port, name))))))))
  }

  /** `len(x)`: a dict, list or string has one; anything else raises. */
  function PyLen(v: Json): (r: Result<nat>)
    ensures r.Ok? <==> v.JObj? || v.JList? || v.JStr?
  {
    match v
    case JObj(fs) => Ok(|fs|)
    case JList(xs) => Ok(|xs|)
    case JStr(s) => Ok(|s|)
    case _ => Raised
  }

  /** `x.encode('utf-8')` needs a string. */
  function StrOf(v: Json): (r: Result<string>)
    ensures r.Ok? <==> v.JStr?
  {
    if v.JStr? then Ok(v.s) else Raised
  }

  /** The integer `struct.pack` sees: a bool packs as 0 or 1. */
  function IntOf(v: Json): (r: Result<int>)
    ensures r.Ok? <==> v.JInt? || v.JBool?
  {
    match v
    case JInt(i) => Ok(i)
    case JBool(b) => Ok(if b then 1 else 0)
    case _ => Raised
  }

  /** `info_query(players_data, game_version, server_name, game_port)`. */
  function InfoQuery(playersData: Json, version: Json, serverName: Json, gamePort: Json): (r: Result<Bytes>)
    ensures r.Ok? <==> && IntOf(gamePort).Ok? && 0 <= IntOf(gamePort).value < 0x1_0000
                       && serverName.JStr? && version.JStr?
                       && PyLen(playersData).Ok? && PyLen(playersData).value < 256
    ensures r.Ok? ==> r.value == InfoReply(PyLen(playersData).value, version.s, serverName.s, IntOf(gamePort).value)
  {
    var portValue :- IntOf(gamePort);
    var port :- Pack(portValue, 2);
    var name :- StrOf(serverName);
    var count :- PyLen(playersData);
    var _ :- Pack(count, 1);
    var v :- StrOf(version);
    Ok(InfoReply(count, v, name, portValue))
  }

  /** What a client reads from an info reply. The optional fields are
      present exactly when the extra-data flags announce them. */
  datatype Info = Info(
    protocol: nat, name: Bytes, mapName: Bytes, folder: Bytes, game: Bytes, appId: nat,
    fixed: Bytes, version: Bytes, port: Option<nat>, steamId: Option<nat>,
    keywords: Option<Bytes>, gameId: Option<nat>)

  predicate Flag(flags: nat, bit: nat)
    requires bit > 0
  {
    (flags / bit) % 2 == 1
  }

  /** The `w`-byte number announced by `bit`, or nothing. */
  function ReadLEIf(flags: nat, bit: nat, b: Bytes, w: nat): Option<(Option<nat>, Bytes)>
    requires bit > 0
  {
    if Flag(flags, bit) then
      var p :- ReadLE(b, w);
      Some((Some(p.0), p.1))
    else Some((None, b))
  }

  /** The string announced by `bit`, or nothing. */
  function ReadCStringIf(flags: nat, bit: nat, b: Bytes): Option<(Option<Bytes>, Bytes)>
    requires bit > 0
  {
    if Flag(flags, bit) then
      var p :- ReadCString(b);
      Some((Some(p.0), p.1))
    else Some((None, b))
  }

  /** The extra-data block as a client reads it (section "Extra Data Flag"
      of the Source query protocol): port, Steam id, spectator port and
      name, keywords, game id, each only when flagged; nothing may follow. */
  function ParseExtraData(b: Bytes): Option<(Option<nat>, Option<nat>, Option<Bytes>, Option<nat>)> {
    var flags :- ReadLE(b, 1);
    var port :- ReadLEIf(flags.0, 0x80, flags.1, 2);
    var steam :- ReadLEIf(flags.0, 0x10, port.1, 8);
    var spectator :- ReadLEIf(flags.0, 0x40, steam.1, 2);
    var spectatorName :- ReadCStringIf(flags.0, 0x40, spectator.1);
    var keywords :- ReadCStringIf(flags.0, 0x20, spectatorName.1);
    var game :- ReadLEIf(flags.0, 0x01, keywords.1, 8);
    if game.1 == [] then Some((port.0, steam.0, keywords.0, game.0)) else None
  }

  /** Four NUL-terminated strings in a row, and what follows them. */
  function ReadFourStrings(b: Bytes): Option<(Bytes, Bytes, Bytes, Bytes, Bytes)> {
    var s1 :- ReadCString(b);
    var s2 :- ReadCString(s1.1);
    var s3 :- ReadCString(s2.1);
    var s4 :- ReadCString(s3.1);
    Some((s1.0, s2.0, s3.0, s4.0, s4.1))
  }

  lemma ReadFourStringsOf(a: Bytes, b: Bytes, c: Bytes, d: Bytes, rest: Bytes)
    requires 0 !in a && 0 !in b && 0 !in c && 0 !in d
    ensures ReadFourStrings(CStr(a) + (CStr(b) + (CStr(c) + (CStr(d) + rest)))) == Some((a, b, c, d, rest))
  {
    ReadCStringOf(a, CStr(b) + (CStr(c) + (CStr(d) + rest)));
    ReadCStringOf(b, CStr(c) + (CStr(d) + rest));
    ReadCStringOf(c, CStr(d) + rest);
    ReadCStringOf(d, rest);
  }

  /** A client reading an info reply: the protocol and the four strings... */
  function ParseInfoHead(b: Bytes): Option<(nat, Bytes, Bytes, Bytes, Bytes, Bytes)> {
    var rest :- Expect(b, HEADER + [0x49]);
    var protocol :- ReadLE(rest, 1);
    var strings :- ReadFourStrings(protocol.1);
    Some((protocol.0, strings.0, strings.1, strings.2, strings.3, strings.4))
  }

  /** ... then the app id, the seven fixed bytes, the version and the extra data. */
  function ParseInfoBody(b: Bytes): Option<(nat, Bytes, Bytes, (Option<nat>, Option<nat>, Option<Bytes>, Option<nat>))> {
    var appId :- ReadLE(b, 2);
    var fixed :- ReadBytes(appId.1, 7);
    var version :- ReadCString(fixed.1);
    var extra :- ParseExtraData(version.1);
    Some((appId.0, fixed.0, version.0, extra))
  }

  function ParseInfo(b: Bytes): Option<Info> {
    var head :- ParseInfoHead(b);
    var body :- ParseInfoBody(head.5);
    Some(Info(head.0, head.1, head.2, head.3, head.4, body.0, body.1, body.2,
              body.3.0, body.3.1, body.3.2, body.3.3))
  }

  lemma ExtraDataRoundTrip(port: nat, name: string)
    requires port < Pow256(2) && '\0' !in name
    ensures ParseExtraData(ExtraData(port, name)) == Some((Some(port), Some(STEAM_ID), Some(Keywords(name)), Some(GAME_ID)))
  {
    IdsFit();
    KeywordsHaveNoNul();
    var kw := Keywords(name);
    assert 0 !in kw;
    var tail := LE(GAME_ID, 8);
    var afterSteam := CStr(kw) + tail;
    var afterPort := LE(STEAM_ID, 8) + afterSteam;
    var afterFlags := LE(port, 2) + afterPort;
    assert EDF == 0xB1;
    assert Flag(EDF, 0x80) && Flag(EDF, 0x10) && !Flag(EDF, 0x40) && Flag(EDF, 0x20) && Flag(EDF, 0x01);
    ReadLEOf(EDF, 1, afterFlags);
    assert LE(EDF, 1) == [EDF];
    ReadLEOf(port, 2, afterPort);
    assert ReadLEIf(EDF, 0x80, afterFlags, 2) == Some((Some(port), afterPort));
    ReadLEOf(STEAM_ID, 8, afterSteam);
    assert ReadLEIf(EDF, 0x10, afterPort, 8) == Some((Some(STEAM_ID), afterSteam));
    ReadCStringOf(kw, tail);
    assert ReadCStringIf(EDF, 0x20, afterSteam) == Some((Some(kw), tail));
    ReadLEOf(GAME_ID, 8, []);
    assert tail + [] == tail;
    assert ReadLEIf(EDF, 0x01, tail, 8) == Some((Some(GAME_ID), []));
  }

  lemma InfoHeadRoundTrip(name: string, body: Bytes)
    requires '\0' !in name
    ensures ParseInfoHead(HEADER + [0x49, PROTOCOL]
                          + (CStr(Utf8(name)) + (CStr(MAP_NAME) + (CStr(GAME_FOLDER) + (CStr(GAME_NAME) + body)))))
            == Some((PROTOCOL as nat, Utf8(name), MAP_NAME, GAME_FOLDER, GAME_NAME, body))
  {
    NamesHaveNoNul();
    var strings := CStr(Utf8(name)) + (CStr(MAP_NAME) + (CStr(GAME_FOLDER) + (CStr(GAME_NAME) + body)));
    ExpectOf(HEADER + [0x49], [PROTOCOL] + strings);
    assert HEADER + [0x49, PROTOCOL] + strings == (HEADER + [0x49]) + ([PROTOCOL] + strings);
    ReadLEOf(PROTOCOL as nat, 1, strings);
    assert LE(PROTOCOL as nat, 1) == [PROTOCOL];
    ReadFourStringsOf(Utf8(name), MAP_NAME, GAME_FOLDER, GAME_NAME, body);
  }

  lemma InfoBodyRoundTrip(players: byte, version: string, name: string, port: nat)
    requires port < Pow256(2) && '\0' !in name && '\0' !in version
    ensures ParseInfoBody([0, 0] + (Fixed(players) + (CStr(Utf8(version)) + ExtraData(port, name))))
            == Some((0, Fixed(players), Utf8(version), (Some(port), Some(STEAM_ID), Some(Keywords(name)), Some(GAME_ID))))
  {
    var extra := ExtraData(port, name);
    var afterFixed := CStr(Utf8(version)) + extra;
    var afterApp := Fixed(players) + afterFixed;
    ReadLEOf(0, 2, afterApp);
    assert LE(0, 2) == [0, 0];
    ReadBytesOf(Fixed(players), afterFixed);
    ReadCStringOf(Utf8(version), extra);
    ExtraDataRoundTrip(port, name);
  }

  /** The client reads back every field the server put in, and the flags
      announce exactly the optional fields that follow. */
  lemma InfoReplyRoundTrip(players: byte, version: string, name: string, port: nat)
    requires port < Pow256(2) && '\0' !in name && '\0' !in version
    ensures ParseInfo(InfoReply(players, version, name, port))
            == Some(Info(PROTOCOL as nat, Utf8(name), MAP_NAME, GAME_FOLDER, GAME_NAME, 0, Fixed(players),
                         Utf8(version), Some(port), Some(STEAM_ID), Some(Keywords(name)), Some(GAME_ID)))
  {
    var body := [0, 0] + (Fixed(players) + (CStr(Utf8(version)) + ExtraData(port, name)));
    InfoHeadRoundTrip(name, body);
    InfoBodyRoundTrip(players, version, name, port);
  }

  /** `info_query` on string settings and an in-range port answers with a
      reply a client reads back: the player count, the name, the version
      and the port it was given. */
  lemma InfoQueryRoundTrip(playersData: Json, version: string, name: string, port: nat)
    requires PyLen(playersData).Ok? && PyLen(playersData).value < 256
    requires port < 0x1_0000 && '\0' !in name && '\0' !in version
    ensures InfoQuery(playersData, JStr(version), JStr(name), JInt(port)).Ok?
    ensures ParseInfo(InfoQuery(playersData, JStr(version), JStr(name), JInt(port)).value)
            == Some(Info(PROTOCOL as nat, Utf8(name), MAP_NAME, GAME_FOLDER, GAME_NAME, 0,
                         Fixed(PyLen(playersData).value), Utf8(version), Some(port), Some(STEAM_ID),
                         Some(Keywords(name)), Some(GAME_ID)))
  {
    var count := PyLen(playersData).value;
    assert Pow256(2) == 0x1_0000 && Pow256(1) == 256;
    assert IntOf(JInt(port)) == Ok(port as int);
    assert InfoQuery(playersData, JStr(version), JStr(name), JInt(port)) == Ok(InfoReply(count, version, name, port));
    InfoReplyRoundTrip(count, version, name, port);
  }
}

=== FILE: abuse_guard.dfy ===
/** The abuse guard (`DDOSProtection`): a sliding window of request
    timestamps per address and a time-boxed block list.

    Time is in microsecond ticks. Two clocks appear, as in the source: the
    timestamps parsed from log lines (the window's samples) and the wall
    clock `now` (block stamps and expiry). The administrator check and the
    outcome of each firewall command are inputs; writing the block list to
    disk is the `saved` output flag. */
module AbuseGuard {
  import opened Common
  import opened Timestamps

  /** Constructor parameters of the guard. */
  datatype Settings = Settings(threshold: int, intervalSeconds: int, blockHours: int, admin: bool)

  function IntervalTicks(cfg: Settings): int { cfg.intervalSeconds * MICROS_PER_SECOND }

  function BlockTicks(cfg: Settings): int { cfg.blockHours * 3600 * MICROS_PER_SECOND }

  /** A stored block stamp: an ISO time, or text `fromisoformat` rejects
      (possible only in a block list read back from disk). */
  datatype BlockedAt = At(tick: int) | Unparsable

  datatype Guard = Guard(windows: map<string, seq<int>>, blocked: map<string, BlockedAt>)

  /** The state after one operation, whether the block list was written to
      disk, and whether an exception escaped (the state is then what the
      source had mutated before raising). */
  datatype Step = Step(guard: Guard, saved: bool, raised: bool)

  /** No address maps to an empty window. */
  ghost predicate NoEmptyWindow(g: Guard) {
    forall ip :: ip in g.windows ==> g.windows[ip] != []
  }

  /** Every window holds fewer samples than the blocking threshold. */
  ghost predicate BelowThreshold(cfg: Settings, g: Guard) {
    forall ip :: ip in g.windows ==> |g.windows[ip]| < cfg.threshold
  }

  /** The samples of an address; the `defaultdict` gives an empty list. */
  function Window(ws: map<string, seq<int>>, ip: string): seq<int> {
    if ip in ws then ws[ip] else []
  }

  /** `[t for t in window if t > cutoff]`. */
  function KeepAfter(s: seq<int>, cutoff: int): (r: seq<int>)
    ensures forall x :: multiset(r)[x] == if x > cutoff then multiset(s)[x] else 0
    ensures forall i :: 0 <= i < |r| ==> r[i] > cutoff
    ensures |r| <= |s|
  {
    if s == [] then []
    else
      assert s == [s[0]] + s[1..];
      if s[0] > cutoff then [s[0]] + KeepAfter(s[1..], cutoff) else KeepAfter(s[1..], cutoff)
  }

  /** `_cleanup_old_requests(ip, now)`: drop the samples of `ip` at or before
      `now - interval`, deleting the key when none survive. */
  function CleanupOldRequests(cfg: Settings, ws: map<string, seq<int>>, ip: string, now: int): (r: map<string, seq<int>>)
    ensures ip in r ==> r[ip] != [] && forall i :: 0 <= i < |r[ip]| ==> r[ip][i] > now - IntervalTicks(cfg)
    ensures forall x :: multiset(Window(r, ip))[x] == if x > now - IntervalTicks(cfg) then multiset(Window(ws, ip))[x] else 0
    ensures forall other :: other != ip ==> (other in r <==> other in ws) && (other in r ==> r[other] == ws[other])
  {
    var kept := KeepAfter(Window(ws, ip), now - IntervalTicks(cfg));
    if kept == [] then ws - {ip} else ws[ip := kept]
  }

  /** `is_blocked(ip)` at wall-clock time `now`; an unparsable stamp makes
      `fromisoformat` raise. */
  function IsBlocked(cfg: Settings, g: Guard, ip: string, now: int): (r: Result<bool>)
    ensures ip !in g.blocked ==> r == Ok(false)
    ensures r.Raised? <==> ip in g.blocked && g.blocked[ip].Unparsable?
    // blocked exactly while the entry has not expired
    ensures r == Ok(true) <==> ip in g.blocked && g.blocked[ip].At? && !Expired(cfg, g.blocked[ip], now)
  {
    if ip !in g.blocked then Ok(false)
    else match g.blocked[ip]
      case At(t) => Ok(now - t < BlockTicks(cfg))
      case Unparsable => Raised
  }

  /** `_block_ip(ip)`: `firewallOk` is whether the firewall rule was added
      (consulted only with administrator rights). */
  function BlockIp(cfg: Settings, g: Guard, ip: string, now: int, firewallOk: bool): (r: Step)
    ensures r.guard.windows == g.windows
    ensures r.raised <==> ip in g.blocked && g.blocked[ip].Unparsable?
    ensures IsBlocked(cfg, g, ip, now) == Ok(true) ==> r == Step(g, false, false)
    ensures IsBlocked(cfg, g, ip, now) == Ok(false) ==>
              (r.saved <==> !cfg.admin || firewallOk)
              && r.guard.blocked == (if r.saved then g.blocked[ip := At(now)] else g.blocked)
  {
    match IsBlocked(cfg, g, ip, now)
    case Raised => Step(g, false, true)
    case Ok(blocked) =>
      if blocked then Step(g, false, false)
      else if !cfg.admin || firewallOk then Step(g.(blocked := g.blocked[ip := At(now)]), true, false)
      else Step(g, false, false)
  }

  /** A block that was recorded is reported by `is_blocked` for the whole
      block duration. */
  lemma BlockIpThenBlocked(cfg: Settings, g: Guard, ip: string, now: int, firewallOk: bool, later: int)
    requires BlockIp(cfg, g, ip, now, firewallOk).saved
    requires now <= later < now + BlockTicks(cfg)
    ensures IsBlocked(cfg, BlockIp(cfg, g, ip, now, firewallOk).guard, ip, later) == Ok(true)
  {
  }

  /** `add_request(ip, timestamp)`. `now` is the wall clock used by the
      blocking step; `firewallOk` the outcome of the firewall command. */
  function AddRequest(cfg: Settings, g: Guard, ip: string, stamp: string, now: int, firewallOk: bool): (r: Step)
    // an unparsable timestamp changes nothing
    ensures ParseStamp(stamp).None? ==> r == Step(g, false, false)
    // only the window of `ip` may change
    ensures forall other :: other != ip ==>
              (other in r.guard.windows <==> other in g.windows)
              && (other in r.guard.windows ==> r.guard.windows[other] == g.windows[other])
    // only the block entry of `ip` may change, and only to a fresh stamp
    ensures r.guard.blocked == g.blocked || r.guard.blocked == g.blocked[ip := At(now)]
    ensures r.guard.blocked != g.blocked ==> r.saved
    ensures r.saved ==> r.guard.blocked == g.blocked[ip := At(now)]
    // a recorded sample leaves the window below the threshold unless an exception escaped
    ensures ParseStamp(stamp).Some? && !r.raised ==> ip !in r.guard.windows || |r.guard.windows[ip]| < cfg.threshold
    ensures BelowThreshold(cfg, g) && !r.raised ==> BelowThreshold(cfg, r.guard)
    ensures NoEmptyWindow(g) ==> NoEmptyWindow(r.guard)
  {
    match ParseStamp(stamp)
    case None => Step(g, false, false)
    case Some(dt) =>
      var ws := CleanupOldRequests(cfg, g.windows, ip, dt);
      var w := Window(ws, ip) + [dt];
      var g1 := g.(windows := ws[ip := w]);
      if |w| >= cfg.threshold then
        var b := BlockIp(cfg, g1, ip, now, firewallOk);
        if b.raised then b else b.(guard := b.guard.(windows := b.guard.windows - {ip}))
      else Step(g1, false, false)
  }

  /** After a parsed sample, the window of `ip` ends with that sample and
      every earlier sample in it is strictly later than `t - interval`;
      with a positive interval, every sample is. */
  lemma AddRequestWindowRecent(cfg: Settings, g: Guard, ip: string, stamp: string, now: int, firewallOk: bool)
    requires ParseStamp(stamp).Some?
    requires ip in AddRequest(cfg, g, ip, stamp, now, firewallOk).guard.windows
    ensures var w := AddRequest(cfg, g, ip, stamp, now, firewallOk).guard.windows[ip];
            var t := ParseStamp(stamp).value;
            && |w| >= 1 && w[|w| - 1] == t
            && (forall i :: 0 <= i < |w| - 1 ==> w[i] > t - IntervalTicks(cfg))
            && (cfg.intervalSeconds > 0 ==> forall i :: 0 <= i < |w| ==> w[i] > t - IntervalTicks(cfg))
  {
  }

  /** Reaching the threshold attempts a block and clears the window; without
      administrator rights the address is then blocked. */
  lemma AddRequestAtThreshold(cfg: Settings, g: Guard, ip: string, stamp: string, now: int, firewallOk: bool)
    requires ParseStamp(stamp).Some?
    requires |KeepAfter(Window(g.windows, ip), ParseStamp(stamp).value - IntervalTicks(cfg))| + 1 >= cfg.threshold
    requires IsBlocked(cfg, g, ip, now) == Ok(false)
    ensures var r := AddRequest(cfg, g, ip, stamp, now, firewallOk);
            && !r.raised
            && ip !in r.guard.windows
            && (r.saved <==> !cfg.admin || firewallOk)
            && (r.saved ==> r.guard.blocked == g.blocked[ip := At(now)])
  {
  }

  /** Below the threshold a sample is only recorded: the window becomes its
      recent samples followed by the new one, and nothing is blocked. */
  lemma AddRequestBelowThreshold(cfg: Settings, g: Guard, ip: string, stamp: string, now: int, firewallOk: bool)
    requires ParseStamp(stamp).Some?
    requires |KeepAfter(Window(g.windows, ip), ParseStamp(stamp).value - IntervalTicks(cfg))| + 1 < cfg.threshold
    ensures var r := AddRequest(cfg, g, ip, stamp, now, firewallOk);
            && r.guard.blocked == g.blocked && !r.saved && !r.raised
            && ip in r.guard.windows
            && |r.guard.windows[ip]| == |KeepAfter(Window(g.windows, ip), ParseStamp(stamp).value - IntervalTicks(cfg))| + 1
            && r.guard.windows[ip] == KeepAfter(Window(g.windows, ip), ParseStamp(stamp).value - IntervalTicks(cfg)) + [ParseStamp(stamp).value]
  {
    var t := ParseStamp(stamp).value;
    var kept := KeepAfter(Window(g.windows, ip), t - IntervalTicks(cfg));
    var ws := CleanupOldRequests(cfg, g.windows, ip, t);
    assert Window(ws, ip) == kept;
    assert AddRequest(cfg, g, ip, stamp, now, firewallOk) == Step(g.(windows := ws[ip := kept + [t]]), false, false);
  }

  // ---------------------------------------------------------------------
  // The periodic sweep

  /** The window pruning half of `_periodic_cleanup`: every address is
      cleaned against the same wall-clock `now`. */
  function PruneAll(cfg: Settings, ws: map<string, seq<int>>, now: int): (r: map<string, seq<int>>)
    // an address stays exactly when one of its samples is recent, with those samples in order
    ensures forall ip :: ip in r <==> ip in ws && KeepAfter(ws[ip], now - IntervalTicks(cfg)) != []
    ensures forall ip :: ip in r ==> r[ip] == KeepAfter(ws[ip], now - IntervalTicks(cfg))
    ensures forall ip :: ip in r ==> ip in ws && r[ip] != []
    ensures forall ip :: ip in r ==> forall i :: 0 <= i < |r[ip]| ==> r[ip][i] > now - IntervalTicks(cfg)
    ensures forall ip, t :: ip in ws && t in ws[ip] && t > now - IntervalTicks(cfg) ==> ip in r && t in r[ip]
  {
    var cutoff := now - IntervalTicks(cfg);
    var r := map ip | ip in ws && KeepAfter(ws[ip], cutoff) != [] :: KeepAfter(ws[ip], cutoff);
    assert forall ip, t :: ip in ws && t in ws[ip] && t > cutoff ==> ip in r && t in r[ip] by {
      forall ip, t | ip in ws && t in ws[ip] && t > cutoff
        ensures ip in r && t in r[ip]
      {
        assert multiset(KeepAfter(ws[ip], cutoff))[t] == multiset(ws[ip])[t];
      }
    }
    r
  }

  /** Pruning every window is cleaning each address on its own. */
  lemma PruneAllCleansEach(cfg: Settings, ws: map<string, seq<int>>, now: int, ip: string)
    ensures Window(PruneAll(cfg, ws, now), ip) == Window(CleanupOldRequests(cfg, ws, ip, now), ip)
  {
  }

  predicate Expired(cfg: Settings, e: BlockedAt, now: int) {
    e.At? && now - e.tick >= BlockTicks(cfg)
  }

  /** The entries the sweep drops: unparsable ones, and expired ones whose
      firewall rule was removed or never existed (no administrator rights). */
  predicate Releasable(cfg: Settings, e: BlockedAt, now: int, unblocked: bool) {
    e.Unparsable? || (Expired(cfg, e, now) && (!cfg.admin || unblocked))
  }

  /** `_unblock_expired_ips(now)` as its comments intend: `unblockOk` holds
      the addresses whose firewall rule removal succeeds. An expired entry
      whose removal failed stays listed so that the next sweep retries it. */
  function Sweep(cfg: Settings, g: Guard, now: int, unblockOk: set<string>): (r: Step)
    ensures r.guard.windows == g.windows && !r.raised
    ensures forall ip :: ip in r.guard.blocked ==> ip in g.blocked && r.guard.blocked[ip] == g.blocked[ip]
    ensures r.saved <==> r.guard.blocked != g.blocked
  {
    var released := set ip | ip in g.blocked && Releasable(cfg, g.blocked[ip], now, ip in unblockOk);
    var kept := g.blocked - released;
    assert released != {} ==> kept != g.blocked by {
      if released != {} {
        var ip :| ip in released;
        assert ip !in kept;
      }
    }
    Step(g.(blocked := kept), released != {}, false)
  }

  /** The sweep keeps an entry exactly when `is_blocked` still reports it,
      or its firewall rule could not be removed; unparsable entries go. */
  lemma SweepAgreesWithIsBlocked(cfg: Settings, g: Guard, now: int, unblockOk: set<string>, ip: string)
    requires ip in g.blocked
    ensures var after := Sweep(cfg, g, now, unblockOk).guard;
            ip in after.blocked <==>
              IsBlocked(cfg, g, ip, now) == Ok(true) || (IsBlocked(cfg, g, ip, now) == Ok(false) && cfg.admin && ip !in unblockOk)
  {
  }

  /** An entry kept because its firewall rule could not be removed is
      released by a later sweep whose removal succeeds. */
  lemma SweepRetriesFailedUnblock(cfg: Settings, g: Guard, now: int, later: int, failed: set<string>, ok: set<string>, ip: string)
    requires ip in g.blocked && Expired(cfg, g.blocked[ip], now)
    requires cfg.admin && ip !in failed && ip in ok
    requires now <= later
    ensures ip in Sweep(cfg, g, now, failed).guard.blocked
    ensures ip !in Sweep(cfg, Sweep(cfg, g, now, failed).guard, later, ok).guard.blocked
  {
  }

  /** One round of `_periodic_cleanup`: prune every window, then sweep. */
  function CleanupRound(cfg: Settings, g: Guard, now: int, unblockOk: set<string>): (r: Step)
    ensures NoEmptyWindow(r.guard)
    ensures forall ip :: ip in r.guard.windows ==> forall i :: 0 <= i < |r.guard.windows[ip]| ==> r.guard.windows[ip][i] > now - IntervalTicks(cfg)
    ensures r.guard.windows == PruneAll(cfg, g.windows, now)
    // the block list is the sweep's, whatever the windows held
    ensures r.guard.blocked == Sweep(cfg, g, now, unblockOk).guard.blocked && r.saved == Sweep(cfg, g, now, unblockOk).saved
    ensures forall ip :: ip in r.guard.blocked ==> ip in g.blocked
    ensures forall ip :: ip in g.blocked ==>
              (ip in r.guard.blocked <==>
                 IsBlocked(cfg, g, ip, now) == Ok(true) || (IsBlocked(cfg, g, ip, now) == Ok(false) && cfg.admin && ip !in unblockOk))
  {
    var r := Sweep(cfg, g.(windows := PruneAll(cfg, g.windows, now)), now, unblockOk);
    forall ip | ip in g.blocked
      ensures ip in r.guard.blocked <==>
                IsBlocked(cfg, g, ip, now) == Ok(true) || (IsBlocked(cfg, g, ip, now) == Ok(false) && cfg.admin && ip !in unblockOk)
    {
      SweepAgreesWithIsBlocked(cfg, g, now, unblockOk, ip);
    }
    r
  }

  // ---------------------------------------------------------------------
  // The sweep as written

  /** What the loop over `blocked_ips.items()` does before its deletion loop:
      it completes with the list of released addresses, or it is aborted by
      the `RuntimeError` raised on the next iteration step after
      `_unblock_ip` deleted an entry from the dictionary being iterated. */
  datatype Scan = Completed(released: set<string>) | Aborted(at: string)

  function ScanAsWritten(cfg: Settings, blocked: map<string, BlockedAt>, order: seq<string>, now: int, unblockOk: set<string>): Scan
    decreases |order|
  {
    if order == [] then Completed({})
    else
      var ip := order[0];
      var here := ip in blocked && (blocked[ip].Unparsable? || Expired(cfg, blocked[ip], now));
      if here && Expired(cfg, blocked[ip], now) && cfg.admin && ip in unblockOk then Aborted(ip)
      else match ScanAsWritten(cfg, blocked, order[1..], now, unblockOk)
        case Aborted(x) => Aborted(x)
        case Completed(rest) => Completed(if here then {ip} + rest else rest)
  }

  /** `order` lists each key of `m` once: the dictionary's iteration order. */
  ghost predicate IsListing<V>(order: seq<string>, m: map<string, V>) {
    && (forall ip :: ip in order <==> ip in m)
    && (forall i, j :: 0 <= i < j < |order| ==> order[i] != order[j])
  }

  /** `_unblock_expired_ips(now)` as written, iterating `blocked` in `order`.
      A successful administrator unblock removes that one entry, writes the
      file, and then the loop raises; otherwise every expired or unparsable
      entry is removed whatever the firewall command did. */
  function SweepAsWritten(cfg: Settings, g: Guard, order: seq<string>, now: int, unblockOk: set<string>): (r: Step)
    requires IsListing(order, g.blocked)
    ensures r.guard.windows == g.windows
  {
    match ScanAsWritten(cfg, g.blocked, order, now, unblockOk)
    case Aborted(ip) => Step(g.(blocked := g.blocked - {ip}), true, true)
    case Completed(released) => Step(g.(blocked := g.blocked - released), released != {}, false)
  }

  /** Without administrator rights no firewall command runs, and the scan
      releases exactly the expired and unparsable entries it visits. */
  lemma {:induction false} ScanWithoutAdmin(cfg: Settings, blocked: map<string, BlockedAt>, order: seq<string>, now: int, unblockOk: set<string>)
    requires !cfg.admin
    ensures ScanAsWritten(cfg, blocked, order, now, unblockOk)
            == Completed(set ip | ip in order && ip in blocked && Releasable(cfg, blocked[ip], now, ip in unblockOk))
    decreases |order|
  {
    if order != [] {
      ScanWithoutAdmin(cfg, blocked, order[1..], now, unblockOk);
      var ip := order[0];
      var tail := set x | x in order[1..] && x in blocked && Releasable(cfg, blocked[x], now, x in unblockOk);
      var all := set x | x in order && x in blocked && Releasable(cfg, blocked[x], now, x in unblockOk);
      assert forall x :: x in order <==> x == ip || x in order[1..];
      if ip in blocked && Releasable(cfg, blocked[ip], now, ip in unblockOk) {
        assert all == {ip} + tail;
      } else {
        assert all == tail;
      }
    }
  }

  /** Without administrator rights the sweep as written is the intended one:
      both defects need a firewall command to have run. */
  lemma SweepAsWrittenWithoutAdmin(cfg: Settings, g: Guard, order: seq<string>, now: int, unblockOk: set<string>)
    requires !cfg.admin
    requires IsListing(order, g.blocked)
    ensures SweepAsWritten(cfg, g, order, now, unblockOk) == Sweep(cfg, g, now, unblockOk)
  {
    ScanWithoutAdmin(cfg, g.blocked, order, now, unblockOk);
    var a := set ip | ip in order && ip in g.blocked && Releasable(cfg, g.blocked[ip], now, ip in unblockOk);
    var b := set ip | ip in g.blocked && Releasable(cfg, g.blocked[ip], now, ip in unblockOk);
    assert a == b;
  }

  /** Two entries expired an hour ago, on a host with administrator rights. */
  const TwoExpired: Guard := Guard(map[], map["10.0.0.1" := At(0), "10.0.0.2" := At(0)])
  const AdminHour: Settings := Settings(50, 60, 1, true)
  const Later: int := 2 * 3600 * 1000000

  /** Finding: the first successful unblock deletes from the dictionary being
      iterated, so the sweep raises and the second expired entry is never
      released, although the intended sweep releases both. */
  lemma SweepAsWrittenAbortsAfterUnblock()
    ensures var r := SweepAsWritten(AdminHour, TwoExpired, ["10.0.0.1", "10.0.0.2"], Later, {"10.0.0.1", "10.0.0.2"});
            r.raised && "10.0.0.2" in r.guard.blocked
    ensures Sweep(AdminHour, TwoExpired, Later, {"10.0.0.1", "10.0.0.2"}).guard.blocked == map[]
  {
    var s := Sweep(AdminHour, TwoExpired, Later, {"10.0.0.1", "10.0.0.2"});
    assert "10.0.0.1" !in s.guard.blocked && "10.0.0.2" !in s.guard.blocked;
    assert s.guard.blocked.Keys == {};
  }

  /** Finding: when the firewall rule cannot be removed the entry is dropped
      anyway, so no later sweep retries the removal; the intended sweep keeps it. */
  lemma SweepAsWrittenDropsFailedUnblock()
    ensures "10.0.0.1" !in SweepAsWritten(AdminHour, TwoExpired, ["10.0.0.1", "10.0.0.2"], Later, {}).guard.blocked
    ensures !SweepAsWritten(AdminHour, TwoExpired, ["10.0.0.1", "10.0.0.2"], Later, {}).raised
    ensures "10.0.0.1" in Sweep(AdminHour, TwoExpired, Later, {}).guard.blocked
  {
    assert ScanAsWritten(AdminHour, TwoExpired.blocked, ["10.0.0.2"], Later, {}) == Completed({"10.0.0.2"});
  }
}

=== FILE: common.dfy ===
/** Shared vocabulary: optional values, Python-style exceptions, bytes and
    the character classes the log patterns and `str.strip` rely on. */
module Common {

  /** Python's `None` / present value. */
  datatype Option<+T> = None | Some(value: T) {
    predicate IsFailure() { None? }

    function PropagateFailure<U>(): Option<U>
      requires None?
    {
      None
    }

    function Extract(): T
      requires Some?
    {
      value
    }
  }

  /** The outcome of a Python call that may raise: `Raised` stands for any
      exception that escapes the call. */
  datatype Result<+T> = Ok(value: T) | Raised {
    predicate IsFailure() { Raised? }

    function PropagateFailure<U>(): Result<U>
      requires Raised?
    {
      Raised
    }

    function Extract(): T
      requires Ok?
    {
      value
    }
  }

  type byte = b: int | 0 <= b < 256

  /** ASCII decimal digit (the model's reading of the regex class `\d`). */
  predicate IsDigit(c: char) { '0' <= c <= '9' }

  predicate AllDigits(s: string) { forall i :: 0 <= i < |s| ==> IsDigit(s[i]) }

  /** ASCII word character (the model's reading of the regex class `\w`). */
  predicate IsWordChar(c: char) {
    ('a' <= c <= 'z') || ('A' <= c <= 'Z') || IsDigit(c) || c == '_'
  }

  /** Python's `str.isspace`, which is also what `\s` and `str.strip()` use. */
  predicate IsSpace(c: char) {
    ('\U{0009}' <= c <= '\U{000D}') || ('\U{001C}' <= c <= '\U{0020}')
    || c == '\U{0085}' || c == '\U{00A0}' || c == '\U{1680}'
    || ('\U{2000}' <= c <= '\U{200A}') || c == '\U{2028}' || c == '\U{2029}'
    || c == '\U{202F}' || c == '\U{205F}' || c == '\U{3000}'
  }

  predicate AllSpace(s: string) { forall i :: 0 <= i < |s| ==> IsSpace(s[i]) }

  predicate StartsWith<T(==)>(s: seq<T>, prefix: seq<T>) {
    |prefix| <= |s| && s[..|prefix|] == prefix
  }

  /** Index just past the longest run of characters satisfying `p` that starts at `i`. */
  function RunEnd(s: string, i: nat, p: char -> bool): (j: nat)
    requires i <= |s|
    ensures i <= j <= |s|
    ensures forall k :: i <= k < j ==> p(s[k])
    ensures j == |s| || !p(s[j])
    decreases |s| - i
  {
    if i < |s| && p(s[i]) then RunEnd(s, i + 1, p) else i
  }

  /** Python's `str.strip()` with no argument. */
  function Strip(s: string): (r: string)
    ensures |r| <= |s|
    ensures r == [] || (!IsSpace(r[0]) && !IsSpace(r[|r| - 1]))
    ensures exists i, j :: 0 <= i <= j <= |s| && r == s[i..j] && AllSpace(s[..i]) && AllSpace(s[j..])
  {
    var i := RunEnd(s, 0, IsSpace);
    var j := StripEnd(s, i);
    assert AllSpace(s[..i]);
    s[i..j]
  }

  /** Digits carry no surrounding whitespace to strip. */
  lemma StripDigits(s: string)
    requires AllDigits(s)
    ensures Strip(s) == s
  {
    var r := Strip(s);
    var i, j :| 0 <= i <= j <= |s| && r == s[i..j] && AllSpace(s[..i]) && AllSpace(s[j..]);
    assert i == 0 && j == |s|;
  }

  /** The end of `s` once trailing whitespace after position `lo` is dropped. */
  function StripEnd(s: string, lo: nat): (j: nat)
    requires lo <= |s|
    ensures lo <= j <= |s|
    ensures AllSpace(s[j..])
    ensures j == lo || !IsSpace(s[j - 1])
    decreases |s|
  {
    if |s| > lo && IsSpace(s[|s| - 1]) then
      var j := StripEnd(s[..|s| - 1], lo);
      assert s[j..] == s[..|s| - 1][j..] + [s[|s| - 1]];
      j
    else |s|
  }

  /** Decimal text of a natural number, most significant digit first. */
  function NatToString(n: nat): (r: string)
    ensures |r| >= 1 && AllDigits(r)
    decreases n
  {
    var d := [('0' as int + n % 10) as char];
    if n < 10 then d else NatToString(n / 10) + d
  }

  /** Value of a string of decimal digits. */
  function DigitsValue(s: string): (n: nat)
    requires AllDigits(s)
    decreases |s|
  {
    if s == [] then 0 else 10 * DigitsValue(s[..|s| - 1]) + (s[|s| - 1] as int - '0' as int)
  }

  lemma {:induction false} DigitsValueOfNatToString(n: nat)
    ensures DigitsValue(NatToString(n)) == n
    decreases n
  {
    var r := NatToString(n);
    if n >= 10 {
      DigitsValueOfNatToString(n / 10);
      assert r[..|r| - 1] == NatToString(n / 10);
    }
  }

  /** Python's `str(n)` for an integer. */
  function IntToString(n: int): string {
    if n < 0 then "-" + NatToString(-n) else NatToString(n)
  }
}

=== FILE: config.dfy ===
/** `Config.get` (a dotted-path lookup into the decoded configuration) and
    `Config.get_server`. Loading the file itself is not modelled: the
    configuration is the decoded JSON value `root`. */
module Config {
  import opened Common
  import opened Json

  /** Index of the first `sep` in `s`. */
  function IndexOf(s: string, sep: char): (i: nat)
    requires sep in s
    ensures i < |s| && s[i] == sep && sep !in s[..i]
  {
    if s[0] == sep then 0
    else
      var i := IndexOf(s[1..], sep) + 1;
      assert s[..i] == [s[0]] + s[1..][..i - 1];
      i
  }

  /** Python's `s.split(sep)` for a one-character separator. */
  function Split(s: string, sep: char): (parts: seq<string>)
    ensures |parts| >= 1
    ensures forall k :: 0 <= k < |parts| ==> sep !in parts[k]
    decreases |s|
  {
    if sep !in s then [s]
    else
      var i := IndexOf(s, sep);
      [s[..i]] + Split(s[i + 1..], sep)
  }

  /** `sep.join(parts)`. */
  function JoinWith(parts: seq<string>, sep: char): string
    requires |parts| >= 1
  {
    if |parts| == 1 then parts[0] else parts[0] + [sep] + JoinWith(parts[1..], sep)
  }

  /** Splitting and joining again gives back the key. */
  lemma {:induction false} SplitJoin(s: string, sep: char)
    ensures JoinWith(Split(s, sep), sep) == s
    decreases |s|
  {
    if sep in s {
      var i := IndexOf(s, sep);
      var tail := Split(s[i + 1..], sep);
      var parts := [s[..i]] + tail;
      assert Split(s, sep) == parts;
      assert parts[0] == s[..i] && parts[1..] == tail;
      SplitJoin(s[i + 1..], sep);
      assert JoinWith(parts, sep) == s[..i] + [sep] + s[i + 1..];
      assert s == s[..i] + [sep] + s[i + 1..];
    }
  }

  /** The first separator after a separator-free prefix is right after it. */
  lemma IndexOfAfterPrefix(a: string, sep: char, rest: string)
    requires sep !in a
    ensures IndexOf(a + [sep] + rest, sep) == |a|
  {
    if a != [] {
      assert (a + [sep] + rest)[1..] == a[1..] + [sep] + rest;
      IndexOfAfterPrefix(a[1..], sep, rest);
    }
  }

  /** A segment without the separator splits off as the first part. */
  lemma SplitCons(a: string, sep: char, rest: string)
    requires sep !in a
    ensures Split(a + [sep] + rest, sep) == [a] + Split(rest, sep)
  {
    var s := a + [sep] + rest;
    assert s[|a|] == sep;
    IndexOfAfterPrefix(a, sep, rest);
    assert s[..|a|] == a;
    assert s[|a| + 1..] == rest;
  }

  /** Walks `keys` one segment at a time, as the loop in `Config.get` does.
      `None` is the early `return default` when a non-dict is met. */
  function Descend(value: Json, keys: seq<string>): Option<Json>
    decreases |keys|
  {
    if keys == [] then Some(value)
    else match value
      case JObj(fs) => Descend(LookupOr(fs, keys[0], JNull), keys[1..])
      case _ => None
  }

  /** The lookup of `Config.get` once the key is split into its segments:
      the default when the walk stops early or ends on a null. */
  function GetPath(root: Json, keys: seq<string>, default: Json): Json {
    match Descend(root, keys)
    case None => default
    case Some(v) => if v == JNull then default else v
  }

  /** `Config.get(key, default)`. */
  function Get(root: Json, key: string, default: Json): Json {
    GetPath(root, Split(key, '.'), default)
  }

  /** A key without dots is a plain top-level lookup; a missing key, a
      stored null or a non-dict configuration all give the default. */
  lemma GetTopLevel(root: Json, key: string, default: Json)
    requires '.' !in key
    ensures root.JObj? && Lookup(root.fields, key).Some? && Lookup(root.fields, key).value != JNull
            ==> Get(root, key, default) == Lookup(root.fields, key).value
    ensures !root.JObj? || !HasKey(root.fields, key) || Lookup(root.fields, key) == Some(JNull)
            ==> Get(root, key, default) == default
  {
    assert Split(key, '.') == [key];
    if root.JObj? {
      assert Descend(root, [key]) == Descend(LookupOr(root.fields, key, JNull), []);
    }
  }

  /** `get("a.rest")` is `get("rest")` on whatever `a` holds: the lookup
      descends one dot-segment at a time. When `a` is missing or holds a
      non-dict, both sides are the default. */
  lemma GetDescends(root: Json, a: string, rest: string, default: Json)
    requires '.' !in a
    requires root.JObj?
    ensures Get(root, a + "." + rest, default) == Get(LookupOr(root.fields, a, JNull), rest, default)
  {
    SplitCons(a, '.', rest);
    assert Split(a + "." + rest, '.') == [a] + Split(rest, '.');
  }

  /** A key of one segment reads that segment. */
  lemma GetOneSegment(root: Json, a: string, default: Json)
    requires '.' !in a
    ensures Get(root, a, default) == GetPath(root, [a], default)
  {
  }

  /** A key of three dot-separated segments walks those three segments. */
  lemma GetThreeSegments(root: Json, key: string, a: string, b: string, c: string, default: Json)
    requires '.' !in a && '.' !in b && '.' !in c
    requires key == a + "." + b + "." + c
    ensures Get(root, key, default) == GetPath(root, [a, b, c], default)
  {
    var bc := b + [ '.' ] + c;
    assert key == a + [ '.' ] + bc;
    SplitCons(b, '.', c);
    assert Split(c, '.') == [c];
    assert Split(bc, '.') == [b, c];
    SplitCons(a, '.', bc);
    assert Split(key, '.') == [a] + [b, c];
  }

  /** A missing first segment, or one that holds anything but a dict, makes
      the whole dotted lookup give the default. */
  lemma GetStopsAtNonDict(root: Json, a: string, rest: string, default: Json)
    requires '.' !in a
    requires root.JObj?
    requires !LookupOr(root.fields, a, JNull).JObj?
    ensures Get(root, a + "." + rest, default) == default
  {
    GetDescends(root, a, rest, default);
  }

  /** If the configuration root is not a dict, every key gives the default. */
  lemma GetOnNonDict(root: Json, key: string, default: Json)
    requires !root.JObj?
    ensures Get(root, key, default) == default
  {
  }

  /** The result is never null unless the default is. */
  lemma GetNeverNull(root: Json, key: string, default: Json)
    requires default != JNull
    ensures Get(root, key, default) != JNull
  {
  }

  /** The key a server id is looked up under. */
  datatype ServerId = IntId(n: int) | StrId(s: string)

  /** Python's `str(server_id)`. */
  function ServerKey(id: ServerId): string {
    match id
    case IntId(n) => IntToString(n)
    case StrId(s) => s
  }

  /** `Config.get_server(server_id)`: the `SERVERS` table entry for `str(server_id)`.
      `Raised` when the configuration or its `SERVERS` value is not a dict
      (Python's `AttributeError` on `.get`). */
  function GetServer(root: Json, id: ServerId): (r: Result<Option<Json>>)
    ensures r.Ok? <==> root.JObj? && LookupOr(root.fields, "SERVERS", JObj([])).JObj?
    ensures r.Ok? ==> (r.value.Some? <==> HasKey(LookupOr(root.fields, "SERVERS", JObj([])).fields, ServerKey(id)))
    // the entry returned is the one the table binds to the key
    ensures r.Ok? ==> r.value == Lookup(LookupOr(root.fields, "SERVERS", JObj([])).fields, ServerKey(id))
    ensures r.Ok? && r.value.Some? ==>
              var servers := LookupOr(root.fields, "SERVERS", JObj([])).fields;
              exists i :: 0 <= i < |servers| && servers[i] == (ServerKey(id), r.value.value)
  {
    match root
    case JObj(fs) =>
      (match LookupOr(fs, "SERVERS", JObj([]))
       case JObj(servers) => Ok(Lookup(servers, ServerKey(id)))
       case _ => Raised)
    case _ => Raised
  }

  /** The integer id and its decimal text find the same server entry. */
  lemma GetServerIntIsString(root: Json, n: nat)
    ensures GetServer(root, IntId(n)) == GetServer(root, StrId(NatToString(n)))
  {
  }
}

=== FILE: json.dfy ===
/** Decoded JSON values as the Python code sees them after `json.load`.
    An object keeps its keys in insertion order, as a Python dict does;
    `JNull` is Python's `None`. Numbers are integers only. */
module Json {
  import opened Common

  datatype Json =
    | JNull
    | JBool(b: bool)
    | JInt(i: int)
    | JStr(s: string)
    | JList(items: seq<Json>)
    | JObj(fields: seq<(string, Json)>)

  /** Python truthiness of a decoded value. */
  predicate Truthy(v: Json) {
    match v
    case JNull => false
    case JBool(b) => b
    case JInt(i) => i != 0
    case JStr(s) => s != []
    case JList(xs) => xs != []
    case JObj(fs) => fs != []
  }

  /** `key in d` for a dict given as its ordered items. */
  predicate HasKey(fields: seq<(string, Json)>, key: string) {
    exists i :: 0 <= i < |fields| && fields[i].0 == key
  }

  /** `d.get(key)`: the value bound to `key`, if any. */
  function Lookup(fields: seq<(string, Json)>, key: string): (r: Option<Json>)
    ensures r.Some? <==> HasKey(fields, key)
    ensures r.Some? ==> exists i :: 0 <= i < |fields| && fields[i] == (key, r.value)
  {
    if fields == [] then None
    else if fields[0].0 == key then Some(fields[0].1)
    else
      var r := Lookup(fields[1..], key);
      assert HasKey(fields[1..], key) ==> HasKey(fields, key) by {
        if HasKey(fields[1..], key) {
          var i :| 0 <= i < |fields[1..]| && fields[1..][i].0 == key;
          assert fields[i + 1].0 == key;
        }
      }
      assert HasKey(fields, key) ==> HasKey(fields[1..], key) by {
        if HasKey(fields, key) {
          var i :| 0 <= i < |fields| && fields[i].0 == key;
          assert i > 0 && fields[1..][i - 1].0 == key;
        }
      }
      assert r.Some? ==> exists i :: 0 <= i < |fields| && fields[i] == (key, r.value) by {
        if r.Some? {
          var i :| 0 <= i < |fields[1..]| && fields[1..][i] == (key, r.value);
          assert fields[i + 1] == (key, r.value);
        }
      }
      r
  }

  /** `d.get(key, default)`: unlike `Config.get`, a stored `null` is returned as is. */
  function LookupOr(fields: seq<(string, Json)>, key: string, default: Json): Json {
    match Lookup(fields, key)
    case Some(v) => v
    case None => default
  }
}

=== FILE: line_processor.dfy ===
/** `LogLineProcessor.process_line`: the per-line state machine that binds a
    `PostLogin` account id to the next `Join succeeded` nickname, records
    logouts, and (for history lines) feeds connection samples to the abuse
    guard. The wall clock, the firewall outcome and the guard settings are
    parameters; log messages and the change notification are not modelled. */
module LineProcessor {
  import opened Common
  import opened Json
  import opened Patterns
  import opened AbuseGuard
  import opened PlayerDirectory

  /** One online-player record (`name`, `server_id`, `login_time`). */
  datatype Session = Session(name: string, serverId: string, loginTime: int)

  /** `connected_players`: server id -> account id -> session. */
  type Presence = map<string, map<string, Session>>

  /** The processor and the state it shares with its owner. */
  datatype Processor = Processor(presence: Presence, pending: Option<string>, dir: Directory, guard: Guard)

  /** What the surroundings supply to one call. */
  datatype Env = Env(now: int, guardCfg: Settings, firewallOk: bool)

  /** The state after one line; `dirSaved` is a directory write,
      `blockSaved` a block-list write, `raised` an escaping exception. */
  datatype Outcome = Outcome(proc: Processor, dirSaved: bool, blockSaved: bool, raised: bool)

  const UNKNOWN_PREFIX: string := "Unknown_"

  function Sessions(pr: Presence, server: string): map<string, Session> {
    if server in pr then pr[server] else map[]
  }

  /** The session of `id` on `server`, if online. */
  function Online(pr: Presence, server: string, id: string): Option<Session> {
    if server in pr && id in pr[server] then Some(pr[server][id]) else None
  }

  /** Every session other than (`server`, `id`) is the same in `a` and `b`. */
  ghost predicate SameElsewhere(a: Presence, b: Presence, server: string, id: string) {
    forall s, k :: s != server || k != id ==> Online(a, s, k) == Online(b, s, k)
  }

  /** Each session is filed under the server it records. */
  ghost predicate WellFiled(pr: Presence) {
    forall s, k :: Online(pr, s, k).Some? ==> Online(pr, s, k).value.serverId == s
  }

  /** A pending account id is set and truthy. */
  predicate HasPending(p: Processor) {
    p.pending.Some? && p.pending.value != []
  }

  /** The join branch: bind the pending account to `name` on `server`. */
  function Join(p: Processor, name: string, server: string, now: int): (r: Outcome)
    requires HasPending(p)
    ensures r.proc.pending.None? && r.proc.guard == p.guard && !r.blockSaved && !r.raised
    ensures SameElsewhere(p.presence, r.proc.presence, server, p.pending.value)
    ensures var id := p.pending.value;
            Online(r.proc.presence, server, id)
            == match Online(p.presence, server, id)
               case None => Some(Session(name, server, now))
               case Some(before) => if StartsWith(before.name, UNKNOWN_PREFIX) then Some(before.(name := name)) else Some(before)
    // a new or renamed session leaves the name in the directory; only that entry may change
    ensures var id := p.pending.value;
            var before := Online(p.presence, server, id);
            if before.None? || StartsWith(before.value.name, UNKNOWN_PREFIX)
            then GetPlayerName(r.proc.dir, id) == JStr(name)
            else r.proc.dir == p.dir && !r.dirSaved
    ensures forall other :: other != p.pending.value ==> GetPlayerName(r.proc.dir, other) == GetPlayerName(p.dir, other)
    // the directory is updated on a new session whose stored name is falsy or
    // differs, and on a rename; the save then happens when the cooldown has passed
    ensures var id := p.pending.value;
            var before := Online(p.presence, server, id);
            var current := GetPlayerName(p.dir, id);
            var updates := if before.None? then !Truthy(current) || current != JStr(name)
                           else StartsWith(before.value.name, UNKNOWN_PREFIX);
            && (updates ==> r.proc.dir.data == UpdatePlayer(p.dir, id, name).0.data
                            && (r.dirSaved <==> now >= p.dir.lastSave + CooldownTicks(p.dir))
                            && r.proc.dir.lastSave == (if r.dirSaved then now else p.dir.lastSave)
                            && r.proc.dir.saveInterval == p.dir.saveInterval)
            && (!updates ==> r.proc.dir == p.dir && !r.dirSaved)
  {
    var id := p.pending.value;
    var sessions := Sessions(p.presence, server);
    if id !in sessions then
      var current := GetPlayerName(p.dir, id);
      var (dir, saved) :=
        if !Truthy(current) || current != JStr(name) then Rename(p.dir, id, name, now)
        else (p.dir, false);
      var presence := p.presence[server := sessions[id := Session(name, server, now)]];
      Outcome(p.(presence := presence, pending := None, dir := dir), saved, false, false)
    else if StartsWith(sessions[id].name, UNKNOWN_PREFIX) then
      var (dir, saved) := Rename(p.dir, id, name, now);
      var presence := p.presence[server := sessions[id := sessions[id].(name := name)]];
      Outcome(p.(presence := presence, pending := None, dir := dir), saved, false, false)
    else
      Outcome(p.(pending := None), false, false, false)
  }

  /** `update_player` followed by `save_if_needed`: the name reads back for
      `id` and every other id reads as before. */
  function Rename(d: Directory, id: string, name: string, now: int): (r: (Directory, bool))
    ensures GetPlayerName(r.0, id) == JStr(name)
    ensures forall other :: other != id ==> GetPlayerName(r.0, other) == GetPlayerName(d, other)
    ensures r.0.data == UpdatePlayer(d, id, name).0.data && r.0.saveInterval == d.saveInterval
    // the save is attempted whether or not the update changed anything
    ensures r.1 <==> now >= d.lastSave + CooldownTicks(d)
    ensures r.0.lastSave == if r.1 then now else d.lastSave
  {
    var updated := UpdatePlayer(d, id, name).0;
    forall other | other != id ensures GetPlayerName(updated, other) == GetPlayerName(d, other) {
      UpdatePlayerIsolated(d, id, name, other);
    }
    SaveIfNeeded(updated, now)
  }

  /** The connection-sample step for history lines: the new guard, whether
      it wrote its block list, and whether `is_blocked` raised. */
  function Sample(g: Guard, line: string, env: Env): (r: Step)
    ensures !r.raised || r.guard == g
  {
    match Search(IpTimestamp, line)
    case None => Step(g, false, false)
    case Some(groups) =>
      IpCaptureShapes(line);
      var stamp := groups[0].value;
      var ip := groups[1].value;
      match IsBlocked(env.guardCfg, g, ip, env.now)
      case Raised => Step(g, false, true)
      case Ok(blocked) =>
        if blocked then Step(g, false, false)
        else AddRequest(env.guardCfg, g, ip, stamp, env.now, env.firewallOk)
  }

  /** Removing the session of `id` on `server`, when there is one. */
  function Logout(pr: Presence, server: string, id: string): (r: Presence)
    ensures Online(r, server, id).None?
    ensures SameElsewhere(pr, r, server, id)
    ensures WellFiled(pr) ==> WellFiled(r)
  {
    if server in pr && id in pr[server] then pr[server := pr[server] - {id}] else pr
  }

  /** The PostLogin and logout branches, after the sample step. */
  function AccountStep(q: Processor, line: string, server: string): (r: Processor)
    ensures r.guard == q.guard && r.dir == q.dir
    ensures exists id :: SameElsewhere(q.presence, r.presence, server, id)
    ensures WellFiled(q.presence) ==> WellFiled(r.presence)
  {
    assert SameElsewhere(q.presence, q.presence, server, []);
    var post := Search(PostLoginServer, line);
    if post.Some? then
      AccountCapturesDigits(PostLoginServer, line);
      q.(pending := Some(post.value[0].value))
    else
      var logout := Search(LogoutServer, line);
      if logout.Some? then
        AccountCapturesDigits(LogoutServer, line);
        q.(presence := Logout(q.presence, server, Strip(logout.value[0].value)))
      else q
  }

  /** `process_line(line, server_id, is_history)`. */
  function ProcessLine(p: Processor, line: string, server: string, isHistory: bool, env: Env): (r: Outcome)
    ensures line == [] ==> r == Outcome(p, false, false, false)
    // the abuse guard only sees history lines
    ensures !isHistory ==> r.proc.guard == p.guard && !r.blockSaved && !r.raised
    // an exception leaves the processor's state as it was
    ensures r.raised ==> r.proc == p && !r.dirSaved
    // at most one session changes: the pending one on a join, the captured one on a logout
    ensures exists id :: SameElsewhere(p.presence, r.proc.presence, server, id)
    ensures WellFiled(p.presence) ==> WellFiled(r.proc.presence)
  {
    assert SameElsewhere(p.presence, p.presence, server, []);
    if line == [] then Outcome(p, false, false, false)
    else
      var join := Search(JoinServer, line);
      if HasPending(p) && join.Some? then
        JoinCapturesWord(line);
        Join(p, join.value[0].value, server, env.now)
      else
        var s := if isHistory then Sample(p.guard, line, env) else Step(p.guard, false, false);
        if s.raised then Outcome(p, false, false, true)
        else Outcome(AccountStep(p.(guard := s.guard), line, server), false, s.saved, false)
  }

  /** `reset_pending_steam_id()`. */
  function ResetPending(p: Processor): (r: Processor)
    ensures !HasPending(r) && r.pending.None?
    ensures r.presence == p.presence && r.dir == p.dir && r.guard == p.guard
  {
    p.(pending := None)
  }

  // ---------------------------------------------------------------------
  // What each kind of line does

  /** A `Join succeeded` line while an account id is pending is the join
      branch on the captured nickname, so it creates the session, renames an
      `Unknown_` one or keeps a named one as `Join` states; it clears the
      pending id and is never sampled by the abuse guard. */
  lemma JoinLine(p: Processor, line: string, server: string, isHistory: bool, env: Env)
    requires line != [] && HasPending(p) && Search(JoinServer, line).Some?
    ensures var r := ProcessLine(p, line, server, isHistory, env);
            var name := Group(Search(JoinServer, line).value, 1);
            && name.Some?
            && r == Join(p, name.value, server, env.now)
            && r.proc.pending.None? && r.proc.guard == p.guard && !r.raised
            && Online(r.proc.presence, server, p.pending.value).Some?
            && (Online(p.presence, server, p.pending.value).None? ==>
                  Online(r.proc.presence, server, p.pending.value) == Some(Session(name.value, server, env.now))
                  && GetPlayerName(r.proc.dir, p.pending.value) == JStr(name.value))
  {
    JoinCapturesWord(line);
  }

  /** A `PostLogin` line (not consumed by a join) sets the pending id to the
      captured account, replacing any earlier one, and touches no session. */
  lemma PostLoginLine(p: Processor, line: string, server: string, isHistory: bool, env: Env)
    requires line != [] && !(HasPending(p) && Search(JoinServer, line).Some?)
    requires Search(PostLoginServer, line).Some?
    ensures var r := ProcessLine(p, line, server, isHistory, env);
            !r.raised ==>
              && r.proc.pending == Group(Search(PostLoginServer, line).value, 1)
              && r.proc.pending.Some? && AllDigits(r.proc.pending.value)
              && r.proc.presence == p.presence && r.proc.dir == p.dir && !r.dirSaved
  {
    AccountCapturesDigits(PostLoginServer, line);
  }

  /** A `Logout` line (neither a join nor a PostLogin) takes the captured
      account offline on this server and changes no other session. */
  lemma LogoutLine(p: Processor, line: string, server: string, isHistory: bool, env: Env)
    requires line != [] && !(HasPending(p) && Search(JoinServer, line).Some?)
    requires Search(PostLoginServer, line).None? && Search(LogoutServer, line).Some?
    ensures var r := ProcessLine(p, line, server, isHistory, env);
            var id := Group(Search(LogoutServer, line).value, 1);
            !r.raised ==>
              && id.Some?
              && Online(r.proc.presence, server, id.value).None?
              && SameElsewhere(p.presence, r.proc.presence, server, id.value)
              && r.proc.pending == p.pending && r.proc.dir == p.dir
  {
    AccountCapturesDigits(LogoutServer, line);
    StripDigits(Search(LogoutServer, line).value[0].value);
  }

  /** A history line with a connection sample from an address that is not
      blocked is recorded by the abuse guard; one from a blocked address is
      not counted. */
  lemma HistorySample(p: Processor, line: string, server: string, env: Env)
    requires line != [] && !(HasPending(p) && Search(JoinServer, line).Some?)
    requires Search(IpTimestamp, line).Some?
    ensures var r := ProcessLine(p, line, server, true, env);
            var g := Search(IpTimestamp, line).value;
            var stamp := Group(g, 1).value;
            var ip := Group(g, 2).value;
            && (r.raised <==> IsBlocked(env.guardCfg, p.guard, ip, env.now).Raised?)
            && (IsBlocked(env.guardCfg, p.guard, ip, env.now) == Ok(true) ==> r.proc.guard == p.guard && !r.blockSaved)
            && (IsBlocked(env.guardCfg, p.guard, ip, env.now) == Ok(false) ==>
                  r.proc.guard == AddRequest(env.guardCfg, p.guard, ip, stamp, env.now, env.firewallOk).guard)
  {
    IpCaptureShapes(line);
  }

  /** After `reset_pending_steam_id`, a nickname line binds nobody. */
  lemma ResetThenJoinIgnored(p: Processor, line: string, server: string, isHistory: bool, env: Env)
    requires Search(PostLoginServer, line).None? && Search(LogoutServer, line).None?
    ensures var r := ProcessLine(ResetPending(p), line, server, isHistory, env);
            r.proc.presence == p.presence && r.proc.dir == p.dir && r.proc.pending.None?
  {
  }

  // ---------------------------------------------------------------------
  // A session from login to logout

  predicate IsWord(s: string) {
    s != [] && forall k :: 0 <= k < |s| ==> IsWordChar(s[k])
  }

  lemma LoginStep(p: Processor, id: string, server: string, isHistory: bool, env: Env)
    requires p.pending.None? && id != [] && AllDigits(id)
    ensures ProcessLine(p, POST_LOGIN + " " + id, server, isHistory, env)
            == Outcome(p.(pending := Some(id)), false, false, false)
  {
    var line := POST_LOGIN + " " + id;
    assert line == POST_LOGIN + " " + id + "";
    assert '[' !in line by {
      assert '[' !in POST_LOGIN + " ";
      assert forall k :: 0 <= k < |id| ==> id[k] != '[';
    }
    NoLeadNoMatch(IpTimestamp, line);
    SimpleRecognised(PostLoginServer, " ", id, "");
  }

  lemma NickStep(p: Processor, id: string, name: string, server: string, isHistory: bool, env: Env)
    requires p.pending == Some(id) && id != [] && Online(p.presence, server, id).None?
    requires IsWord(name)
    ensures var r := ProcessLine(p, JOIN + " " + name, server, isHistory, env);
            && Online(r.proc.presence, server, id) == Some(Session(name, server, env.now))
            && r.proc.pending.None? && r.proc.guard == p.guard
            && GetPlayerName(r.proc.dir, id) == JStr(name)
  {
    assert JOIN + " " + name == JOIN + " " + name + "";
    SimpleRecognised(JoinServer, " ", name, "");
  }

  /** A logout line for a digit account id matches neither the PostLogin
      nor the connection-sample pattern. */
  lemma LogoutLineNoOther(id: string)
    requires AllDigits(id)
    ensures Search(PostLoginServer, LOGOUT + " " + id).None?
    ensures Search(IpTimestamp, LOGOUT + " " + id).None?
  {
    var line := LOGOUT + " " + id;
    assert POST_LOGIN[0] !in line by {
      assert POST_LOGIN[0] !in LOGOUT + " ";
      assert forall k :: 0 <= k < |id| ==> id[k] != POST_LOGIN[0];
    }
    assert '[' !in line by {
      assert '[' !in LOGOUT + " ";
      assert forall k :: 0 <= k < |id| ==> id[k] != '[';
    }
    NoLeadNoMatch(PostLoginServer, line);
    NoLeadNoMatch(IpTimestamp, line);
  }

  lemma LogoutStep(p: Processor, id: string, server: string, isHistory: bool, env: Env)
    requires p.pending.None? && id != [] && AllDigits(id)
    ensures var r := ProcessLine(p, LOGOUT + " " + id, server, isHistory, env);
            && Online(r.proc.presence, server, id).None?
            && r.proc.dir == p.dir && r.proc.guard == p.guard && r.proc.pending.None?
  {
    var line := LOGOUT + " " + id;
    LogoutLineNoOther(id);
    assert line == LOGOUT + " " + id + "";
    SimpleRecognised(LogoutServer, " ", id, "");
    assert Search(LogoutServer, line) == Some([Some(id)]);
    StripDigits(id);
    assert AccountStep(p, line, server) == p.(presence := Logout(p.presence, server, id));
    assert !HasPending(p);
    assert !isHistory || Sample(p.guard, line, env) == Step(p.guard, false, false);
    assert ProcessLine(p, line, server, isHistory, env).proc == p.(presence := Logout(p.presence, server, id));
  }

  /** `PostLogin Account: <id>`, `Join succeeded: <name>`, `Logout Account: <id>`
      on one server: the account is online as `name` between the second and
      third line, offline after the third, and the directory keeps the name. */
  lemma LoginJoinLogout(p: Processor, id: string, name: string, server: string, isHistory: bool, env1: Env, env2: Env, env3: Env)
    requires p.pending.None? && Online(p.presence, server, id).None?
    requires id != [] && AllDigits(id) && IsWord(name)
    ensures var r1 := ProcessLine(p, POST_LOGIN + " " + id, server, isHistory, env1);
            var r2 := ProcessLine(r1.proc, JOIN + " " + name, server, isHistory, env2);
            var r3 := ProcessLine(r2.proc, LOGOUT + " " + id, server, isHistory, env3);
            && r1.proc.pending == Some(id)
            && Online(r2.proc.presence, server, id) == Some(Session(name, server, env2.now))
            && Online(r3.proc.presence, server, id).None?
            && GetPlayerName(r3.proc.dir, id) == JStr(name)
            && r3.proc.guard == p.guard
  {
    LoginStep(p, id, server, isHistory, env1);
    var r1 := ProcessLine(p, POST_LOGIN + " " + id, server, isHistory, env1);
    NickStep(r1.proc, id, name, server, isHistory, env2);
    var r2 := ProcessLine(r1.proc, JOIN + " " + name, server, isHistory, env2);
    LogoutStep(r2.proc, id, server, isHistory, env3);
  }

  /** The same session with account 777 and nickname Hero. */
  lemma LoginJoinLogoutExample(p: Processor, server: string, isHistory: bool, env1: Env, env2: Env, env3: Env)
    requires p.pending.None? && Online(p.presence, server, "777").None?
    ensures var r1 := ProcessLine(p, "PostLogin Account: 777", server, isHistory, env1);
            var r2 := ProcessLine(r1.proc, "Join succeeded: Hero", server, isHistory, env2);
            var r3 := ProcessLine(r2.proc, "Logout Account: 777", server, isHistory, env3);
            && Online(r2.proc.presence, server, "777") == Some(Session("Hero", server, env2.now))
            && Online(r3.proc.presence, server, "777").None?
            && GetPlayerName(r3.proc.dir, "777") == JStr("Hero")
  {
    assert "PostLogin Account: 777" == POST_LOGIN + " " + "777";
    assert "Join succeeded: Hero" == JOIN + " " + "Hero";
    assert "Logout Account: 777" == LOGOUT + " " + "777";
    LoginJoinLogout(p, "777", "Hero", server, isHistory, env1, env2, env3);
  }
}

=== FILE: log_files.dfy ===
/** `LogFileManager`: recognising rotated log names `base.YYYY-MM-DD`,
    ordering them by date, listing the current and rotated files, and the
    date filter. The directory is given as the names `glob` returns (in its
    order) and whether the current file exists; files are named, not
    opened. Dates are day numbers (`date.toordinal()`). */
module LogFiles {
  import opened Common
  import opened Timestamps

  /** `YYYY-MM-DD`: ten characters, dashes at 4 and 7, digits elsewhere. */
  predicate IsDateShape(d: string) {
    && |d| == 10 && d[4] == '-' && d[7] == '-'
    && forall i :: 0 <= i < 10 && i != 4 && i != 7 ==> IsDigit(d[i])
  }

  /** `^base\.\d{4}-\d{2}-\d{2}$`, with `$` also matching just before a
      final newline. */
  predicate IsDateSuffixFile(base: string, name: string) {
    var n := |base| + 1;
    && |name| >= n + 10
    && name[..n] == base + "."
    && IsDateShape(name[n..n + 10])
    && (name[n + 10..] == [] || name[n + 10..] == "\n")
  }

  /** What `_extract_date_from_filename` does with a name. */
  datatype DateOf = NoDate | Day(day: int) | Invalid

  /** `strptime(d, "%Y-%m-%d")` on the fixed-width shape, as a day number. */
  function ParseDate(d: string): (r: Option<int>)
    ensures r.Some? ==> IsDateShape(d)
    ensures IsDateShape(d) ==>
              var (y, m, day) := (100 * Num2(d, 0) + Num2(d, 2), Num2(d, 5), Num2(d, 8));
              && (r.Some? <==> ValidDate(y, m, day))
              && (r.Some? ==> r.value == Ordinal(y, m, day))
  {
    if !IsDateShape(d) then None
    else
      var y := 100 * Num2(d, 0) + Num2(d, 2);
      var m := Num2(d, 5);
      var day := Num2(d, 8);
      if ValidDate(y, m, day) then Some(Ordinal(y, m, day)) else None
  }

  // ---------------------------------------------------------------------
  // `strptime(s, "%Y-%m-%d")` on any string

  /** What one alternative of the pattern reads: the field's value and the
      characters it takes. */
  datatype Field = Field(value: int, width: nat)

  /** What the `%m` alternatives `1[0-2]`, `0[1-9]` and `[1-9]` read at `i`,
      in the order the pattern tries them. */
  function MonthFields(s: string, i: nat): (r: seq<Field>)
    requires i <= |s|
    ensures forall k :: 0 <= k < |r| ==> 1 <= r[k].value <= 12 && 1 <= r[k].width <= 2 && i + r[k].width <= |s|
  {
    (if i + 2 <= |s| && s[i] == '1' && '0' <= s[i + 1] <= '2' then [Field(Num2(s, i), 2)] else [])
    + (if i + 2 <= |s| && s[i] == '0' && '1' <= s[i + 1] <= '9' then [Field(Num2(s, i), 2)] else [])
    + (if i + 1 <= |s| && '1' <= s[i] <= '9' then [Field(Digit(s[i]), 1)] else [])
  }

  /** What the `%d` alternatives `3[01]`, `[12]\d`, `0[1-9]`, `[1-9]` and
      ` [1-9]` read at `i`, in order. */
  function DayFields(s: string, i: nat): (r: seq<Field>)
    requires i <= |s|
    ensures forall k :: 0 <= k < |r| ==> 1 <= r[k].value <= 31 && 1 <= r[k].width <= 2 && i + r[k].width <= |s|
  {
    (if i + 2 <= |s| && s[i] == '3' && '0' <= s[i + 1] <= '1' then [Field(Num2(s, i), 2)] else [])
    + (if i + 2 <= |s| && '1' <= s[i] <= '2' && IsDigit(s[i + 1]) then [Field(Num2(s, i), 2)] else [])
    + (if i + 2 <= |s| && s[i] == '0' && '1' <= s[i + 1] <= '9' then [Field(Num2(s, i), 2)] else [])
    + (if i + 1 <= |s| && '1' <= s[i] <= '9' then [Field(Digit(s[i]), 1)] else [])
    + (if i + 2 <= |s| && s[i] == ' ' && '1' <= s[i + 1] <= '9' then [Field(Digit(s[i + 1]), 2)] else [])
  }

  /** The match the pattern finds after `YYYY-`, trying the month
      alternatives from the `k`-th on: the first one followed by `-` and a
      day, with the first day alternative that reads there. */
  function MatchMonthDay(s: string, k: nat): (r: Option<(Field, Field)>)
    requires 5 <= |s|
    ensures r.Some? ==> 1 <= r.value.0.value <= 12 && 1 <= r.value.1.value <= 31
    ensures r.Some? ==> 1 <= r.value.0.width <= 2 && 1 <= r.value.1.width <= 2 && 6 + r.value.0.width + r.value.1.width <= |s|
    decreases |MonthFields(s, 5)| - k
  {
    var months := MonthFields(s, 5);
    if k >= |months| then None
    else
      var j := 5 + months[k].width;
      if j < |s| && s[j] == '-' && DayFields(s, j + 1) != [] then Some((months[k], DayFields(s, j + 1)[0]))
      else MatchMonthDay(s, k + 1)
  }

  /** `strptime(s, "%Y-%m-%d")` as a day number; `None` is the `ValueError`
      it raises when the pattern does not match, when text is left after the
      day, or when the date does not exist. */
  function StrptimeDate(s: string): (r: Option<int>)
    ensures r.Some? ==> 8 <= |s| <= 10 && s[4] == '-' && IsDigit(s[0]) && IsDigit(s[1]) && IsDigit(s[2]) && IsDigit(s[3])
  {
    if |s| < 5 || !(IsDigit(s[0]) && IsDigit(s[1]) && IsDigit(s[2]) && IsDigit(s[3])) || s[4] != '-' then None
    else
      match MatchMonthDay(s, 0)
      case None => None
      case Some((m, d)) =>
        var y := 100 * Num2(s, 0) + Num2(s, 2);
        if 6 + m.width + d.width != |s| then None
        else if ValidDate(y, m.value, d.value) then Some(Ordinal(y, m.value, d.value))
        else None
  }

  /** On the fixed-width shape `strptime` reads what `ParseDate` reads. */
  lemma StrptimeAgreesOnShape(s: string)
    requires IsDateShape(s)
    ensures StrptimeDate(s) == ParseDate(s)
  {
    MonthOnShape(s);
    DayOnShape(s);
    var y, m, day := 100 * Num2(s, 0) + Num2(s, 2), Num2(s, 5), Num2(s, 8);
    if 1 <= m <= 12 && DayFields(s, 8) != [] {
      var f := DayFields(s, 8)[0];
      assert MatchMonthDay(s, 0) == Some((Field(m, 2), f));
      if f.width == 2 {
        assert StrptimeDate(s) == if ValidDate(y, m, day) then Some(Ordinal(y, m, day)) else None;
      } else {
        assert StrptimeDate(s) == None;
        assert !ValidDate(y, m, day);
      }
    } else {
      assert StrptimeDate(s) == None;
      assert !ValidDate(y, m, day);
    }
  }

  /** On the shape only a two-digit month can be followed by the dash, and
      one is read exactly when the two digits make a month. */
  lemma MonthOnShape(s: string)
    requires IsDateShape(s)
    ensures MatchMonthDay(s, 0) ==
              if 1 <= Num2(s, 5) <= 12 && DayFields(s, 8) != [] then Some((Field(Num2(s, 5), 2), DayFields(s, 8)[0]))
              else None
  {
    var months := MonthFields(s, 5);
    assert IsDigit(s[5]) && IsDigit(s[6]);
    if 1 <= Num2(s, 5) <= 12 {
      assert months[0] == Field(Num2(s, 5), 2);
      assert s[7] == '-';
      if DayFields(s, 8) == [] {
        // `1[0-2]` is tried again as `[1-9]`, which the dash does not follow
        assert |months| <= 2 && MatchMonthDay(s, 2) == None;
        assert |months| == 2 ==> months[1].width == 1 && s[6] != '-';
        assert MatchMonthDay(s, 1) == None;
      }
    } else {
      assert |months| <= 1;
      if |months| == 1 {
        assert months[0].width == 1 && s[6] != '-';
        assert MatchMonthDay(s, 1) == None;
      }
    }
  }

  /** On the shape the day alternatives take both digits exactly when they
      make a day from 1 to 31, and then read that day. */
  lemma DayOnShape(s: string)
    requires IsDateShape(s)
    ensures DayFields(s, 8) != [] && DayFields(s, 8)[0].width == 2 <==> 1 <= Num2(s, 8) <= 31
    ensures DayFields(s, 8) != [] && DayFields(s, 8)[0].width == 2 ==> DayFields(s, 8)[0].value == Num2(s, 8)
  {
    assert IsDigit(s[8]) && IsDigit(s[9]);
  }

  /** `n` as two digits, or (unless `pad`) as one digit when it is below 10. */
  function Short(n: int, pad: bool): (r: string)
    requires 1 <= n <= 99
    ensures |r| == 1 <==> !pad && n < 10
    ensures |r| == 1 ==> '1' <= r[0] <= '9' && Digit(r[0]) == n
    ensures |r| == 2 ==> IsDigit(r[0]) && IsDigit(r[1]) && Num2(r, 0) == n
  {
    if pad || n >= 10 then Pad2(n) else [DigitChar(n)]
  }

  /** The date written as `%Y-%m-%d` would write it (`pad`), or with the
      month and day unpadded. */
  function DateText(y: int, m: int, d: int, pad: bool): string
    requires ValidDate(y, m, d) && y <= 9999
  {
    Pad4(y) + "-" + Short(m, pad) + "-" + Short(d, pad)
  }

  /** `strptime` reads a written date back, padded or not. */
  lemma StrptimeReadsDateText(y: int, m: int, d: int, pad: bool)
    requires ValidDate(y, m, d) && y <= 9999
    ensures StrptimeDate(DateText(y, m, d, pad)) == Some(Ordinal(y, m, d))
  {
    var yt, mt, dt := Pad4(y), Short(m, pad), Short(d, pad);
    var s := DateText(y, m, d, pad);
    var i := 6 + |mt|;
    assert s[..4] == yt && s[4] == '-' && s[5..5 + |mt|] == mt && s[5 + |mt|] == '-' && s[i..] == dt;
    assert IsDigit(s[0]) && IsDigit(s[1]) && IsDigit(s[2]) && IsDigit(s[3]);
    assert Num2(s, 0) == Num2(yt, 0) && Num2(s, 2) == Num2(yt, 2);
    DayReadsShort(s, i, d, pad);
    MonthReadsShort(s, m, pad);
  }

  /** The day alternatives read a written day whole, whichever of them
      takes it. */
  lemma DayReadsShort(s: string, i: nat, d: int, pad: bool)
    requires 1 <= d <= 31 && i <= |s| && s[i..] == Short(d, pad)
    ensures DayFields(s, i) != [] && DayFields(s, i)[0] == Field(d, |Short(d, pad)|)
  {
    var dt := Short(d, pad);
    assert s[i] == dt[0];
    if |dt| == 2 {
      assert s[i + 1] == dt[1];
      assert Num2(s, i) == d;
    }
  }

  /** The month alternatives read a written month whole, followed by the
      dash. */
  lemma MonthReadsShort(s: string, m: int, pad: bool)
    requires 1 <= m <= 12
    requires 6 + |Short(m, pad)| <= |s| && s[5..5 + |Short(m, pad)|] == Short(m, pad) && s[5 + |Short(m, pad)|] == '-'
    requires DayFields(s, 6 + |Short(m, pad)|) != []
    ensures MatchMonthDay(s, 0) == Some((Field(m, |Short(m, pad)|), DayFields(s, 6 + |Short(m, pad)|)[0]))
  {
    var mt := Short(m, pad);
    assert s[5] == mt[0];
    if |mt| == 2 {
      assert s[6] == mt[1];
      assert Num2(s, 5) == m;
    }
    assert MonthFields(s, 5)[0] == Field(m, |mt|);
  }

  /** The text after the last dot (`name.split('.')[-1]`). */
  function LastSegment(s: string): (r: string)
    ensures '.' !in r && |r| <= |s| && r == s[|s| - |r|..]
    ensures |r| < |s| ==> s[|s| - |r| - 1] == '.'
  {
    if s == [] || s[|s| - 1] == '.' then [] else LastSegment(s[..|s| - 1]) + [s[|s| - 1]]
  }

  /** `_extract_date_from_filename(name)`: `NoDate` for a rejected name,
      `Invalid` when `strptime` raises. */
  function ExtractDate(base: string, name: string): (r: DateOf)
    ensures r.NoDate? <==> !IsDateSuffixFile(base, name)
  {
    if !IsDateSuffixFile(base, name) then NoDate
    else match ParseDate(LastSegment(name))
      case Some(day) => Day(day)
      case None => Invalid
  }

  /** For an accepted name the date read is the one in its suffix. */
  lemma ExtractDateReadsSuffix(base: string, date: string)
    requires IsDateShape(date)
    ensures ExtractDate(base, base + "." + date) == match ParseDate(date) case Some(d) => Day(d) case None => Invalid
  {
    var name := base + "." + date;
    var n := |base| + 1;
    assert name[..n] == base + "." && name[n..n + 10] == date && name[n + 10..] == [];
    LastSegmentOf(base + ".", date);
  }

  lemma LastSegmentOf(pre: string, seg: string)
    requires pre != [] && pre[|pre| - 1] == '.' && '.' !in seg
    ensures LastSegment(pre + seg) == seg
    decreases |seg|
  {
    if seg == [] {
      assert pre + seg == pre;
    } else {
      assert (pre + seg)[..|pre + seg| - 1] == pre + seg[..|seg| - 1];
      LastSegmentOf(pre, seg[..|seg| - 1]);
    }
  }

  /** Because `$` also matches before a final newline, `base.YYYY-MM-DD\n`
      is accepted too, but its last segment keeps the newline and
      `strptime` rejects it. */
  lemma TrailingNewlineAccepted(base: string, date: string)
    requires IsDateShape(date)
    ensures IsDateSuffixFile(base, base + "." + date + "\n")
    ensures ExtractDate(base, base + "." + date + "\n").Invalid?
  {
    var name := base + "." + date + "\n";
    var n := |base| + 1;
    assert name[..n] == base + "." && name[n..n + 10] == date && name[n + 10..] == "\n";
    assert name == (base + ".") + (date + "\n");
    LastSegmentOf(base + ".", date + "\n");
    assert !IsDateShape(date + "\n");
  }

  /** Names of another shape, such as `base.1` or `base.tmp`, are rejected. */
  lemma OtherSuffixesRejected(base: string)
    ensures !IsDateSuffixFile(base, base + ".1")
    ensures !IsDateSuffixFile(base, base + ".tmp")
    ensures !IsDateSuffixFile(base, base)
  {
  }

  // ---------------------------------------------------------------------
  // Sorting by date

  /** The sort key of a name: its day (names without one never reach the sort). */
  function DayOf(base: string, name: string): int {
    match ExtractDate(base, name)
    case Day(d) => d
    case _ => 0
  }

  /** The day of each name, as the key function `sorted` is given. */
  function DayKey(base: string): string -> int {
    name => DayOf(base, name)
  }

  /** `s` is ordered by `key`. */
  ghost predicate SortedBy(key: string -> int, s: seq<string>) {
    forall i, j :: 0 <= i < j < |s| ==> key(s[i]) <= key(s[j])
  }

  ghost predicate SortedByDate(base: string, s: seq<string>) {
    SortedBy(DayKey(base), s)
  }

  function Insert(key: string -> int, x: string, s: seq<string>): (r: seq<string>)
    requires SortedBy(key, s)
    ensures SortedBy(key, r)
    ensures multiset(r) == multiset(s) + multiset{x}
  {
    if s == [] then [x]
    else if key(x) <= key(s[0]) then
      HeadBelowSorted(key, x, s);
      [x] + s
    else
      SortedTail(key, s);
      var tail := Insert(key, x, s[1..]);
      assert s == [s[0]] + s[1..];
      assert multiset([s[0]] + tail) == multiset{s[0]} + multiset(tail);
      HeadBelowInserted(key, x, s, tail);
      [s[0]] + tail
  }

  lemma SortedTail(key: string -> int, s: seq<string>)
    requires s != [] && SortedBy(key, s)
    ensures SortedBy(key, s[1..])
  {
    forall i, j | 0 <= i < j < |s| - 1 ensures key(s[1..][i]) <= key(s[1..][j]) {
      assert s[1..][i] == s[i + 1] && s[1..][j] == s[j + 1];
    }
  }

  lemma HeadBelowSorted(key: string -> int, x: string, s: seq<string>)
    requires s != [] && SortedBy(key, s) && key(x) <= key(s[0])
    ensures SortedBy(key, [x] + s)
  {
    forall y | y in s ensures key(x) <= key(y) {
      var k :| 0 <= k < |s| && s[k] == y;
    }
    SortedCons(key, x, s);
  }

  /** Inserting past the head keeps the head first: every name of the
      updated tail has a key no smaller than the head's. */
  lemma HeadBelowInserted(key: string -> int, x: string, s: seq<string>, tail: seq<string>)
    requires s != [] && SortedBy(key, s) && key(s[0]) < key(x)
    requires SortedBy(key, tail) && multiset(tail) == multiset(s[1..]) + multiset{x}
    ensures SortedBy(key, [s[0]] + tail)
  {
    forall y | y in tail ensures key(s[0]) <= key(y) {
      HeadBelowMember(key, x, s, tail, y);
    }
    SortedCons(key, s[0], tail);
  }

  lemma HeadBelowMember(key: string -> int, x: string, s: seq<string>, tail: seq<string>, y: string)
    requires s != [] && SortedBy(key, s) && key(s[0]) < key(x)
    requires multiset(tail) == multiset(s[1..]) + multiset{x}
    requires y in tail
    ensures key(s[0]) <= key(y)
  {
    assert y in multiset(tail);
    if y != x {
      assert y in multiset(s[1..]);
      assert y in s[1..];
      var k :| 0 <= k < |s[1..]| && s[1..][k] == y;
      assert s[k + 1] == y;
    }
  }

  lemma SortedCons(key: string -> int, h: string, tail: seq<string>)
    requires SortedBy(key, tail)
    requires forall y :: y in tail ==> key(h) <= key(y)
    ensures SortedBy(key, [h] + tail)
  {
    var r := [h] + tail;
    forall i, j | 0 <= i < j < |r| ensures key(r[i]) <= key(r[j]) {
      assert r[j] == tail[j - 1];
      if i > 0 {
        assert r[i] == tail[i - 1];
      }
    }
  }

  /** Stable insertion sort by `key`. */
  function SortBy(key: string -> int, s: seq<string>): (r: seq<string>)
    ensures SortedBy(key, r)
    ensures multiset(r) == multiset(s)
  {
    if s == [] then []
    else
      assert s == [s[0]] + s[1..];
      Insert(key, s[0], SortBy(key, s[1..]))
  }

  /** `sorted(files, key=_extract_date_from_filename)` once every key is a day. */
  function SortByDate(base: string, s: seq<string>): (r: seq<string>)
    ensures SortedByDate(base, r)
    ensures forall i, j :: 0 <= i < j < |r| ==> DayOf(base, r[i]) <= DayOf(base, r[j])
    ensures multiset(r) == multiset(s)
  {
    var r := SortBy(DayKey(base), s);
    forall i, j | 0 <= i < j < |r| ensures DayOf(base, r[i]) <= DayOf(base, r[j]) {
      assert DayKey(base)(r[i]) <= DayKey(base)(r[j]);
    }
    r
  }

  /** The names `_is_date_suffix_file` accepts, in the given order. */
  function Accepted(base: string, names: seq<string>): (r: seq<string>)
    ensures forall n :: n in r <==> n in names && IsDateSuffixFile(base, n)
  {
    if names == [] then []
    else if IsDateSuffixFile(base, names[0]) then [names[0]] + Accepted(base, names[1..])
    else Accepted(base, names[1..])
  }

  /** Some accepted name carries a date `strptime` rejects (`2024-13-01`). */
  predicate HasInvalidDate(base: string, names: seq<string>) {
    exists n :: n in names && ExtractDate(base, n).Invalid?
  }

  /** `get_rotated_log_files()`: the accepted names sorted by date; `Raised`
      when computing a sort key raises. */
  function RotatedLogFiles(base: string, names: seq<string>): (r: Result<seq<string>>)
    ensures r.Raised? <==> HasInvalidDate(base, names)
    ensures r.Ok? ==> multiset(r.value) == multiset(Accepted(base, names))
    ensures r.Ok? ==> forall n :: n in r.value ==> IsDateSuffixFile(base, n) && ExtractDate(base, n).Day?
    ensures r.Ok? ==> SortedByDate(base, r.value)
  {
    var accepted := Accepted(base, names);
    if exists n :: n in accepted && ExtractDate(base, n).Invalid? then Raised
    else
      var sorted := SortByDate(base, accepted);
      assert forall n :: n in sorted ==> n in accepted by {
        forall n | n in sorted ensures n in accepted {
          assert n in multiset(sorted);
        }
      }
      Ok(sorted)
  }

  /** `get_all_log_files()`: the current file first if it exists, then the
      rotated files in date order. */
  function AllLogFiles(base: string, currentExists: bool, names: seq<string>): (r: Result<seq<string>>)
    ensures r.Ok? <==> RotatedLogFiles(base, names).Ok?
    ensures r.Ok? ==> r.value == (if currentExists then [base] else []) + RotatedLogFiles(base, names).value
  {
    var rotated :- RotatedLogFiles(base, names);
    Ok((if currentExists then [base] else []) + rotated)
  }

  // ---------------------------------------------------------------------
  // find_log_entries_after_date

  /** The target: a `%Y-%m-%d` string, a `datetime` (its day) or a `date`. */
  datatype Target = Text(s: string) | Moment(day: int) | Calendar(day: int)

  /** The target's day; `Raised` where `strptime` rejects the string. */
  function TargetDay(t: Target): Result<int> {
    match t
    case Text(s) => (match StrptimeDate(s) case Some(d) => Ok(d) case None => Raised)
    case Moment(d) => Ok(d)
    case Calendar(d) => Ok(d)
  }

  /** A target string names its date whether or not the month and day are
      zero-padded. */
  lemma TextTargetDay(y: int, m: int, d: int, pad: bool)
    requires ValidDate(y, m, d) && y <= 9999
    ensures TargetDay(Text(DateText(y, m, d, pad))) == Ok(Ordinal(y, m, d))
  {
    StrptimeReadsDateText(y, m, d, pad);
  }

  /** `find_log_entries_after_date(target)` as written: the current file is
      kept; for the first rotated file the comparison of its `datetime` with
      `target.date()` raises (and a `date` target has no `.date()`). */
  function FindAfterDateAsWritten(base: string, currentExists: bool, names: seq<string>, target: Target): (r: Result<seq<string>>)
    ensures r.Ok? ==> r.value == (if currentExists then [base] else [])
    ensures r.Ok? <==> TargetDay(target).Ok? && RotatedLogFiles(base, names) == Ok([])
  {
    var _ :- TargetDay(target);
    var all :- AllLogFiles(base, currentExists, names);
    var rotated := RotatedLogFiles(base, names).value;
    if rotated != [] then Raised else Ok(all)
  }

  /** The dated names on or after `day`, in order. */
  function OnOrAfter(base: string, rotated: seq<string>, day: int): (r: seq<string>)
    ensures forall n :: n in r <==> n in rotated && DayOf(base, n) >= day
    ensures SortedByDate(base, rotated) ==> SortedByDate(base, r)
  {
    if rotated == [] then []
    else if DayOf(base, rotated[0]) >= day then [rotated[0]] + OnOrAfter(base, rotated[1..], day)
    else OnOrAfter(base, rotated[1..], day)
  }

  /** The filter as evidently intended: the current file, then the rotated
      files dated on or after the target day, in date order. */
  function FindAfterDate(base: string, currentExists: bool, names: seq<string>, target: Target): (r: Result<seq<string>>)
    ensures r.Ok? <==> TargetDay(target).Ok? && RotatedLogFiles(base, names).Ok?
    ensures r.Ok? && currentExists ==> |r.value| >= 1 && r.value[0] == base
    ensures r.Ok? ==> forall n :: n in r.value && n != base ==>
              n in RotatedLogFiles(base, names).value && ExtractDate(base, n).day >= TargetDay(target).value
    ensures r.Ok? ==> forall n :: n in RotatedLogFiles(base, names).value && ExtractDate(base, n).day >= TargetDay(target).value ==> n in r.value
    ensures r.Ok? ==> SortedByDate(base, r.value[if currentExists then 1 else 0..])
  {
    var day :- TargetDay(target);
    var rotated :- RotatedLogFiles(base, names);
    Ok((if currentExists then [base] else []) + OnOrAfter(base, rotated, day))
  }

  /** With no rotated files the filter as written keeps the current file
      for an unpadded target such as `2024-1-5` too. */
  lemma UnpaddedTargetAccepted(base: string, y: int, m: int, d: int)
    requires ValidDate(y, m, d) && y <= 9999
    ensures FindAfterDateAsWritten(base, true, [], Text(DateText(y, m, d, false))) == Ok([base])
  {
    TextTargetDay(y, m, d, false);
    assert Accepted(base, []) == [];
  }

  /** `2024-1-5` is the date `2024-01-05`. */
  lemma UnpaddedTargetExample()
    ensures TargetDay(Text("2024-1-5")) == TargetDay(Text("2024-01-05")) == Ok(Ordinal(2024, 1, 5))
  {
    assert DateText(2024, 1, 5, false) == "2024-1-5";
    assert DateText(2024, 1, 5, true) == "2024-01-05";
    TextTargetDay(2024, 1, 5, false);
    TextTargetDay(2024, 1, 5, true);
  }

  /** With one rotated file dated on or after the target, the filter as
      written raises; the intended one keeps the current file and the
      rotated one. */
  lemma OneArchiveAfterTarget(base: string, date: string, day: int)
    requires IsDateShape(date) && ParseDate(date).Some? && ParseDate(date).value >= day
    ensures FindAfterDateAsWritten(base, true, [base + "." + date], Moment(day)).Raised?
    ensures FindAfterDate(base, true, [base + "." + date], Moment(day)) == Ok([base, base + "." + date])
  {
    var name := base + "." + date;
    ExtractDateReadsSuffix(base, date);
    assert IsDateSuffixFile(base, name);
    assert Accepted(base, [name]) == [name];
    assert !HasInvalidDate(base, [name]);
    assert RotatedLogFiles(base, [name]) == Ok([name]);
    assert OnOrAfter(base, [name], day) == [name];
    assert [base] + [name] == [base, name];
  }
}

=== FILE: log_parser.dfy ===
/** The older `LogParser`: which log files the configuration names, its own
    line handler over a flat id -> name table, the players query and count,
    and the offset bookkeeping of the real-time tail. Files are given as
    their contents (a character string; offsets count characters); the
    watcher, the mediator and logging are not modelled, and a published
    abuse event is an output. */
module LogParser {
  import opened Common
  import opened Json
  import opened Patterns
  import Config

  // ---------------------------------------------------------------------
  // get_configured_log_files

  /** The paths one server entry contributes: a list is taken whole, a bare
      string is one path, anything else nothing. `Raised` when the entry is
      not a dict (`.get` on it raises). */
  function ServerLogFiles(info: Json): (r: Result<seq<Json>>)
    ensures r.Ok? <==> info.JObj?
    ensures r.Ok? && LookupOr(info.fields, "GAME_LOG_FILES", JList([])).JList? ==>
              r.value == LookupOr(info.fields, "GAME_LOG_FILES", JList([])).items
    ensures r.Ok? && LookupOr(info.fields, "GAME_LOG_FILES", JList([])).JStr? ==>
              r.value == [LookupOr(info.fields, "GAME_LOG_FILES", JList([]))]
    ensures (r.Ok? && !LookupOr(info.fields, "GAME_LOG_FILES", JList([])).JList?
                   && !LookupOr(info.fields, "GAME_LOG_FILES", JList([])).JStr?) ==> r.value == []
  {
    match info
    case JObj(fs) =>
      (match LookupOr(fs, "GAME_LOG_FILES", JList([]))
       case JList(items) => Ok(items)
       case JStr(s) => Ok([JStr(s)])
       case _ => Ok([]))
    case _ => Raised
  }

  /** The server entries in order, their contributions concatenated. */
  function Collect(servers: seq<(string, Json)>): (r: Result<seq<Json>>)
    ensures r.Ok? <==> forall i :: 0 <= i < |servers| ==> servers[i].1.JObj?
    ensures r.Ok? ==> forall x :: x in r.value ==>
              exists i :: 0 <= i < |servers| && servers[i].1.JObj? && x in ServerLogFiles(servers[i].1).value
  {
    if servers == [] then Ok([])
    else
      var head :- ServerLogFiles(servers[0].1);
      var rest :- Collect(servers[1..]);
      assert forall x :: x in rest ==>
        exists i :: 0 <= i < |servers| && servers[i].1.JObj? && x in ServerLogFiles(servers[i].1).value by {
        forall x | x in rest
          ensures exists i :: 0 <= i < |servers| && servers[i].1.JObj? && x in ServerLogFiles(servers[i].1).value
        {
          var j :| 0 <= j < |servers[1..]| && servers[1..][j].1.JObj? && x in ServerLogFiles(servers[1..][j].1).value;
          assert servers[j + 1] == servers[1..][j];
        }
      }
      Ok(head + rest)
  }

  /** The contributions of two runs of server entries are concatenated in order. */
  lemma {:induction false} CollectAppend(a: seq<(string, Json)>, b: seq<(string, Json)>)
    ensures Collect(a + b) == if Collect(a).Ok? && Collect(b).Ok? then Ok(Collect(a).value + Collect(b).value) else Raised
  {
    if a == [] {
      assert a + b == b;
      if Collect(b).Ok? {
        var e: seq<Json> := [];
        assert Collect(a) == Ok(e);
        assert e + Collect(b).value == Collect(b).value;
      }
    } else {
      assert (a + b)[0] == a[0];
      assert (a + b)[1..] == a[1..] + b;
      CollectAppend(a[1..], b);
      var head := ServerLogFiles(a[0].1);
      if head.Ok? && Collect(a[1..]).Ok? && Collect(b).Ok? {
        var x, y := Collect(a[1..]).value, Collect(b).value;
        assert Collect(a) == Ok(head.value + x);
        assert Collect(a + b) == Ok(head.value + (x + y));
        assert head.value + (x + y) == (head.value + x) + y;
      }
    }
  }

  /** `get_configured_log_files()`. `Raised` when `SERVERS` or one of its
      entries is not a dict. */
  function ConfiguredLogFiles(root: Json): (r: Result<seq<Json>>)
    ensures r.Ok? <==> Config.Get(root, "SERVERS", JObj([])).JObj?
                       && forall i :: 0 <= i < |Config.Get(root, "SERVERS", JObj([])).fields| ==>
                            Config.Get(root, "SERVERS", JObj([])).fields[i].1.JObj?
  {
    match Config.Get(root, "SERVERS", JObj([]))
    case JObj(servers) => Collect(servers)
    case _ => Raised
  }

  /** Two servers, one listing two files and one naming a single file as a
      string, and a third whose entry is a number, give the three paths in order. */
  lemma ConfiguredLogFilesExample()
    ensures ConfiguredLogFiles(JObj([("SERVERS", JObj([
              ("1", JObj([("GAME_LOG_FILES", JList([JStr("a.log"), JStr("b.log")]))])),
              ("2", JObj([("GAME_LOG_FILES", JStr("c.log"))])),
              ("3", JObj([("GAME_LOG_FILES", JInt(7))]))]))]))
            == Ok([JStr("a.log"), JStr("b.log"), JStr("c.log")])
  {
    var root := JObj([("SERVERS", JObj([
              ("1", JObj([("GAME_LOG_FILES", JList([JStr("a.log"), JStr("b.log")]))])),
              ("2", JObj([("GAME_LOG_FILES", JStr("c.log"))])),
              ("3", JObj([("GAME_LOG_FILES", JInt(7))]))]))]);
    var servers := [
              ("1", JObj([("GAME_LOG_FILES", JList([JStr("a.log"), JStr("b.log")]))])),
              ("2", JObj([("GAME_LOG_FILES", JStr("c.log"))])),
              ("3", JObj([("GAME_LOG_FILES", JInt(7))]))];
    Config.GetTopLevel(root, "SERVERS", JObj([]));
    assert Config.Get(root, "SERVERS", JObj([])) == JObj(servers);
    assert ServerLogFiles(servers[2].1) == Ok([]);
    assert servers[2..][1..] == [];
    var none: seq<Json> := [];
    assert |Collect(servers[2..]).value| == 0;
    assert Collect(servers[2..]) == Ok(none);
    assert ServerLogFiles(servers[1].1) == Ok([JStr("c.log")]);
    assert servers[1..][1..] == servers[2..];
    assert [JStr("c.log")] + none == [JStr("c.log")];
    assert Collect(servers[1..]) == Ok([JStr("c.log")]);
    assert servers[1..] == servers[0..][1..];
    assert ServerLogFiles(servers[0].1) == Ok([JStr("a.log"), JStr("b.log")]);
    assert [JStr("a.log"), JStr("b.log")] + [JStr("c.log")] == [JStr("a.log"), JStr("b.log"), JStr("c.log")];
  }

  // ---------------------------------------------------------------------
  // _process_line

  /** A published abuse sample (`DdosEvent`). */
  datatype DdosEvent = DdosEvent(ip: string, timestamp: string, logFile: string)

  /** `connected_players`: account id -> display name. */
  type Connected = map<string, string>

  datatype Handled = Handled(connected: Connected, events: seq<DdosEvent>)

  /** Python's `a or b` on optional strings: `a` unless it is `None` or empty. */
  function OrElse(a: Option<string>, b: Option<string>): Option<string> {
    if a.Some? && a.value != [] then a else b
  }

  const UNKNOWN_PREFIX: string := "Unknown_"

  /** The id and name a unified-login match yields. */
  function LoginOf(g: Groups): Option<(string, string)> {
    var id := OrElse(Group(g, 1), Group(g, 3));
    if id.Some? && id.value != [] then
      var name := Group(g, 2);
      Some((id.value, if name.Some? && name.value != [] then name.value else UNKNOWN_PREFIX + id.value))
    else None
  }

  /** The logout match: the lobby form if present, else the server form. */
  function LogoutOf(line: string): Option<Groups> {
    match Search(LogoutLobby, line)
    case Some(g) => Some(g)
    case None => Search(LogoutServer, line)
  }

  /** `_process_line(line, log_file_path)`; `mediator` is whether a mediator
      is attached (events are published only then). */
  function ProcessLine(c: Connected, line: string, path: string, mediator: bool): (r: Handled)
    ensures line == [] ==> r == Handled(c, [])
    // the abuse sample is published whatever else the line is
    ensures line != [] ==>
              r.events == match Search(IpTimestamp, line)
                          case Some(g) => if mediator then [DdosEvent(Group(g, 2).value, Group(g, 1).value, path)] else []
                          case None => []
    // at most one id changes
    ensures forall k :: k in r.connected && k in c && r.connected[k] != c[k] ==> Search(UnifiedLogin, line).Some?
    ensures line != [] && Search(UnifiedLogin, line).None? && LogoutOf(line).None? ==> r.connected == c
  {
    if line == [] then Handled(c, [])
    else
      var events :=
        (match Search(IpTimestamp, line)
         case Some(g) =>
           IpCaptureShapes(line);
           if mediator then [DdosEvent(Group(g, 2).value, Group(g, 1).value, path)] else []
         case None => []);
      match Search(UnifiedLogin, line)
      case Some(g) =>
        (match LoginOf(g)
         case Some(login) => Handled(c[login.0 := login.1], events)
         case None => Handled(c, events))
      case None =>
        match LogoutOf(line)
        case Some(g) =>
          if Group(g, 1).Some? then Handled(c - {Strip(Group(g, 1).value)}, events) else Handled(c, events)
        case None => Handled(c, events)
  }

  /** A login line (either form) always yields an id: group 1, or else group
      3; the name is group 2, or else `Unknown_<id>`. The entry is
      overwritten and the logout check is skipped. */
  lemma LoginLine(c: Connected, line: string, path: string, mediator: bool)
    requires line != [] && Search(UnifiedLogin, line).Some?
    ensures var g := Search(UnifiedLogin, line).value;
            var id := if Group(g, 1).Some? then Group(g, 1).value else Group(g, 3).value;
            && LoginOf(g).Some? && LoginOf(g).value.0 == id
            && LoginOf(g).value.1 == (if Group(g, 2).Some? then Group(g, 2).value else UNKNOWN_PREFIX + id)
            && ProcessLine(c, line, path, mediator).connected == c[id := LoginOf(g).value.1]
  {
    UnifiedLoginGroups(line);
  }

  /** Repeating a login line leaves the table as after the first one. */
  lemma LoginRepeated(c: Connected, line: string, path: string, mediator: bool)
    requires line != [] && Search(UnifiedLogin, line).Some?
    ensures var once := ProcessLine(c, line, path, mediator).connected;
            ProcessLine(once, line, path, mediator).connected == once
  {
    UnifiedLoginGroups(line);
  }

  /** A logout line (not a login) drops the captured id if it is tracked
      and changes nothing otherwise. */
  lemma LogoutLine(c: Connected, line: string, path: string, mediator: bool)
    requires line != [] && Search(UnifiedLogin, line).None? && LogoutOf(line).Some?
    ensures var id := Group(LogoutOf(line).value, 1);
            && id.Some? && AllDigits(id.value)
            && ProcessLine(c, line, path, mediator).connected == c - {id.value}
            && (id.value !in c ==> ProcessLine(c, line, path, mediator).connected == c)
  {
    if Search(LogoutLobby, line).Some? {
      AccountCapturesDigits(LogoutLobby, line);
    } else {
      AccountCapturesDigits(LogoutServer, line);
    }
    var id := Group(LogoutOf(line).value, 1).value;
    StripDigits(id);
  }

  /** `_handle_get_connected_players_query`: a copy of the table, with the
      same ids bound to the same names. */
  function ConnectedPlayersQuery(c: Connected): (r: Connected)
    ensures forall id :: id in r <==> id in c
    ensures forall id :: id in r ==> r[id] == c[id]
  { c }

  /** `get_player_count()`: the number of tracked ids. */
  function PlayerCount(c: Connected): (r: nat)
    ensures r == |c.Keys|
    ensures r == 0 <==> c == map[]
  {
    if c == map[] then 0
    else
      var id :| id in c;
      assert id in c.Keys;
      |c|
  }

  /** The count moves with logins and logouts: a login of a new id adds
      one, of a tracked id none; a logout of a tracked id removes one. */
  lemma PlayerCountTracksLines(c: Connected, line: string, path: string, mediator: bool)
    requires line != []
    ensures var after := ProcessLine(c, line, path, mediator).connected;
            Search(UnifiedLogin, line).Some? ==>
              PlayerCount(after) == PlayerCount(c) + (if LoginOf(Search(UnifiedLogin, line).value).value.0 in c then 0 else 1)
    ensures var after := ProcessLine(c, line, path, mediator).connected;
            Search(UnifiedLogin, line).None? && LogoutOf(line).Some? ==>
              PlayerCount(after) == PlayerCount(c) - (if Group(LogoutOf(line).value, 1).value in c then 1 else 0)
  {
    if Search(UnifiedLogin, line).Some? {
      LoginLine(c, line, path, mediator);
    } else if LogoutOf(line).Some? {
      LogoutLine(c, line, path, mediator);
    }
  }

  /** Handling lines one after another with `step`, threading the table
      through and collecting the events in order. */
  function Fold(step: (Connected, string) -> Handled, c: Connected, lines: seq<string>): Handled
    decreases |lines|
  {
    if lines == [] then Handled(c, [])
    else
      var first := step(c, lines[0]);
      var rest := Fold(step, first.connected, lines[1..]);
      Handled(rest.connected, first.events + rest.events)
  }

  /** Folding over `a + b` is folding over `a`, then over `b` from the table
      `a` left, with the events in that order. */
  lemma {:induction false} FoldAppend(step: (Connected, string) -> Handled, c: Connected, a: seq<string>, b: seq<string>)
    ensures var x := Fold(step, c, a);
            var y := Fold(step, x.connected, b);
            Fold(step, c, a + b) == Handled(y.connected, x.events + y.events)
    decreases |a|
  {
    if a == [] {
      assert a + b == b;
    } else {
      assert (a + b)[0] == a[0];
      assert (a + b)[1..] == a[1..] + b;
      FoldAppend(step, step(c, a[0]).connected, a[1..], b);
    }
  }

  /** A step that publishes at most one event gives at most one per line. */
  lemma {:induction false} FoldEventsBound(step: (Connected, string) -> Handled, c: Connected, lines: seq<string>)
    requires forall d, l :: |step(d, l).events| <= 1
    ensures |Fold(step, c, lines).events| <= |lines|
    decreases |lines|
  {
    if lines != [] {
      FoldEventsBound(step, step(c, lines[0]).connected, lines[1..]);
    }
  }

  /** Handling lines one after another. */
  function ProcessLines(c: Connected, lines: seq<string>, path: string, mediator: bool): (r: Handled)
    ensures |r.events| <= |lines|
  {
    var step := (d: Connected, l: string) => ProcessLine(d, l, path, mediator);
    assert forall d, l :: |step(d, l).events| <= 1;
    FoldEventsBound(step, c, lines);
    Fold(step, c, lines)
  }

  /** Handling `a + b` is handling `a`, then `b` from the table `a` left,
      with the events in that order. */
  lemma ProcessLinesAppend(c: Connected, a: seq<string>, b: seq<string>, path: string, mediator: bool)
    ensures var x := ProcessLines(c, a, path, mediator);
            var y := ProcessLines(x.connected, b, path, mediator);
            ProcessLines(c, a + b, path, mediator) == Handled(y.connected, x.events + y.events)
  {
    FoldAppend((d: Connected, l: string) => ProcessLine(d, l, path, mediator), c, a, b);
  }

  // ---------------------------------------------------------------------
  // The real-time tail

  /** `readlines()`: the pieces up to and including each newline, and a
      final piece without one. */
  function SplitLines(s: string): (lines: seq<string>)
    ensures forall i :: 0 <= i < |lines| ==> lines[i] != []
    ensures forall i :: 0 <= i < |lines| - 1 ==> lines[i][|lines[i]| - 1] == '\n'
    ensures forall i :: 0 <= i < |lines| ==> '\n' !in lines[i][..|lines[i]| - 1]
    decreases |s|
  {
    if s == [] then []
    else if '\n' !in s then [s]
    else
      var i := Config.IndexOf(s, '\n');
      [s[..i + 1]] + SplitLines(s[i + 1..])
  }

  function Concat(lines: seq<string>): string {
    if lines == [] then [] else lines[0] + Concat(lines[1..])
  }

  /** Joining the lines gives back the text. */
  lemma {:induction false} SplitLinesConcat(s: string)
    ensures Concat(SplitLines(s)) == s
    decreases |s|
  {
    if s != [] && '\n' in s {
      var i := Config.IndexOf(s, '\n');
      SplitLinesConcat(s[i + 1..]);
      assert s == s[..i + 1] + s[i + 1..];
    }
  }

  /** `lines` cuts `s` into lines the way `readlines()` does: non-empty
      pieces that join back to `s`, each ending at its first newline, and
      only the last one possibly without a newline. */
  predicate IsLineSplit(lines: seq<string>, s: string) {
    && Concat(lines) == s
    && (forall i :: 0 <= i < |lines| ==> lines[i] != [])
    && (forall i :: 0 <= i < |lines| - 1 ==> lines[i][|lines[i]| - 1] == '\n')
    && (forall i :: 0 <= i < |lines| ==> '\n' !in lines[i][..|lines[i]| - 1])
  }

  /** `SplitLines` is such a cut of its input. */
  lemma SplitLinesIsLineSplit(s: string)
    ensures IsLineSplit(SplitLines(s), s)
  {
    SplitLinesConcat(s);
  }

  /** There is only one way to cut a text into lines, so `SplitLines` is it. */
  lemma {:induction false} LineSplitUnique(lines: seq<string>, s: string)
    requires IsLineSplit(lines, s)
    ensures lines == SplitLines(s)
    decreases |s|
  {
    if lines != [] {
      var l := lines[0];
      assert s == l + Concat(lines[1..]);
      if '\n' in l {
        // the newline ends the first piece, so it is the first newline of `s`
        assert l[|l| - 1] == '\n' by {
          if |lines| == 1 {
            var k :| 0 <= k < |l| && l[k] == '\n';
            assert k == |l| - 1;
          }
        }
        FirstNewline(s, l);
        var rest := lines[1..];
        assert IsLineSplit(rest, s[|l|..]) by {
          assert s[|l|..] == Concat(rest);
          forall i | 0 <= i < |rest| ensures rest[i] != [] { assert rest[i] == lines[i + 1]; }
          forall i | 0 <= i < |rest| - 1 ensures rest[i][|rest[i]| - 1] == '\n' { assert rest[i] == lines[i + 1]; }
          forall i | 0 <= i < |rest| ensures '\n' !in rest[i][..|rest[i]| - 1] { assert rest[i] == lines[i + 1]; }
        }
        LineSplitUnique(rest, s[|l|..]);
      } else {
        // a piece without a newline can only be the last, and `s` has no newline
        assert |lines| == 1;
        assert Concat(lines[1..]) == [];
        assert s == l;
      }
    }
  }

  /** A text that starts with a newline-free piece ending in a newline has
      its first newline at the end of that piece. */
  lemma FirstNewline(s: string, l: string)
    requires l != [] && l[|l| - 1] == '\n' && '\n' !in l[..|l| - 1]
    requires |l| <= |s| && s[..|l|] == l
    ensures '\n' in s && Config.IndexOf(s, '\n') == |l| - 1
    ensures SplitLines(s) == [l] + SplitLines(s[|l|..])
  {
    assert s[|l| - 1] == '\n';
    assert s[..|l| - 1] == l[..|l| - 1];
    var i := Config.IndexOf(s, '\n');
    assert i == |l| - 1;
    assert s[..i + 1] == l;
  }

  /** How the file position behaves after seeking past the end. */
  datatype SeekMode =
    | StaysAtTarget   // `tell()` reports the seek target (CPython)
    | ClampsToEnd     // `tell()` reports the end of the file

  /** `f.seek(offset)`, `readlines()`, `tell()`: the lines read and the end position. */
  function ReadFrom(contents: string, offset: nat, mode: SeekMode): (r: (seq<string>, nat))
    // within the file: exactly the rest of the text, cut into lines, and the position at the end
    ensures offset <= |contents| ==> IsLineSplit(r.0, contents[offset..]) && r.1 == |contents|
    // past the end: nothing, and the position the rule gives
    ensures offset > |contents| ==> r.0 == []
    ensures offset > |contents| && mode == StaysAtTarget ==> r.1 == offset
    ensures offset > |contents| && mode == ClampsToEnd ==> r.1 == |contents|
  {
    if offset <= |contents| then
      SplitLinesIsLineSplit(contents[offset..]);
      (SplitLines(contents[offset..]), |contents|)
    else ([], if mode == StaysAtTarget then offset else |contents|)
  }

  predicate IsSep(c: char) { c == '/' || c == '\\' }

  /** `os.path.basename`: the text after the last separator. */
  function Basename(p: string): (b: string)
    ensures forall k :: 0 <= k < |b| ==> !IsSep(b[k])
    ensures |b| <= |p| && b == p[|p| - |b|..]
    ensures |b| < |p| ==> IsSep(p[|p| - |b| - 1])
  {
    if p == [] || IsSep(p[|p| - 1]) then []
    else Basename(p[..|p| - 1]) + [p[|p| - 1]]
  }

  /** The tracked file and the offset read so far. */
  datatype Tail = Tail(name: string, offset: nat)

  /** `handle_file_change(file_path)` as written: the new tail state and the
      stripped lines handed on. `contents` is `None` when opening fails. */
  function HandleFileChange(t: Tail, path: string, contents: Option<string>, mode: SeekMode): (r: (Tail, seq<string>))
    ensures Basename(path) != t.name || contents.None? ==> r == (t, [])
    ensures r.0.name == t.name
  {
    if Basename(path) != t.name || contents.None? then (t, [])
    else
      var text := contents.value;
      var (lines, pos) := ReadFrom(text, t.offset, mode);
      if pos < t.offset then (Tail(t.name, |text|), StripAll(SplitLines(text)))
      else (Tail(t.name, pos), StripAll(lines))
  }

  function StripAll(lines: seq<string>): (r: seq<string>)
    ensures |r| == |lines| && forall i :: 0 <= i < |r| ==> r[i] == Strip(lines[i])
  {
    if lines == [] then [] else [Strip(lines[0])] + StripAll(lines[1..])
  }

  /** A change to a file that only grew delivers exactly the new text, and
      the offset moves to the end. */
  lemma AppendDelivered(t: Tail, path: string, before: string, added: string, mode: SeekMode)
    requires Basename(path) == t.name && t.offset == |before|
    ensures var r := HandleFileChange(t, path, Some(before + added), mode);
            r.0.offset == |before + added| && r.1 == StripAll(SplitLines(added))
  {
    var text := before + added;
    assert text[|before|..] == added;
    assert ReadFrom(text, t.offset, mode) == (SplitLines(added), |text|);
    assert HandleFileChange(t, path, Some(text), mode) == (Tail(t.name, |text|), StripAll(SplitLines(added)));
  }

  /** With the CPython position rule the end position is never below the
      old offset, so the re-read branch cannot run. */
  lemma StaysAtTargetNeverRereads(contents: string, offset: nat)
    ensures ReadFrom(contents, offset, StaysAtTarget).1 >= offset
  {
  }

  /** A file cut to `n` characters below the stored offset: the change
      delivers nothing and the offset stays where it was. */
  lemma TruncationMissed(t: Tail, path: string, text: string)
    requires Basename(path) == t.name && |text| < t.offset
    ensures HandleFileChange(t, path, Some(text), StaysAtTarget) == (t, [])
  {
  }

  /** `handle_file_change` with the truncation check made on the file's
      length before seeking: a file shorter than the offset is read from
      the start. */
  function HandleFileChangeChecked(t: Tail, path: string, contents: Option<string>): (r: (Tail, seq<string>))
    ensures Basename(path) != t.name || contents.None? ==> r == (t, [])
    ensures Basename(path) == t.name && contents.Some? ==> r.0 == Tail(t.name, |contents.value|)
  {
    if Basename(path) != t.name || contents.None? then (t, [])
    else
      var text := contents.value;
      if |text| < t.offset then (Tail(t.name, |text|), StripAll(SplitLines(text)))
      else (Tail(t.name, |text|), StripAll(SplitLines(text[t.offset..])))
  }

  /** The checked step delivers every line of a truncated file. */
  lemma CheckedDeliversTruncated(t: Tail, path: string, text: string)
    requires Basename(path) == t.name && |text| < t.offset
    ensures HandleFileChangeChecked(t, path, Some(text)) == (Tail(t.name, |text|), StripAll(SplitLines(text)))
  {
  }

  /** For a file that did not shrink, the checked step does what the step
      as written does under either position rule. */
  lemma CheckedAgreesWhenNotTruncated(t: Tail, path: string, text: string, mode: SeekMode)
    requires Basename(path) == t.name && |text| >= t.offset
    ensures HandleFileChangeChecked(t, path, Some(text)) == HandleFileChange(t, path, Some(text), mode)
  {
    var lines := StripAll(SplitLines(text[t.offset..]));
    assert ReadFrom(text, t.offset, mode) == (SplitLines(text[t.offset..]), |text|);
    assert HandleFileChange(t, path, Some(text), mode) == (Tail(t.name, |text|), lines);
    assert HandleFileChangeChecked(t, path, Some(text)) == (Tail(t.name, |text|), lines);
  }

  /** With the end-clamping position rule the step as written already
      behaves like the checked one. */
  lemma ClampsToEndAgrees(t: Tail, path: string, contents: Option<string>)
    ensures HandleFileChange(t, path, contents, ClampsToEnd) == HandleFileChangeChecked(t, path, contents)
  {
  }
}

=== FILE: patterns.dfy ===
/** The log-line regular expressions, each as a recogniser with `re.search`
    semantics: the leftmost position where the pattern matches wins, and the
    result is the tuple of capture groups (`None` for a group that did not
    take part). Greedy runs are written out as maximal runs; for these
    patterns backtracking cannot produce a different match. */
module Patterns {
  import opened Common
  import opened Timestamps

  const POST_LOGIN: string := "PostLogin Account:"
  const JOIN: string := "Join succeeded:"
  const LOGOUT: string := "Logout Account:"
  const LOBBY_LOGIN: string := "ASGGameModeLobby::LobbyClientLogin NickName = "
  const LOBBY_ID: string := ", UniqueId = "
  const LOBBY_LOGOUT: string := "ASGGameModeLobby::LobbyClientLogOut Account: "
  const ACCEPTED: string := "accepted from: "

  /** The patterns of the log grammar. */
  datatype Pattern =
    | PostLoginServer   // PostLogin Account:\s*(\d+)
    | JoinServer        // Join succeeded:\s*(\w+)
    | LogoutServer      // Logout Account:\s*(\d+)
    | LoginLobby        // ...LobbyClientLogin NickName = ([^,]+), UniqueId = (\d+)
    | LogoutLobby       // ...LobbyClientLogOut Account: (\d+)
    | UnifiedLogin      // PostLogin form | lobby form, three groups
    | IpTimestamp       // \[(stamp)\].*accepted from: (\d+\.\d+\.\d+\.\d+)

  type Groups = seq<Option<string>>

  predicate NotComma(c: char) { c != ',' }

  predicate NotNewline(c: char) { c != '\n' }

  /** `lit\s*(cls+)` (or `lit(cls+)` when `spaces` is false) anchored at `i`. */
  function LiteralThenRun(line: string, i: nat, lit: string, spaces: bool, cls: char -> bool): (r: Option<string>)
    requires i <= |line|
    ensures r.Some? ==> r.value != [] && forall k :: 0 <= k < |r.value| ==> cls(r.value[k])
  {
    if !StartsWith(line[i..], lit) then None
    else
      var k := if spaces then RunEnd(line, i + |lit|, IsSpace) else i + |lit|;
      var e := RunEnd(line, k, cls);
      if e == k then None else Some(line[k..e])
  }

  /** `n` dot-separated non-empty digit runs starting at `i`; the end index. */
  function DigitGroups(s: string, i: nat, n: nat): (r: Option<nat>)
    requires i <= |s| && n >= 1
    ensures r.Some? ==> i < r.value <= |s|
    decreases n
  {
    var e := RunEnd(s, i, IsDigit);
    if e == i then None
    else if n == 1 then Some(e)
    else if e < |s| && s[e] == '.' then DigitGroups(s, e + 1, n - 1)
    else None
  }

  /** Four dot-separated digit runs and nothing else. */
  predicate IsDottedQuad(s: string) {
    DigitGroups(s, 0, 4) == Some(|s|)
  }

  /** `accepted from: (\d+\.\d+\.\d+\.\d+)` anchored at `p`. */
  function AcceptedAt(line: string, p: nat): Option<string>
    requires p <= |line|
  {
    if !StartsWith(line[p..], ACCEPTED) then None
    else
      var u := line[p + |ACCEPTED|..];
      match DigitGroups(u, 0, 4)
      case Some(e) => Some(u[..e])
      case None => None
  }

  /** The greedy `.*`: the largest `p` in `[lo, hi]` where the rest matches. */
  function LastAccepted(line: string, lo: nat, hi: nat): (r: Option<string>)
    requires lo <= hi <= |line|
    decreases hi
  {
    match AcceptedAt(line, hi)
    case Some(ip) => Some(ip)
    case None => if hi == lo then None else LastAccepted(line, lo, hi - 1)
  }

  function IpAt(line: string, i: nat): Option<Groups>
    requires i <= |line|
  {
    if i + 25 <= |line| && line[i] == '[' && IsStampShape(line[i + 1..i + 24]) && line[i + 24] == ']' then
      var hi := RunEnd(line, i + 25, NotNewline);
      match LastAccepted(line, i + 25, hi)
      case Some(ip) => Some([Some(line[i + 1..i + 24]), Some(ip)])
      case None => None
    else None
  }

  /** The lobby login `NickName = ([^,]+), UniqueId = (\d+)` anchored at `i`. */
  function LobbyAt(line: string, i: nat): (r: Option<(string, string)>)
    requires i <= |line|
    ensures r.Some? ==> r.value.0 != [] && ',' !in r.value.0 && r.value.1 != [] && AllDigits(r.value.1)
  {
    if !StartsWith(line[i..], LOBBY_LOGIN) then None
    else
      var k := i + |LOBBY_LOGIN|;
      var e := RunEnd(line, k, NotComma);
      if e == k then None
      else match LiteralThenRun(line, e, LOBBY_ID, false, IsDigit)
        case Some(id) => Some((line[k..e], id))
        case None => None
  }

  function Single(r: Option<string>): Option<Groups> {
    match r
    case Some(x) => Some([Some(x)])
    case None => None
  }

  /** The match of `p` anchored at position `i`, if any. */
  function MatchAt(p: Pattern, line: string, i: nat): Option<Groups>
    requires i <= |line|
  {
    match p
    case PostLoginServer => Single(LiteralThenRun(line, i, POST_LOGIN, true, IsDigit))
    case JoinServer => Single(LiteralThenRun(line, i, JOIN, true, IsWordChar))
    case LogoutServer => Single(LiteralThenRun(line, i, LOGOUT, true, IsDigit))
    case LogoutLobby => Single(LiteralThenRun(line, i, LOBBY_LOGOUT, false, IsDigit))
    case LoginLobby =>
      (match LobbyAt(line, i)
       case Some(m) => Some([Some(m.0), Some(m.1)])
       case None => None)
    case UnifiedLogin =>
      (match LiteralThenRun(line, i, POST_LOGIN, true, IsDigit)
       case Some(id) => Some([Some(id), None, None])
       case None =>
         match LobbyAt(line, i)
         case Some(m) => Some([None, Some(m.0), Some(m.1)])
         case None => None)
    case IpTimestamp => IpAt(line, i)
  }

  /** Leftmost match at or after `i`, with its position. */
  function SearchFrom(p: Pattern, line: string, i: nat): (r: Option<(nat, Groups)>)
    requires i <= |line|
    ensures r.Some? ==> i <= r.value.0 <= |line| && MatchAt(p, line, r.value.0) == Some(r.value.1)
    ensures r.Some? ==> forall k :: i <= k < r.value.0 ==> MatchAt(p, line, k).None?
    ensures r.None? ==> forall k :: i <= k <= |line| ==> MatchAt(p, line, k).None?
    decreases |line| - i
  {
    var here := MatchAt(p, line, i);
    if here.Some? then Some((i, here.value))
    else if i == |line| then None
    else
      var r := SearchFrom(p, line, i + 1);
      assert forall k :: i <= k < i + 1 ==> MatchAt(p, line, k) == here;
      r
  }

  /** `PATTERN.search(line)`, as its tuple of groups. */
  function Search(p: Pattern, line: string): Option<Groups> {
    match SearchFrom(p, line, 0)
    case Some(found) => Some(found.1)
    case None => None
  }

  // ---------------------------------------------------------------------
  // What each pattern captures

  predicate IsDigitCapture(g: Groups) {
    |g| == 1 && g[0].Some? && g[0].value != [] && AllDigits(g[0].value)
  }

  /** PostLogin, Logout (both forms) capture a non-empty digit run. */
  lemma AccountCapturesDigits(p: Pattern, line: string)
    requires p == PostLoginServer || p == LogoutServer || p == LogoutLobby
    requires Search(p, line).Some?
    ensures IsDigitCapture(Search(p, line).value)
  {
    var found := SearchFrom(p, line, 0).value;
    assert MatchAt(p, line, found.0) == Some(found.1);
  }

  /** `Join succeeded` captures a non-empty run of word characters. */
  lemma JoinCapturesWord(line: string)
    requires Search(JoinServer, line).Some?
    ensures var g := Search(JoinServer, line).value;
            |g| == 1 && g[0].Some? && g[0].value != [] && forall k :: 0 <= k < |g[0].value| ==> IsWordChar(g[0].value[k])
  {
    var found := SearchFrom(JoinServer, line, 0).value;
    assert MatchAt(JoinServer, line, found.0) == Some(found.1);
  }

  /** The unified login sets group 1 alone (server form) or groups 2 and 3
      together (lobby form), never both forms. */
  lemma UnifiedLoginGroups(line: string)
    requires Search(UnifiedLogin, line).Some?
    ensures var g := Search(UnifiedLogin, line).value;
            && |g| == 3
            && (g[0].Some? <==> g[1].None?)
            && (g[1].Some? <==> g[2].Some?)
            && (g[0].Some? ==> g[0].value != [] && AllDigits(g[0].value))
            && (g[2].Some? ==> g[2].value != [] && AllDigits(g[2].value) && g[1].value != [] && ',' !in g[1].value)
  {
    var found := SearchFrom(UnifiedLogin, line, 0).value;
    assert MatchAt(UnifiedLogin, line, found.0) == Some(found.1);
  }

  lemma LastAcceptedQuad(line: string, lo: nat, hi: nat)
    requires lo <= hi <= |line|
    requires LastAccepted(line, lo, hi).Some?
    ensures IsDottedQuad(LastAccepted(line, lo, hi).value)
    decreases hi
  {
    if AcceptedAt(line, hi).Some? {
      var u := line[hi + |ACCEPTED|..];
      DigitGroupsPrefix(u, 0, 4);
    } else {
      LastAcceptedQuad(line, lo, hi - 1);
    }
  }

  /** Cutting the text right after the digit groups does not change them. */
  lemma {:induction false} DigitGroupsPrefix(u: string, i: nat, n: nat)
    requires i <= |u| && n >= 1
    requires DigitGroups(u, i, n).Some?
    ensures DigitGroups(u[..DigitGroups(u, i, n).value], i, n) == DigitGroups(u, i, n)
    decreases n
  {
    var e := DigitGroups(u, i, n).value;
    var r := RunEnd(u, i, IsDigit);
    var w := u[..e];
    assert r <= e;
    RunEndCharacterised(w, i, IsDigit, r);
    if n > 1 {
      assert w[r] == '.';
      DigitGroupsPrefix(u, r + 1, n - 1);
    }
  }

  /** `RunEnd` is the first position at or after `i` whose character fails `p`. */
  lemma {:induction false} RunEndCharacterised(s: string, i: nat, p: char -> bool, j: nat)
    requires i <= j <= |s|
    requires forall k :: i <= k < j ==> p(s[k])
    requires j == |s| || !p(s[j])
    ensures RunEnd(s, i, p) == j
    decreases |s| - i
  {
    if i < j {
      RunEndCharacterised(s, i + 1, p, j);
    }
  }

  /** The IP pattern captures a stamp of the shape `add_request` parses and a dotted quad. */
  lemma IpCaptureShapes(line: string)
    requires Search(IpTimestamp, line).Some?
    ensures var g := Search(IpTimestamp, line).value;
            |g| == 2 && g[0].Some? && g[1].Some? && IsStampShape(g[0].value) && IsDottedQuad(g[1].value)
  {
    var found := SearchFrom(IpTimestamp, line, 0).value;
    var i := found.0;
    assert IpAt(line, i) == Some(found.1);
    assert i + 25 <= |line| && IsStampShape(line[i + 1..i + 24]);
    var hi := RunEnd(line, i + 25, NotNewline);
    var ip := LastAccepted(line, i + 25, hi);
    assert found.1 == [Some(line[i + 1..i + 24]), Some(ip.value)];
    LastAcceptedQuad(line, i + 25, hi);
  }

  // ---------------------------------------------------------------------
  // Lines built in the documented shape are recognised

  function Literal(p: Pattern): string
    requires p == PostLoginServer || p == JoinServer || p == LogoutServer
  {
    match p
    case PostLoginServer => POST_LOGIN
    case JoinServer => JOIN
    case LogoutServer => LOGOUT
  }

  function CaptureClass(p: Pattern): char -> bool
    requires p == PostLoginServer || p == JoinServer || p == LogoutServer
  {
    if p == JoinServer then IsWordChar else IsDigit
  }

  /** A literal, whitespace, then a maximal run of `cls` is captured whole. */
  lemma LiteralThenRunRecognised(lit: string, ws: string, cap: string, rest: string, cls: char -> bool)
    requires AllSpace(ws)
    requires cap != [] && !IsSpace(cap[0]) && forall k :: 0 <= k < |cap| ==> cls(cap[k])
    requires rest == [] || !cls(rest[0])
    ensures LiteralThenRun(lit + ws + cap + rest, 0, lit, true, cls) == Some(cap)
  {
    var line := lit + ws + cap + rest;
    var a := |lit|;
    var b := a + |ws|;
    var c := b + |cap|;
    assert line[0..][..a] == lit;
    assert forall k :: a <= k < b ==> line[k] == ws[k - a];
    assert line[b] == cap[0];
    RunEndCharacterised(line, a, IsSpace, b);
    assert forall k :: b <= k < c ==> line[k] == cap[k - b];
    assert c == |line| || line[c] == rest[0];
    RunEndCharacterised(line, b, cls, c);
    assert line[b..c] == cap;
  }

  /** `LITERAL`, optional whitespace, then a maximal run of the captured class,
      at the start of the line, is found and captured whole. */
  lemma SimpleRecognised(p: Pattern, ws: string, cap: string, rest: string)
    requires p == PostLoginServer || p == JoinServer || p == LogoutServer
    requires AllSpace(ws)
    requires cap != [] && forall k :: 0 <= k < |cap| ==> CaptureClass(p)(cap[k])
    requires rest == [] || !CaptureClass(p)(rest[0])
    ensures Search(p, Literal(p) + ws + cap + rest) == Some([Some(cap)])
  {
    var line := Literal(p) + ws + cap + rest;
    assert CaptureClass(p)(cap[0]);
    assert !IsSpace(cap[0]);
    LiteralThenRunRecognised(Literal(p), ws, cap, rest, CaptureClass(p));
    assert MatchAt(p, line, 0) == Some([Some(cap)]);
  }

  /** Every character inside digit groups is a digit or a dot. */
  lemma {:induction false} DigitGroupsChars(s: string, i: nat, n: nat)
    requires i <= |s| && n >= 1
    requires DigitGroups(s, i, n).Some?
    ensures forall k :: i <= k < DigitGroups(s, i, n).value ==> IsDigit(s[k]) || s[k] == '.'
    decreases n
  {
    var e := RunEnd(s, i, IsDigit);
    if n > 1 {
      DigitGroupsChars(s, e + 1, n - 1);
    }
  }

  /** The greedy search returns the match at the largest position that has one. */
  lemma {:induction false} LastAcceptedFinds(line: string, lo: nat, p0: nat, hi: nat)
    requires lo <= p0 <= hi <= |line|
    requires AcceptedAt(line, p0).Some?
    requires forall p :: p0 < p <= hi ==> AcceptedAt(line, p).None?
    ensures LastAccepted(line, lo, hi) == AcceptedAt(line, p0)
    decreases hi
  {
    if hi > p0 {
      LastAcceptedFinds(line, lo, p0, hi - 1);
    }
  }

  /** No match starts at the end of the line or at a character other than `a`. */
  lemma NotAcceptedAt(line: string, p: nat)
    requires p <= |line| && (p == |line| || line[p] != 'a')
    ensures AcceptedAt(line, p).None?
  {
    assert ACCEPTED[0] == 'a';
    if p < |line| {
      assert line[p..][0] == line[p];
    }
  }

  /** Past its first character, `accepted from: ` and a dotted quad hold no `a`. */
  lemma NoLaterA(pre: string, quad: string, p: nat)
    requires IsDottedQuad(quad)
    requires |pre| < p < |pre + ACCEPTED + quad|
    ensures (pre + ACCEPTED + quad)[p] != 'a'
  {
    var line := pre + ACCEPTED + quad;
    var p0 := |pre|;
    if p < p0 + |ACCEPTED| {
      assert line[p] == ACCEPTED[p - p0];
      assert forall k :: 1 <= k < |ACCEPTED| ==> ACCEPTED[k] != 'a';
    } else {
      DigitGroupsChars(quad, 0, 4);
      assert line[p] == quad[p - p0 - |ACCEPTED|];
    }
  }

  /** The text after `accepted from: ` cannot hold another `accepted from: `. */
  lemma NoLaterAccepted(pre: string, quad: string)
    requires IsDottedQuad(quad)
    ensures forall p :: |pre| < p <= |pre + ACCEPTED + quad| ==> AcceptedAt(pre + ACCEPTED + quad, p).None?
  {
    var line := pre + ACCEPTED + quad;
    forall p | |pre| < p <= |line|
      ensures AcceptedAt(line, p).None?
    {
      if p < |line| {
        NoLaterA(pre, quad, p);
      }
      NotAcceptedAt(line, p);
    }
  }

  /** `accepted from: ` and a dotted quad at the end of the line is captured whole. */
  lemma AcceptedAtEnd(pre: string, quad: string)
    requires IsDottedQuad(quad)
    ensures AcceptedAt(pre + ACCEPTED + quad, |pre|) == Some(quad)
  {
    var line := pre + ACCEPTED + quad;
    assert line[|pre|..][..|ACCEPTED|] == ACCEPTED;
    assert line[|pre| + |ACCEPTED|..] == quad;
    assert quad[..|quad|] == quad;
  }

  /** A line with no newline from `i` on is one run of non-newlines. */
  lemma NoNewlineFrom(pre: string, mid: string, quad: string)
    requires '\n' !in mid
    requires IsDottedQuad(quad)
    ensures RunEnd(pre + mid + ACCEPTED + quad, |pre|, NotNewline) == |pre + mid + ACCEPTED + quad|
  {
    var line := pre + mid + ACCEPTED + quad;
    var a := |pre|;
    var b := a + |mid|;
    var c := b + |ACCEPTED|;
    DigitGroupsChars(quad, 0, 4);
    forall k | a <= k < |line|
      ensures NotNewline(line[k])
    {
      if k < b {
        assert line[k] == mid[k - a];
      } else if k < c {
        assert line[k] == ACCEPTED[k - b];
      } else {
        assert line[k] == quad[k - c];
      }
    }
    RunEndCharacterised(line, a, NotNewline, |line|);
  }

  /** `[stamp]`, any newline-free text, `accepted from: ` and a dotted quad is
      recognised, capturing the stamp and the whole address. */
  lemma IpRecognised(ts: string, mid: string, quad: string)
    requires IsStampShape(ts)
    requires '\n' !in mid
    requires IsDottedQuad(quad)
    ensures Search(IpTimestamp, "[" + ts + "]" + mid + ACCEPTED + quad) == Some([Some(ts), Some(quad)])
  {
    var head := "[" + ts + "]";
    var pre := head + mid;
    var line := "[" + ts + "]" + mid + ACCEPTED + quad;
    assert line == pre + ACCEPTED + quad;
    assert line == head + mid + ACCEPTED + quad;
    assert line[1..24] == ts;
    assert |head| == 25 && line[0] == '[' && line[24] == ']';
    NoNewlineFrom(head, mid, quad);
    AcceptedAtEnd(pre, quad);
    NoLaterAccepted(pre, quad);
    LastAcceptedFinds(line, 25, |pre|, |line|);
    assert LastAccepted(line, 25, |line|) == Some(quad);
    assert IpAt(line, 0) == Some([Some(ts), Some(quad)]);
    assert MatchAt(IpTimestamp, line, 0) == Some([Some(ts), Some(quad)]);
  }

  // ---------------------------------------------------------------------
  // Group access and lines a pattern cannot match

  /** `m.group(k)` (1-based) of a match's groups; `None` for a group that did
      not take part. */
  function Group(g: Groups, k: nat): Option<string> {
    if 1 <= k <= |g| then g[k - 1] else None
  }

  /** The character every match of `p` begins with. */
  function LeadChar(p: Pattern): char
    requires p != UnifiedLogin
  {
    match p
    case PostLoginServer => POST_LOGIN[0]
    case JoinServer => JOIN[0]
    case LogoutServer => LOGOUT[0]
    case LoginLobby => LOBBY_LOGIN[0]
    case LogoutLobby => LOBBY_LOGOUT[0]
    case IpTimestamp => '['
  }

  /** A match at `i` starts with the pattern's lead character. */
  lemma MatchStartsWithLead(p: Pattern, line: string, i: nat)
    requires p != UnifiedLogin
    requires i <= |line|
    requires MatchAt(p, line, i).Some?
    ensures i < |line| && line[i] == LeadChar(p)
  {
    match p
    case PostLoginServer => assert line[i..][0] == POST_LOGIN[0];
    case JoinServer => assert line[i..][0] == JOIN[0];
    case LogoutServer => assert line[i..][0] == LOGOUT[0];
    case LoginLobby =>
      assert LobbyAt(line, i).Some?;
      assert line[i..][0] == LOBBY_LOGIN[0];
    case LogoutLobby => assert line[i..][0] == LOBBY_LOGOUT[0];
    case IpTimestamp =>
  }

  /** A line without the lead character of `p` does not match `p`. */
  lemma NoLeadNoMatch(p: Pattern, line: string)
    requires p != UnifiedLogin
    requires LeadChar(p) !in line
    ensures Search(p, line).None?
  {
    if SearchFrom(p, line, 0).Some? {
      var i := SearchFrom(p, line, 0).value.0;
      MatchStartsWithLead(p, line, i);
    }
  }
}

=== FILE: player_directory.dfy ===
/** The player directory (`PlayersDataManager`): account id -> entry dict
    (`{"name": ...}`), with a validating load, a change-reporting update and
    a save gated by a cooldown. Reading and writing the file are not
    modelled: the decoded file is an input and a write is an output flag.
    Wall-clock time is in microsecond ticks; the cooldown is in seconds. */
module PlayerDirectory {
  import opened Common
  import opened Json
  import Timestamps

  /** One stored player entry: the dict as decoded, in key order. */
  type Entry = seq<(string, Json)>

  datatype Directory = Directory(data: map<string, Entry>, lastSave: int, saveInterval: int)

  function CooldownTicks(d: Directory): int { d.saveInterval * Timestamps.MICROS_PER_SECOND }

  /** The constructor at wall-clock time `now`: empty table, and a last-save
      time one interval in the past so that the first save goes through. */
  function Create(saveInterval: int, now: int): (r: Directory)
    ensures r.data == map[] && r.saveInterval == saveInterval
    // the cooldown has just run out at construction
    ensures r.lastSave + CooldownTicks(r) == now
  {
    Directory(map[], now - saveInterval * Timestamps.MICROS_PER_SECOND, saveInterval)
  }

  /** What reading the file produced. */
  datatype Stored = Missing | Undecodable | Decoded(value: Json)

  predicate IsValidEntry(v: Json) {
    v.JObj? && HasKey(v.fields, "name")
  }

  function KeysOf(fields: seq<(string, Json)>): set<string> {
    set i | 0 <= i < |fields| :: fields[i].0
  }

  /** The entries of a decoded object that `load` keeps. */
  function ValidEntries(fields: seq<(string, Json)>): (m: map<string, Entry>)
    ensures forall k :: k in m <==> Lookup(fields, k).Some? && IsValidEntry(Lookup(fields, k).value)
    ensures forall k :: k in m ==> JObj(m[k]) == Lookup(fields, k).value
  {
    assert forall k :: Lookup(fields, k).Some? ==> k in KeysOf(fields) by {
      forall k | Lookup(fields, k).Some?
        ensures k in KeysOf(fields)
      {
        var i :| 0 <= i < |fields| && fields[i] == (k, Lookup(fields, k).value);
      }
    }
    map k | k in KeysOf(fields) && Lookup(fields, k).Some? && IsValidEntry(Lookup(fields, k).value)
      :: Lookup(fields, k).value.fields
  }

  /** `load()`. A missing or undecodable file leaves an empty table; a
      decoded value that is not an object makes `.items()` raise. */
  function Load(d: Directory, stored: Stored): (r: Result<Directory>)
    ensures r.Ok? ==> r.value.lastSave == d.lastSave && r.value.saveInterval == d.saveInterval
    ensures stored.Missing? || stored.Undecodable? ==> r == Ok(d.(data := map[]))
    ensures r.Raised? <==> stored.Decoded? && !stored.value.JObj?
  {
    match stored
    case Missing => Ok(d.(data := map[]))
    case Undecodable => Ok(d.(data := map[]))
    case Decoded(v) =>
      if v.JObj? then Ok(d.(data := ValidEntries(v.fields))) else Raised
  }

  /** `get_player_name(id)`: the stored `"name"` value, `JNull` (Python's
      `None`) for an unknown id, an empty entry or an entry without a name. */
  function GetPlayerName(d: Directory, id: string): (r: Json)
    ensures id !in d.data ==> r == JNull
    ensures r != JNull ==> id in d.data && Lookup(d.data[id], "name") == Some(r)
    ensures id in d.data && HasKey(d.data[id], "name") ==> Lookup(d.data[id], "name") == Some(r)
  {
    if id in d.data && d.data[id] != [] then LookupOr(d.data[id], "name", JNull) else JNull
  }

  /** After a load, an id has a name exactly when the file held a dict with a
      `"name"` key for it, and that name is the stored value. */
  lemma LoadThenGetName(d: Directory, fields: seq<(string, Json)>, id: string)
    ensures var loaded := Load(d, Decoded(JObj(fields))).value;
            GetPlayerName(loaded, id)
            == if Lookup(fields, id).Some? && IsValidEntry(Lookup(fields, id).value)
               then LookupOr(Lookup(fields, id).value.fields, "name", JNull)
               else JNull
  {
  }

  /** `update_player(id, name)`: the new table and whether anything changed. */
  function UpdatePlayer(d: Directory, id: string, name: string): (r: (Directory, bool))
    // reports a change exactly when the stored name differs (or is missing)
    ensures r.1 <==> GetPlayerName(d, id) != JStr(name)
    // round trip: the name reads back
    ensures GetPlayerName(r.0, id) == JStr(name)
    ensures !r.1 ==> r.0 == d
    ensures r.1 ==> r.0.data == d.data[id := [("name", JStr(name))]]
    ensures r.0.lastSave == d.lastSave && r.0.saveInterval == d.saveInterval
  {
    if id !in d.data || d.data[id] == [] || Lookup(d.data[id], "name") != Some(JStr(name)) then
      (d.(data := d.data[id := [("name", JStr(name))]]), true)
    else (d, false)
  }

  /** Every other id reads back as before an update. */
  lemma UpdatePlayerIsolated(d: Directory, id: string, name: string, other: string)
    requires other != id
    ensures GetPlayerName(UpdatePlayer(d, id, name).0, other) == GetPlayerName(d, other)
    ensures (other in UpdatePlayer(d, id, name).0.data) == (other in d.data)
  {
  }

  /** Updating with the name already stored reports no change. */
  lemma UpdatePlayerIdempotent(d: Directory, id: string, name: string)
    ensures var d1 := UpdatePlayer(d, id, name).0;
            UpdatePlayer(d1, id, name) == (d1, false)
  {
  }

  /** `save_if_needed()` at wall-clock time `now`: the new state and whether
      the table is written (the write itself may still fail; the last-save
      time has moved either way). */
  function SaveIfNeeded(d: Directory, now: int): (r: (Directory, bool))
    ensures r.0.data == d.data && r.0.saveInterval == d.saveInterval
    ensures !r.1 ==> r.0 == d
    ensures r.1 ==> r.0.lastSave == now
  {
    if now - d.lastSave < CooldownTicks(d) then (d, false) else (d.(lastSave := now), true)
  }

  /** A call inside the cooldown is a no-op; otherwise the save happens. */
  lemma SaveIfNeededCooldown(d: Directory, now: int)
    ensures SaveIfNeeded(d, now).1 <==> now >= d.lastSave + CooldownTicks(d)
  {
  }

  /** The first call after construction saves (on a clock that does not go back). */
  lemma FirstSaveHappens(saveInterval: int, created: int, now: int)
    requires now >= created
    ensures SaveIfNeeded(Create(saveInterval, created), now).1
  {
  }

  /** Two writes are at least the cooldown apart, whatever updates come between. */
  lemma SavesAreSpaced(d: Directory, t1: int, id: string, name: string, t2: int)
    requires SaveIfNeeded(d, t1).1
    requires SaveIfNeeded(UpdatePlayer(SaveIfNeeded(d, t1).0, id, name).0, t2).1
    ensures t2 - t1 >= CooldownTicks(d)
  {
  }
}

=== FILE: query_server.dfy ===
/** `QueryServer`: the state kept between datagrams (configuration, the
    players last announced, the game version, the challenge issued to each
    host), routing a datagram to a handler, and the handlers. The socket,
    the logger and the random source are not modelled: the datagram and its
    sender's host are inputs, the random challenge is a parameter. */
module QueryServer {
  import opened Common
  import opened Json
  import opened Wire
  import opened A2S
  import Config

  // ---------------------------------------------------------------------
  // Re-keying a player list by Steam id

  /** A dict whose keys may be any hashable value, as its ordered items. */
  type Dict = seq<(Json, Json)>

  /** The number a bool or int key hashes and compares as. */
  function AsNumber(v: Json): Option<int> {
    match v
    case JInt(i) => Some(i)
    case JBool(b) => Some(if b then 1 else 0)
    case _ => None
  }

  /** Dict-key equality: `True` and `1` are the same key. */
  predicate SameKey(a: Json, b: Json) {
    if AsNumber(a).Some? && AsNumber(b).Some? then AsNumber(a) == AsNumber(b) else a == b
  }

  predicate DistinctKeys(d: Dict) {
    forall i, j :: 0 <= i < j < |d| ==> !SameKey(d[i].0, d[j].0)
  }

  /** `d.get(k)`. */
  function Find(d: Dict, k: Json): (r: Option<Json>)
    ensures r.Some? <==> exists i :: 0 <= i < |d| && SameKey(d[i].0, k)
  {
    if d == [] then None
    else if SameKey(d[0].0, k) then Some(d[0].1)
    else
      var r := Find(d[1..], k);
      assert (exists i :: 0 <= i < |d| && SameKey(d[i].0, k)) ==> exists i :: 0 <= i < |d[1..]| && SameKey(d[1..][i].0, k) by {
        if exists i :: 0 <= i < |d| && SameKey(d[i].0, k) {
          var i :| 0 <= i < |d| && SameKey(d[i].0, k);
          assert d[1..][i - 1] == d[i];
        }
      }
      r
  }

  /** `d[k] = v`: an existing key keeps its place (and its original key
      object), a new key goes last. */
  function Put(d: Dict, k: Json, v: Json): (r: Dict)
    requires DistinctKeys(d)
    ensures DistinctKeys(r)
    ensures Find(r, k) == Some(v)
    ensures forall k2 :: !SameKey(k, k2) ==> Find(r, k2) == Find(d, k2)
    ensures forall i :: 0 <= i < |r| ==> SameKey(r[i].0, k) || exists j :: 0 <= j < |d| && d[j].0 == r[i].0
    ensures |r| <= |d| + 1
  {
    if d == [] then [(k, v)]
    else if SameKey(d[0].0, k) then [(d[0].0, v)] + d[1..]
    else
      var tail := Put(d[1..], k, v);
      PutBehindHead(d, k, tail);
      [d[0]] + tail
  }

  /** The step of `Put` past a head that is not the key: the head's key
      differs from every key in the updated tail. */
  lemma PutBehindHead(d: Dict, k: Json, tail: Dict)
    requires DistinctKeys(d) && d != [] && !SameKey(d[0].0, k)
    requires DistinctKeys(tail)
    requires forall i :: 0 <= i < |tail| ==> SameKey(tail[i].0, k) || exists j :: 0 <= j < |d[1..]| && d[1..][j].0 == tail[i].0
    ensures DistinctKeys([d[0]] + tail)
    ensures forall i :: 0 <= i < |[d[0]] + tail| ==> SameKey(([d[0]] + tail)[i].0, k) || exists j :: 0 <= j < |d| && d[j].0 == ([d[0]] + tail)[i].0
  {
    var r := [d[0]] + tail;
    forall i | 1 <= i < |r| ensures !SameKey(d[0].0, r[i].0) && (SameKey(r[i].0, k) || exists j :: 0 <= j < |d| && d[j].0 == r[i].0) {
      assert r[i] == tail[i - 1];
      if !SameKey(tail[i - 1].0, k) {
        var j :| 0 <= j < |d[1..]| && d[1..][j].0 == tail[i - 1].0;
        assert d[j + 1].0 == r[i].0;
      }
    }
    assert r[0].0 == d[0].0;
  }

  /** `player["steam_id"]` as a dict key: only a dict with that key, whose
      value is hashable, gets through. */
  function SteamIdOf(player: Json): (r: Result<Json>)
    ensures r.Ok? ==> player.JObj? && Lookup(player.fields, "steam_id") == Some(r.value)
    ensures r.Ok? ==> !r.value.JList? && !r.value.JObj?
  {
    if player.JObj? then
      match Lookup(player.fields, "steam_id")
      case Some(k) => if k.JList? || k.JObj? then Raised else Ok(k)
      case None => Raised
    else Raised
  }

  /** `{player["steam_id"]: player for player in players}`. */
  function ReKey(items: seq<Json>): (r: Result<Dict>)
    ensures r.Ok? <==> forall i :: 0 <= i < |items| ==> SteamIdOf(items[i]).Ok?
    ensures r.Ok? ==> DistinctKeys(r.value) && |r.value| <= |items|
    decreases |items|
  {
    if items == [] then Ok([])
    else
      var front := items[..|items| - 1];
      var last := items[|items| - 1];
      AllIdsSplit(items);
      assert forall i :: 0 <= i < |front| ==> front[i] == items[i];
      var d :- ReKey(front);
      var key :- SteamIdOf(last);
      Ok(Put(d, key, last))
  }

  /** Every player has a Steam id exactly when every player but the last
      has one and the last has one. */
  lemma AllIdsSplit(items: seq<Json>)
    requires items != []
    ensures (forall i :: 0 <= i < |items| ==> SteamIdOf(items[i]).Ok?)
            <==> (forall i :: 0 <= i < |items| - 1 ==> SteamIdOf(items[i]).Ok?) && SteamIdOf(items[|items| - 1]).Ok?
  {
  }

  /** A player listed later under the same Steam id replaces an earlier
      one: the id maps to the last player carrying it. */
  lemma {:induction false} ReKeyLastWins(items: seq<Json>, j: nat)
    requires ReKey(items).Ok? && j < |items|
    requires forall l :: j < l < |items| ==> !SameKey(SteamIdOf(items[l]).value, SteamIdOf(items[j]).value)
    ensures Find(ReKey(items).value, SteamIdOf(items[j]).value) == Some(items[j])
    decreases |items|
  {
    var front := items[..|items| - 1];
    var last := items[|items| - 1];
    assert forall i :: 0 <= i < |front| ==> front[i] == items[i];
    if j < |items| - 1 {
      ReKeyLastWins(front, j);
    }
  }

  /** Some player of the list carries Steam id `k`. */
  predicate Carries(items: seq<Json>, k: Json)
    decreases |items|
  {
    items != [] && (
      || (SteamIdOf(items[|items| - 1]).Ok? && SameKey(SteamIdOf(items[|items| - 1]).value, k))
      || Carries(items[..|items| - 1], k))
  }

  /** Putting a key adds that key and nothing else. */
  lemma PutKeys(d: Dict, key: Json, v: Json, k: Json)
    requires DistinctKeys(d)
    ensures Find(Put(d, key, v), k).Some? <==> SameKey(key, k) || Find(d, k).Some?
  {
    var r := Put(d, key, v);
    if SameKey(key, k) {
      var i :| 0 <= i < |r| && SameKey(r[i].0, key);
      assert SameKey(r[i].0, k);
    }
  }

  /** The re-keyed dict has exactly the Steam ids the players carry. */
  lemma {:induction false} ReKeyOnlyListedIds(items: seq<Json>, k: Json)
    requires ReKey(items).Ok?
    ensures Find(ReKey(items).value, k).Some? <==> Carries(items, k)
    decreases |items|
  {
    if items != [] {
      var n := |items| - 1;
      var front := items[..n];
      assert forall i :: 0 <= i < n ==> front[i] == items[i];
      var d := ReKey(front).value;
      var key := SteamIdOf(items[n]).value;
      assert ReKey(items).value == Put(d, key, items[n]);
      ReKeyOnlyListedIds(front, k);
      PutKeys(d, key, items[n], k);
    }
  }

  /** What `player_query` iterates over: a dict (a list is re-keyed first),
      or a value that is not one (its `.items()` raises later). */
  datatype Players = Entries(entries: Dict) | NotADict(value: Json)

  function DictOf(fields: seq<(string, Json)>): (d: Dict)
    ensures |d| == |fields|
    ensures forall i :: 0 <= i < |d| ==> d[i] == (JStr(fields[i].0), fields[i].1)
  {
    seq(|fields|, i requires 0 <= i < |fields| => (JStr(fields[i].0), fields[i].1))
  }

  function AsPlayers(players: Json): (r: Result<Players>)
    ensures r.Raised? <==> players.JList? && ReKey(players.items).Raised?
  {
    match players
    case JList(items) =>
      var d :- ReKey(items);
      Ok(Entries(d))
    case JObj(fs) => Ok(Entries(DictOf(fs)))
    case _ => Ok(NotADict(players))
  }

  // ---------------------------------------------------------------------
  // player_query

  /** `player_query(data, host, challenge_numbers, players)`: the challenge
      table afterwards and the reply (`None` for a rejected challenge). */
  function PlayerQuery(data: Bytes, host: string, challenges: map<string, nat>, players: Json)
    : (r: (map<string, nat>, Result<Option<Bytes>>))
    // the only change to the table is consuming this host's challenge
    ensures r.0 == challenges || (host in challenges && r.0 == challenges - {host})
    ensures r.0 != challenges ==>
              ChallengeOf(data) == Ok(challenges[host]) && challenges[host] != 0 && AsPlayers(players).Ok?
    // a non-zero challenge is checked against the one issued to this host
    ensures r.1 == Ok(None) <==>
              && AsPlayers(players).Ok? && ChallengeOf(data).Ok? && ChallengeOf(data).value != 0
              && (host !in challenges || challenges[host] != ChallengeOf(data).value)
    ensures r.1 == Ok(None) ==> r.0 == challenges
    // a matching non-zero challenge is consumed before the reply is built,
    // so also when building the reply raises
    ensures AsPlayers(players).Ok? && ChallengeOf(data).Ok? && ChallengeOf(data).value != 0
            && host in challenges && challenges[host] == ChallengeOf(data).value
            ==> r.0 == challenges - {host}
    // a request that passes the check is answered whenever the reply can be built
    ensures AsPlayers(players).Ok? && AsPlayers(players).value.Entries?
            && PlayerReply(AsPlayers(players).value.entries).Ok?
            && ChallengeOf(data).Ok?
            && (ChallengeOf(data).value == 0 || (host in challenges && challenges[host] == ChallengeOf(data).value))
            ==> r.1 == Ok(Some(PlayerReply(AsPlayers(players).value.entries).value))
    // an accepted request is answered with the player reply
    ensures r.1.Ok? && r.1.value.Some? ==>
              && AsPlayers(players).Ok? && AsPlayers(players).value.Entries?
              && PlayerReply(AsPlayers(players).value.entries).Ok?
              && r.1.value.value == PlayerReply(AsPlayers(players).value.entries).value
              && ChallengeOf(data).Ok? && (ChallengeOf(data).value == 0 || r.0 == challenges - {host})
  {
    match AsPlayers(players)
    case Raised => (challenges, Raised)
    case Ok(p) =>
      match ChallengeOf(data)
      case Raised => (challenges, Raised)
      case Ok(received) =>
        if received != 0 && (host !in challenges || challenges[host] != received) then (challenges, Ok(None))
        else
          var after := if received != 0 then challenges - {host} else challenges;
          match p
          case NotADict(_) => (after, Raised)
          case Entries(e) =>
            match PlayerReply(e)
            case Ok(b) => (after, Ok(Some(b)))
            case Raised => (after, Raised)
  }

  // ---------------------------------------------------------------------
  // The server

  /** `self.game_version`: the encoded configured version, or whatever a
      `get_game_version_response` event carried. No reply reads it. */
  datatype Version = Encoded(bytes: Bytes) | FromEvent(value: Json)

  datatype Server = Server(config: Json, playersData: Json, gameVersion: Version, challenges: map<string, nat>)

  const DEFAULT_VERSION: string := "1.1.0"
  const DEFAULT_SERVER_NAME: string := "[RU][PVE]Siberian MOE"
  const DEFAULT_GAME_PORT: int := 11888

  /** The constructor: no players, no challenges; encoding the configured
      version raises unless it is a string. */
  function Create(config: Json): (r: Result<Server>)
    ensures r.Ok? <==> Config.GetPath(config, VERSION_PATH, JStr(DEFAULT_VERSION)).JStr?
    ensures r.Ok? ==> r.value.playersData == JObj([]) && r.value.challenges == map[] && r.value.config == config
  {
    var v :- StrOf(Config.GetPath(config, VERSION_PATH, JStr(DEFAULT_VERSION)));
    Ok(Server(config, JObj([]), Encoded(Utf8(v)), map[]))
  }

  /** `handle_event(event_type, data)`: a falsy payload falls back to an
      empty player dict or the default version. */
  function HandleEvent(s: Server, eventType: string, data: Json): (r: Server)
    ensures r.config == s.config && r.challenges == s.challenges
    ensures eventType != "get_players_response" ==> r.playersData == s.playersData
    ensures eventType == "get_players_response" ==> Truthy(r.playersData) == Truthy(data) && (Truthy(data) ==> r.playersData == data)
    // a falsy payload (None, {}, [], "" or 0) leaves an empty player dict
    ensures eventType == "get_players_response" && !Truthy(data) ==> r.playersData == JObj([])
    ensures eventType != "get_game_version_response" ==> r.gameVersion == s.gameVersion
    ensures eventType == "get_game_version_response" && Truthy(data) ==> r.gameVersion == FromEvent(data)
    ensures eventType == "get_game_version_response" && !Truthy(data) ==> r.gameVersion == Encoded(Ascii(DEFAULT_VERSION))
  {
    if eventType == "get_players_response" then
      s.(playersData := if Truthy(data) then data else JObj([]))
    else if eventType == "get_game_version_response" then
      s.(gameVersion := if Truthy(data) then FromEvent(data) else Encoded(Ascii(DEFAULT_VERSION)))
    else s
  }

  const VERSION_KEY: string := "VERSION_GAME"
  const SERVER_NAME_KEY: string := "SERVERS.1005.SERVER_NAME"
  const GAME_PORT_KEY: string := "SERVERS.1005.GAME_PORT"

  /** The same keys, split at their dots. */
  const VERSION_PATH: seq<string> := ["VERSION_GAME"]
  const SERVER_NAME_PATH: seq<string> := ["SERVERS", "1005", "SERVER_NAME"]
  const GAME_PORT_PATH: seq<string> := ["SERVERS", "1005", "GAME_PORT"]

  /** The configuration values the info reply reads. */
  function ConfiguredVersion(s: Server): Json { Config.GetPath(s.config, VERSION_PATH, JStr(DEFAULT_VERSION)) }
  function ConfiguredName(s: Server): Json { Config.GetPath(s.config, SERVER_NAME_PATH, JStr(DEFAULT_SERVER_NAME)) }
  function ConfiguredPort(s: Server): Json { Config.GetPath(s.config, GAME_PORT_PATH, JInt(DEFAULT_GAME_PORT)) }

  /** The split paths are the dotted keys `Config.get` is called with. */
  lemma ConfiguredVersionIsGet(s: Server)
    ensures ConfiguredVersion(s) == Config.Get(s.config, VERSION_KEY, JStr(DEFAULT_VERSION))
  {
    Config.GetOneSegment(s.config, "VERSION_GAME", JStr(DEFAULT_VERSION));
  }

  lemma ConfiguredNameIsGet(s: Server, key: string)
    requires key == SERVER_NAME_KEY
    ensures ConfiguredName(s) == Config.Get(s.config, key, JStr(DEFAULT_SERVER_NAME))
  {
    Config.GetThreeSegments(s.config, key, "SERVERS", "1005", "SERVER_NAME", JStr(DEFAULT_SERVER_NAME));
  }

  lemma ConfiguredPortIsGet(s: Server, key: string)
    requires key == GAME_PORT_KEY
    ensures ConfiguredPort(s) == Config.Get(s.config, key, JInt(DEFAULT_GAME_PORT))
  {
    Config.GetThreeSegments(s.config, key, "SERVERS", "1005", "GAME_PORT", JInt(DEFAULT_GAME_PORT));
  }

  function Some'(r: Result<Bytes>): Result<Option<Bytes>> {
    match r
    case Ok(b) => Ok(Some(b))
    case Raised => Raised
  }

  /** `handle_request(request_type, data, addr)` with the sender's host and
      the value `random.randint(1, 2**32 - 1)` would return. */
  function HandleRequest(s: Server, requestType: string, data: Bytes, host: string, random: nat)
    : (r: (Server, Result<Option<Bytes>>))
    requires 1 <= random < Pow256(4)
    ensures r.0.config == s.config && r.0.playersData == s.playersData && r.0.gameVersion == s.gameVersion
    ensures requestType == "A2S_INFO" ==> r.0 == s
    ensures requestType == "A2S_SERVERQUERY_GETCHALLENGE" ==>
              r.0.challenges == s.challenges[host := random] && r == (r.0, Ok(Some(ChallengeReply(random))))
    ensures requestType !in {"A2S_INFO", "A2S_SERVERQUERY_GETCHALLENGE", "A2S_PLAYER"} ==> r == (s, Ok(None))
  {
    if requestType == "A2S_INFO" then
      (s, Some'(InfoQuery(s.playersData, ConfiguredVersion(s), ConfiguredName(s), ConfiguredPort(s))))
    else if requestType == "A2S_SERVERQUERY_GETCHALLENGE" then
      (s.(challenges := s.challenges[host := random]), Ok(Some(ChallengeReply(random))))
    else if requestType == "A2S_PLAYER" then
      var (after, reply) := PlayerQuery(data, host, s.challenges, s.playersData);
      (s.(challenges := after), reply)
    else (s, Ok(None))
  }

  /** The request type `route_request` picks, tests in order. */
  datatype Kind = InfoRequest | GetChallenge | Player | Unknown

  function KindName(k: Kind): string {
    match k
    case InfoRequest => "A2S_INFO"
    case GetChallenge => "A2S_SERVERQUERY_GETCHALLENGE"
    case Player => "A2S_PLAYER"
    case Unknown => ""
  }

  /** Routing with the player pattern as compiled. */
  function ClassifyAsWritten(d: Bytes): Kind {
    if IsInfoRequest(d) then InfoRequest
    else if IsChallengeRequest(d) then GetChallenge
    else if IsPlayerRequestAsWritten(d) then Player
    else Unknown
  }

  /** Routing with the player pattern accepting any four challenge bytes. */
  function Classify(d: Bytes): (k: Kind)
    ensures k == Player ==> PlayerShape(d) && !IsChallengeRequest(d)
    ensures k == Unknown ==> !IsInfoRequest(d) && !IsChallengeRequest(d) && !PlayerShape(d)
  {
    if IsInfoRequest(d) then InfoRequest
    else if IsChallengeRequest(d) then GetChallenge
    else if IsPlayerRequest(d) then
      RequestsDisjoint(d);
      Player
    else Unknown
  }

  /** `route_request(data, addr)`. */
  function RouteRequest(s: Server, data: Bytes, host: string, random: nat): (r: (Server, Result<Option<Bytes>>))
    requires 1 <= random < Pow256(4)
    ensures Classify(data) == Unknown ==> r == (s, Ok(None))
  {
    var k := Classify(data);
    if k == Unknown then (s, Ok(None)) else HandleRequest(s, KindName(k), data, host, random)
  }

  function RouteRequestAsWritten(s: Server, data: Bytes, host: string, random: nat): (r: (Server, Result<Option<Bytes>>))
    requires 1 <= random < Pow256(4)
    ensures ClassifyAsWritten(data) == Unknown ==> r == (s, Ok(None))
  {
    var k := ClassifyAsWritten(data);
    if k == Unknown then (s, Ok(None)) else HandleRequest(s, KindName(k), data, host, random)
  }

  /** The patterns as compiled and with `re.DOTALL` route every request whose
      challenge bytes hold no newline the same way. */
  lemma ClassifyAgrees(d: Bytes)
    requires forall k :: 5 <= k < 9 && k < |d| ==> d[k] != NEWLINE
    ensures ClassifyAsWritten(d) == Classify(d)
  {
    PlayerPatternsAgree(d);
  }

  /** So the routing as written and the corrected routing agree on such a
      request: same state afterwards, same reply. */
  lemma RouteRequestAgrees(s: Server, data: Bytes, host: string, random: nat)
    requires 1 <= random < Pow256(4)
    requires forall k :: 5 <= k < 9 && k < |data| ==> data[k] != NEWLINE
    ensures RouteRequestAsWritten(s, data, host, random) == RouteRequest(s, data, host, random)
  {
    ClassifyAgrees(data);
  }

  /** One pass of the receive loop in `main`: a reply is sent when the
      handler returns non-empty bytes; an exception is logged and nothing
      is sent, but a challenge already consumed stays consumed. */
  function Serve(s: Server, data: Bytes, host: string, random: nat): (r: (Server, Option<Bytes>))
    requires 1 <= random < Pow256(4)
    ensures r.1.Some? <==> RouteRequest(s, data, host, random).1.Ok? && RouteRequest(s, data, host, random).1.value.Some?
    ensures r.0 == RouteRequest(s, data, host, random).0
    ensures r.1.Some? ==> r.1.value == RouteRequest(s, data, host, random).1.value.value
  {
    var (after, reply) := RouteRequest(s, data, host, random);
    match reply
    case Ok(Some(b)) => (after, if b != [] then Some(b) else None)
    case _ => (after, None)
  }

  // ---------------------------------------------------------------------
  // Properties of the challenge exchange

  lemma NonZeroChallengeRequest(c: nat)
    requires 1 <= c < Pow256(4)
    ensures Classify(PlayerRequest(c)) == Player
  {
    var d := PlayerRequest(c);
    FromLEOfLE(c, 4);
    assert FromLE([0, 0, 0, 0]) == 0;
    assert LE(c, 4) != [0, 0, 0, 0];
    assert d[5..] == LE(c, 4) && CHALLENGE_REQUEST[5..] == [0, 0, 0, 0];
    assert d != CHALLENGE_REQUEST && |d| == 9;
    assert |INFO_REQUEST| == 25;
  }

  /** No byte of the little-endian challenge is a newline. */
  predicate NewlineFree(c: nat)
    requires c < Pow256(4)
  {
    NEWLINE !in LE(c, 4)
  }

  /** As written, a replayed challenge is routed to the player handler when
      none of its bytes is a newline. */
  lemma NonZeroChallengeRequestAsWritten(c: nat)
    requires 1 <= c < Pow256(4) && NewlineFree(c)
    ensures ClassifyAsWritten(PlayerRequest(c)) == Player
  {
    var d := PlayerRequest(c);
    NonZeroChallengeRequest(c);
    assert d[5..] == LE(c, 4);
    forall k | 5 <= k < 9 && k < |d| ensures d[k] != NEWLINE {
      assert d[k] == LE(c, 4)[k - 5];
    }
    ClassifyAgrees(d);
  }

  /** Serving the get-challenge request stores the random value for the
      sender and replies with it. */
  lemma ServeChallenge(s: Server, host: string, random: nat)
    requires 1 <= random < Pow256(4)
    ensures Serve(s, CHALLENGE_REQUEST, host, random)
            == (s.(challenges := s.challenges[host := random]), Some(ChallengeReply(random)))
  {
    assert |INFO_REQUEST| == 25;
    assert Classify(CHALLENGE_REQUEST) == GetChallenge;
  }

  /** Serving a player request is `player_query` on the server's table. */
  lemma ServePlayer(s: Server, d: Bytes, host: string, random: nat)
    requires 1 <= random < Pow256(4) && Classify(d) == Player
    ensures var pq := PlayerQuery(d, host, s.challenges, s.playersData);
            && Serve(s, d, host, random).0 == s.(challenges := pq.0)
            && Serve(s, d, host, random).1 == (if pq.1.Ok? && pq.1.value.Some? && pq.1.value.value != [] then pq.1.value else None)
  {
    assert RouteRequest(s, d, host, random) == HandleRequest(s, "A2S_PLAYER", d, host, random);
  }

  /** A player request carrying the challenge issued to its sender is
      answered with the player reply and consumes the challenge. */
  lemma PlayerRequestAccepted(s: Server, c: nat, host: string, random: nat)
    requires 1 <= c < Pow256(4) && 1 <= random < Pow256(4)
    requires host in s.challenges && s.challenges[host] == c
    requires s.playersData.JObj? && |s.playersData.fields| < 256
    requires Listed(DictOf(s.playersData.fields), 0).Ok?
    ensures Serve(s, PlayerRequest(c), host, random)
            == (s.(challenges := s.challenges - {host}), Some(PlayerReply(DictOf(s.playersData.fields)).value))
  {
    NonZeroChallengeRequest(c);
    ChallengeOfPlayerRequest(c);
    var d := PlayerRequest(c);
    ServePlayer(s, d, host, random);
    var e := DictOf(s.playersData.fields);
    assert AsPlayers(s.playersData) == Ok(Entries(e));
    var b := PlayerReply(e).value;
    assert b != [] by {
      assert |b| >= |HEADER|;
    }
    assert PlayerQuery(d, host, s.challenges, s.playersData) == (s.challenges - {host}, Ok(Some(b)));
  }

  /** As written, the same exchange is answered the same way when no byte
      of the challenge is a newline. */
  lemma PlayerRequestAcceptedAsWritten(s: Server, c: nat, host: string, random: nat)
    requires 1 <= c < Pow256(4) && 1 <= random < Pow256(4) && NewlineFree(c)
    requires host in s.challenges && s.challenges[host] == c
    requires s.playersData.JObj? && |s.playersData.fields| < 256
    requires Listed(DictOf(s.playersData.fields), 0).Ok?
    ensures RouteRequestAsWritten(s, PlayerRequest(c), host, random)
            == (s.(challenges := s.challenges - {host}), Ok(Some(PlayerReply(DictOf(s.playersData.fields)).value)))
  {
    var d := PlayerRequest(c);
    PlayerRequestAccepted(s, c, host, random);
    NonZeroChallengeRequestAsWritten(c);
    NonZeroChallengeRequest(c);
    assert RouteRequestAsWritten(s, d, host, random) == RouteRequest(s, d, host, random);
  }

  /** The exchange a client runs: ask for a challenge, read it from the
      reply, send it back. The player request is accepted, answered with the
      player reply, and the challenge is consumed; other hosts' challenges
      are untouched. */
  lemma ChallengeThenPlayers(s: Server, host: string, random: nat, random2: nat)
    requires 1 <= random < Pow256(4) && 1 <= random2 < Pow256(4)
    requires s.playersData.JObj? && |s.playersData.fields| < 256
    requires Listed(DictOf(s.playersData.fields), 0).Ok?
    ensures var (s1, reply1) := Serve(s, CHALLENGE_REQUEST, host, random);
            && reply1 == Some(ChallengeReply(random))
            && ParseChallengeReply(reply1.value) == Some(random)
            && var (s2, reply2) := Serve(s1, PlayerRequest(random), host, random2);
               && reply2 == Some(PlayerReply(DictOf(s.playersData.fields)).value)
               && s2.challenges == s.challenges - {host}
  {
    ServeChallenge(s, host, random);
    var s1 := s.(challenges := s.challenges[host := random]);
    ChallengeReplyRoundTrip(random);
    PlayerRequestAccepted(s1, random, host, random2);
    assert s1.challenges - {host} == s.challenges - {host};
  }

  /** Replaying a consumed challenge gets no reply and changes nothing. */
  lemma ReplayRejected(s: Server, host: string, c: nat, random: nat)
    requires 1 <= c < Pow256(4) && 1 <= random < Pow256(4)
    requires host !in s.challenges || s.challenges[host] != c
    requires AsPlayers(s.playersData).Ok?
    ensures Serve(s, PlayerRequest(c), host, random) == (s, None)
  {
    NonZeroChallengeRequest(c);
    ChallengeOfPlayerRequest(c);
    var d := PlayerRequest(c);
    ServePlayer(s, d, host, random);
    assert PlayerQuery(d, host, s.challenges, s.playersData) == (s.challenges, Ok(None));
  }

  /** A `V` request carrying challenge 0 skips the check: it is never
      rejected, no challenge is consumed, and anyone gets the player list of
      a dict of players whose reply can be built. (With `U` the same bytes
      are the get-challenge request, which is matched first.) */
  lemma ZeroChallengeSkipsCheck(s: Server, host: string, random: nat)
    requires 1 <= random < Pow256(4)
    ensures var d := HEADER + [0x56, 0, 0, 0, 0];
            var (s1, reply) := RouteRequest(s, d, host, random);
            && s1 == s && reply != Ok(None)
            && (s.playersData.JObj? && PlayerReply(DictOf(s.playersData.fields)).Ok? ==>
                  reply == Ok(Some(PlayerReply(DictOf(s.playersData.fields)).value)))
  {
    var d := HEADER + [0x56, 0, 0, 0, 0];
    assert d[..4] == HEADER && |d| == 9 && d[4] == 0x56;
    assert d != CHALLENGE_REQUEST && d != CHALLENGE_REQUEST + [NEWLINE];
    assert |INFO_REQUEST| == 25;
    assert Classify(d) == Player;
    assert d[|d| - 4..] == [0, 0, 0, 0];
    assert FromLE([0, 0, 0, 0]) == 0;
    assert ChallengeOf(d) == Ok(0);
    assert RouteRequest(s, d, host, random) == HandleRequest(s, "A2S_PLAYER", d, host, random);
    assert PlayerQuery(d, host, s.challenges, s.playersData).0 == s.challenges;
  }

  /** As written, a client issued challenge 10 (`0A 00 00 00`) replays it in
      a request that no pattern matches: no reply, the challenge is left
      unused. Routing that accepts any four bytes answers it. */
  lemma NewlineChallengeDropped(s: Server, host: string, random2: nat)
    requires 1 <= random2 < Pow256(4)
    requires s.playersData.JObj? && |s.playersData.fields| < 256
    requires Listed(DictOf(s.playersData.fields), 0).Ok?
    ensures var s1 := Serve(s, CHALLENGE_REQUEST, host, 10).0;
            && RouteRequestAsWritten(s1, PlayerRequest(10), host, random2) == (s1, Ok(None))
            && host in s1.challenges
            && Serve(s1, PlayerRequest(10), host, random2).1.Some?
  {
    NewlineChallengeUnrecognised();
    assert Pow256(4) > 10;
    ServeChallenge(s, host, 10);
    var s1 := s.(challenges := s.challenges[host := 10]);
    assert ClassifyAsWritten(PlayerRequest(10)) == Unknown;
    ChallengeThenPlayers(s, host, 10, random2);
  }

  /** Serving the info request answers with `info_query` on the players
      last announced and the configured version, name and port. */
  lemma ServeInfo(s: Server, host: string, random: nat)
    requires 1 <= random < Pow256(4)
    ensures var q := InfoQuery(s.playersData, ConfiguredVersion(s), ConfiguredName(s), ConfiguredPort(s));
            Serve(s, INFO_REQUEST, host, random) == (s, if q.Ok? && q.value != [] then Some(q.value) else None)
  {
    assert Classify(INFO_REQUEST) == InfoRequest;
  }

  /** After a players event with a non-empty dict, the info reply counts
      its entries and carries the configured name, version and port. */
  lemma InfoAfterPlayersEvent(s: Server, fields: seq<(string, Json)>, host: string, random: nat,
                              version: string, name: string, port: nat)
    requires 1 <= random < Pow256(4)
    requires fields != [] && |fields| < 256
    requires ConfiguredVersion(s) == JStr(version) && ConfiguredName(s) == JStr(name)
    requires ConfiguredPort(s) == JInt(port)
    requires '\0' !in version && '\0' !in name && port < 0x1_0000
    ensures var s1 := HandleEvent(s, "get_players_response", JObj(fields));
            var reply := Serve(s1, INFO_REQUEST, host, random).1;
            && reply.Some?
            && ParseInfo(reply.value)
               == Some(Info(PROTOCOL as nat, Utf8(name), MAP_NAME, GAME_FOLDER, GAME_NAME, 0,
                            Fixed(|fields|), Utf8(version), Some(port), Some(STEAM_ID),
                            Some(Keywords(name)), Some(GAME_ID)))
  {
    var s1 := s.(playersData := JObj(fields));
    assert HandleEvent(s, "get_players_response", JObj(fields)) == s1;
    ServeInfo(s1, host, random);
    InfoQueryRoundTrip(JObj(fields), version, name, port);
    var q := InfoQuery(JObj(fields), JStr(version), JStr(name), JInt(port));
    assert q.value != [] by {
      assert |q.value| >= |HEADER|;
    }
  }
}

=== FILE: timestamps.dfy ===
/** The log timestamp `YYYY.MM.DD-hh.mm.ss:fff` and its conversion to
    microsecond ticks, as `datetime.strptime(ts, "%Y.%m.%d-%H.%M.%S:%f")`
    reads it. Ticks count microseconds from the start of the proleptic
    Gregorian day 0001-01-01 minus one day, so ordering and differences of
    ticks are those of the corresponding `datetime` values. */
module Timestamps {
  import opened Common

  const MICROS_PER_SECOND: int := 1000000

  /** The fixed-width shape the log pattern captures: 23 characters with
      separators at positions 4, 7, 10, 13, 16 and 19 and digits elsewhere. */
  predicate IsStampShape(s: string) {
    && |s| == 23
    && s[4] == '.' && s[7] == '.' && s[10] == '-' && s[13] == '.' && s[16] == '.' && s[19] == ':'
    && forall i :: 0 <= i < 23 && i != 4 && i != 7 && i != 10 && i != 13 && i != 16 && i != 19 ==> IsDigit(s[i])
  }

  function Digit(c: char): int { c as int - '0' as int }

  function Num2(s: string, i: nat): int
    requires i + 2 <= |s|
  {
    10 * Digit(s[i]) + Digit(s[i + 1])
  }

  predicate IsLeap(y: int) { y % 4 == 0 && (y % 100 != 0 || y % 400 == 0) }

  function DaysInMonth(y: int, m: int): int
    requires 1 <= m <= 12
  {
    if m == 2 then (if IsLeap(y) then 29 else 28)
    else if m == 4 || m == 6 || m == 9 || m == 11 then 30
    else 31
  }

  /** Days in the months of year `y` before month `m`. */
  function DaysBeforeMonth(y: int, m: int): int
    requires 1 <= m <= 12
    decreases m
  {
    if m == 1 then 0 else DaysBeforeMonth(y, m - 1) + DaysInMonth(y, m - 1)
  }

  /** Python's `date(y, m, d).toordinal()`. */
  function Ordinal(y: int, m: int, d: int): int
    requires y >= 1 && 1 <= m <= 12
  {
    var p := y - 1;
    p * 365 + p / 4 - p / 100 + p / 400 + DaysBeforeMonth(y, m) + d
  }

  /** A parsed timestamp: the calendar fields as written. */
  datatype Stamp = Stamp(year: int, month: int, day: int, hour: int, minute: int, second: int, millis: int)

  function Fields(s: string): Stamp
    requires |s| == 23
  {
    Stamp(100 * Num2(s, 0) + Num2(s, 2), Num2(s, 5), Num2(s, 8), Num2(s, 11), Num2(s, 14), Num2(s, 17),
          100 * Digit(s[20]) + Num2(s, 21))
  }

  /** A calendar date the `date` constructor accepts (years from 1). */
  predicate ValidDate(y: int, m: int, d: int) {
    y >= 1 && 1 <= m <= 12 && 1 <= d <= DaysInMonth(y, m)
  }

  /** The range checks `strptime` and the `datetime` constructor apply; the
      fraction is three digits here, so below 1000. */
  predicate ValidStamp(t: Stamp) {
    && ValidDate(t.year, t.month, t.day)
    && 0 <= t.hour <= 23
    && 0 <= t.minute <= 59
    && 0 <= t.second <= 59
    && 0 <= t.millis <= 999
  }

  function ToTicks(t: Stamp): int
    requires ValidStamp(t)
  {
    var seconds := ((Ordinal(t.year, t.month, t.day) * 24 + t.hour) * 60 + t.minute) * 60 + t.second;
    seconds * MICROS_PER_SECOND + t.millis * 1000
  }

  /** `strptime` on the log's format, for the fixed-width shape; `None` is the
      `ValueError` the call raises. */
  function ParseStamp(s: string): (r: Option<int>)
    ensures r.Some? ==> IsStampShape(s) && ValidStamp(Fields(s)) && r.value == ToTicks(Fields(s))
    ensures IsStampShape(s) && ValidStamp(Fields(s)) ==> r.Some?
  {
    if IsStampShape(s) && ValidStamp(Fields(s)) then Some(ToTicks(Fields(s))) else None
  }

  // ---------------------------------------------------------------------
  // The calendar: consecutive days have consecutive day numbers

  /** The day after `y-m-d`. */
  function NextDay(y: int, m: int, d: int): (int, int, int)
    requires 1 <= m <= 12
  {
    if d < DaysInMonth(y, m) then (y, m, d + 1)
    else if m < 12 then (y, m + 1, 1)
    else (y + 1, 1, 1)
  }

  /** A year has 365 days, 366 when it is a leap year. */
  lemma YearLength(y: int)
    ensures DaysBeforeMonth(y, 12) + DaysInMonth(y, 12) == if IsLeap(y) then 366 else 365
  {
    var feb := DaysInMonth(y, 2);
    assert DaysBeforeMonth(y, 3) == 31 + feb;
    assert DaysBeforeMonth(y, 5) == 92 + feb;
    assert DaysBeforeMonth(y, 7) == 153 + feb;
    assert DaysBeforeMonth(y, 9) == 215 + feb;
    assert DaysBeforeMonth(y, 11) == 276 + feb;
    assert DaysBeforeMonth(y, 12) == 306 + feb;
  }

  /** The day after a valid date is valid and its day number is one more,
      also from the last day of a month and from December 31. */
  lemma OrdinalNextDay(y: int, m: int, d: int)
    requires ValidDate(y, m, d)
    ensures var (y', m', d') := NextDay(y, m, d);
            ValidDate(y', m', d') && Ordinal(y', m', d') == Ordinal(y, m, d) + 1
  {
    if d == DaysInMonth(y, m) && m == 12 {
      OrdinalNewYear(y);
    }
  }

  /** January 1 follows December 31 of the year before. */
  lemma OrdinalNewYear(y: int)
    requires y >= 1
    ensures Ordinal(y + 1, 1, 1) == Ordinal(y, 12, 31) + 1
  {
    YearLength(y);
    FloorStep4(y);
    FloorStep100(y);
    FloorStep400(y);
    assert Ordinal(y + 1, 1, 1) == y * 365 + y / 4 - y / 100 + y / 400 + 1;
  }

  /** Stepping to `y` adds one multiple of 4 exactly when `y` is one. */
  lemma FloorStep4(y: int)
    ensures y / 4 - (y - 1) / 4 == if y % 4 == 0 then 1 else 0
  {
  }

  lemma FloorStep100(y: int)
    ensures y / 100 - (y - 1) / 100 == if y % 100 == 0 then 1 else 0
  {
  }

  lemma FloorStep400(y: int)
    ensures y / 400 - (y - 1) / 400 == if y % 400 == 0 then 1 else 0
  {
  }

  /** Months before `m2` include month `m1` entirely when `m1 < m2`. */
  lemma {:induction false} DaysBeforeMonthGrows(y: int, m1: int, m2: int)
    requires 1 <= m1 < m2 <= 12
    ensures DaysBeforeMonth(y, m1) + DaysInMonth(y, m1) <= DaysBeforeMonth(y, m2)
    decreases m2
  {
    assert DaysBeforeMonth(y, m2) == DaysBeforeMonth(y, m2 - 1) + DaysInMonth(y, m2 - 1);
    if m1 < m2 - 1 {
      DaysBeforeMonthGrows(y, m1, m2 - 1);
    }
  }

  /** Every day of year `y` comes before the first day of any later year. */
  lemma {:induction false} YearsAscend(y1: int, m1: int, d1: int, y2: int)
    requires ValidDate(y1, m1, d1) && y1 < y2
    ensures Ordinal(y1, m1, d1) < Ordinal(y2, 1, 1)
    decreases y2 - y1
  {
    if m1 < 12 {
      DaysBeforeMonthGrows(y1, m1, 12);
    }
    OrdinalNextDay(y1, 12, 31);
    if y1 + 1 < y2 {
      YearsAscend(y1 + 1, 1, 1, y2);
    }
  }

  /** Dates in the order their fields are written: year, then month, then day. */
  predicate DateBefore(y1: int, m1: int, d1: int, y2: int, m2: int, d2: int) {
    y1 < y2 || (y1 == y2 && (m1 < m2 || (m1 == m2 && d1 < d2)))
  }

  /** Day numbers follow calendar order. */
  lemma OrdinalAscends(y1: int, m1: int, d1: int, y2: int, m2: int, d2: int)
    requires ValidDate(y1, m1, d1) && ValidDate(y2, m2, d2)
    requires DateBefore(y1, m1, d1, y2, m2, d2)
    ensures Ordinal(y1, m1, d1) < Ordinal(y2, m2, d2)
  {
    if y1 < y2 {
      YearsAscend(y1, m1, d1, y2);
      if m2 > 1 {
        DaysBeforeMonthGrows(y2, 1, m2);
      }
    } else if m1 < m2 {
      DaysBeforeMonthGrows(y1, m1, m2);
    }
  }

  // ---------------------------------------------------------------------
  // Ticks: ordering and differences

  /** Timestamps in the order their fields are written. */
  predicate StampBefore(a: Stamp, b: Stamp) {
    || DateBefore(a.year, a.month, a.day, b.year, b.month, b.day)
    || ((a.year, a.month, a.day) == (b.year, b.month, b.day)
        && (a.hour < b.hour
            || (a.hour == b.hour
                && (a.minute < b.minute
                    || (a.minute == b.minute
                        && (a.second < b.second || (a.second == b.second && a.millis < b.millis)))))))
  }

  /** A later timestamp has more ticks. */
  lemma TicksAscend(a: Stamp, b: Stamp)
    requires ValidStamp(a) && ValidStamp(b) && StampBefore(a, b)
    ensures ToTicks(a) < ToTicks(b)
  {
    if DateBefore(a.year, a.month, a.day, b.year, b.month, b.day) {
      OrdinalAscends(a.year, a.month, a.day, b.year, b.month, b.day);
    }
  }

  /** Ticks order timestamps exactly as their fields do, and different
      timestamps have different ticks. */
  lemma TicksOrder(a: Stamp, b: Stamp)
    requires ValidStamp(a) && ValidStamp(b)
    ensures ToTicks(a) < ToTicks(b) <==> StampBefore(a, b)
    ensures ToTicks(a) == ToTicks(b) <==> a == b
  {
    if StampBefore(a, b) {
      TicksAscend(a, b);
    } else if StampBefore(b, a) {
      TicksAscend(b, a);
    } else {
      assert a == b;
    }
  }

  /** `k` seconds later within the same minute is `k` million ticks later. */
  lemma TicksSecondsApart(t: Stamp, k: int)
    requires ValidStamp(t) && 0 <= t.second + k <= 59
    ensures ValidStamp(t.(second := t.second + k))
    ensures ToTicks(t.(second := t.second + k)) == ToTicks(t) + k * MICROS_PER_SECOND
  {
  }

  /** The same time on the next calendar day is 86400 seconds later, across
      month and year ends too. */
  lemma TicksNextDay(t: Stamp)
    requires ValidStamp(t)
    ensures var (y, m, d) := NextDay(t.year, t.month, t.day);
            var u := t.(year := y, month := m, day := d);
            ValidStamp(u) && ToTicks(u) == ToTicks(t) + 86400 * MICROS_PER_SECOND
  {
    OrdinalNextDay(t.year, t.month, t.day);
  }

  // ---------------------------------------------------------------------
  // Writing a timestamp in the log's format reads back

  function DigitChar(k: int): char
    requires 0 <= k <= 9
  {
    ('0' as int + k) as char
  }

  /** `n` as two digits, zero-padded. */
  function Pad2(n: int): (r: string)
    requires 0 <= n <= 99
    ensures |r| == 2 && IsDigit(r[0]) && IsDigit(r[1]) && Num2(r, 0) == n
  {
    [DigitChar(n / 10), DigitChar(n % 10)]
  }

  /** `n` as four digits, zero-padded. */
  function Pad4(n: int): (r: string)
    requires 0 <= n <= 9999
    ensures |r| == 4 && forall i :: 0 <= i < 4 ==> IsDigit(r[i])
    ensures 100 * Num2(r, 0) + Num2(r, 2) == n
  {
    var hi := Pad2(n / 100);
    var lo := Pad2(n % 100);
    assert Num2(hi + lo, 0) == Num2(hi, 0) && Num2(hi + lo, 2) == Num2(lo, 0);
    hi + lo
  }

  /** The timestamp written as `YYYY.MM.DD-hh.mm.ss:fff`. */
  function FormatStamp(t: Stamp): (r: string)
    requires ValidStamp(t) && t.year <= 9999
    ensures IsStampShape(r)
    ensures Fields(r) == t
  {
    var y, mo, d := Pad4(t.year), Pad2(t.month), Pad2(t.day);
    var h, mi, s, f := Pad2(t.hour), Pad2(t.minute), Pad2(t.second), Pad2(t.millis % 100);
    var c := DigitChar(t.millis / 100);
    var r := [y[0], y[1], y[2], y[3], '.', mo[0], mo[1], '.', d[0], d[1], '-', h[0], h[1], '.',
              mi[0], mi[1], '.', s[0], s[1], ':', c, f[0], f[1]];
    StampLayout(y, mo, d, h, mi, s, c, f, r);
    r
  }

  /** The 23 characters laid out from their parts have the log's shape, and
      each field reads back from its part. */
  lemma StampLayout(y: string, mo: string, d: string, h: string, mi: string, s: string, c: char, f: string, r: string)
    requires |y| == 4 && IsDigit(y[0]) && IsDigit(y[1]) && IsDigit(y[2]) && IsDigit(y[3])
    requires |mo| == 2 && IsDigit(mo[0]) && IsDigit(mo[1]) && |d| == 2 && IsDigit(d[0]) && IsDigit(d[1])
    requires |h| == 2 && IsDigit(h[0]) && IsDigit(h[1]) && |mi| == 2 && IsDigit(mi[0]) && IsDigit(mi[1])
    requires |s| == 2 && IsDigit(s[0]) && IsDigit(s[1]) && IsDigit(c) && |f| == 2 && IsDigit(f[0]) && IsDigit(f[1])
    requires r == [y[0], y[1], y[2], y[3], '.', mo[0], mo[1], '.', d[0], d[1], '-', h[0], h[1], '.',
                   mi[0], mi[1], '.', s[0], s[1], ':', c, f[0], f[1]]
    ensures IsStampShape(r)
    ensures Fields(r) == Stamp(100 * Num2(y, 0) + Num2(y, 2), Num2(mo, 0), Num2(d, 0), Num2(h, 0),
                               Num2(mi, 0), Num2(s, 0), 100 * Digit(c) + Num2(f, 0))
  {
  }

  /** Parsing a formatted timestamp gives its ticks: `ParseStamp` reads the
      fields back and applies the calendar. */
  lemma ParseFormatStamp(t: Stamp)
    requires ValidStamp(t) && t.year <= 9999
    ensures ParseStamp(FormatStamp(t)) == Some(ToTicks(t))
  {
  }
}

=== FILE: wire.dfy ===
/** Byte-level building blocks of the query protocol: `struct.pack` of
    unsigned little-endian integers, UTF-8 encoding, and front-consuming
    readers that take packets apart again. */
module Wire {
  import opened Common

  type Bytes = seq<byte>

  function Pow256(w: nat): (p: nat)
    ensures p >= 1
  {
    if w == 0 then 1 else 256 * Pow256(w - 1)
  }

  /** `n` as `w` little-endian bytes. */
  function LE(n: nat, w: nat): (r: Bytes)
    requires n < Pow256(w)
    ensures |r| == w
  {
    if w == 0 then [] else [n % 256] + LE(n / 256, w - 1)
  }

  /** The unsigned value of little-endian bytes. */
  function FromLE(b: Bytes): (n: nat)
    ensures n < Pow256(|b|)
  {
    if b == [] then 0 else b[0] + 256 * FromLE(b[1..])
  }

  lemma {:induction false} FromLEOfLE(n: nat, w: nat)
    requires n < Pow256(w)
    ensures FromLE(LE(n, w)) == n
  {
    if w > 0 {
      FromLEOfLE(n / 256, w - 1);
      assert LE(n, w)[1..] == LE(n / 256, w - 1);
    }
  }

  lemma {:induction false} LEOfFromLE(b: Bytes)
    ensures LE(FromLE(b), |b|) == b
  {
    if b != [] {
      var n := FromLE(b);
      assert n % 256 == b[0] && n / 256 == FromLE(b[1..]);
      LEOfFromLE(b[1..]);
      assert b == [b[0]] + b[1..];
    }
  }

  /** `struct.pack('<B' | '<H' | '<I' | '<Q', n)` for width `w`: raises
      outside the unsigned range. */
  function Pack(n: int, w: nat): (r: Result<Bytes>)
    ensures r.Ok? <==> 0 <= n < Pow256(w)
    ensures r.Ok? ==> |r.value| == w && FromLE(r.value) == n
  {
    if 0 <= n < Pow256(w) then
      FromLEOfLE(n, w);
      Ok(LE(n, w))
    else Raised
  }

  // ---------------------------------------------------------------------
  // UTF-8

  /** The UTF-8 encoding of one scalar value. */
  function Utf8Char(c: char): (r: Bytes)
    ensures 1 <= |r| <= 4
    ensures 0 in r <==> c == '\0'
  {
    var n := c as int;
    if n < 0x80 then [n]
    else if n < 0x800 then [0xC0 + n / 64, 0x80 + n % 64]
    else if n < 0x1_0000 then [0xE0 + n / 4096, 0x80 + (n / 64) % 64, 0x80 + n % 64]
    else [0xF0 + n / 262144, 0x80 + (n / 4096) % 64, 0x80 + (n / 64) % 64, 0x80 + n % 64]
  }

  /** `s.encode('utf-8')`. */
  function Utf8(s: string): (r: Bytes)
    ensures |r| >= |s|
    ensures 0 in r <==> '\0' in s
  {
    if s == [] then [] else Utf8Char(s[0]) + Utf8(s[1..])
  }

  lemma {:induction false} Utf8Append(a: string, b: string)
    ensures Utf8(a + b) == Utf8(a) + Utf8(b)
  {
    if a != [] {
      assert (a + b)[0] == a[0] && (a + b)[1..] == a[1..] + b;
      Utf8Append(a[1..], b);
      assert Utf8(a + b) == Utf8Char(a[0]) + (Utf8(a[1..]) + Utf8(b));
      assert Utf8(a) == Utf8Char(a[0]) + Utf8(a[1..]);
      assert Utf8Char(a[0]) + (Utf8(a[1..]) + Utf8(b)) == (Utf8Char(a[0]) + Utf8(a[1..])) + Utf8(b);
    } else {
      assert a + b == b;
    }
  }

  /** The first byte of each character's encoding says how many bytes it takes. */
  function SeqLength(lead: byte): nat {
    if lead < 0x80 then 1 else if lead < 0xE0 then 2 else if lead < 0xF0 then 3 else 4
  }

  /** The scalar value carried by the first `k` bytes of `b`. */
  function CodePoint(b: Bytes, k: nat): int
    requires 1 <= k <= 4 && |b| >= k
  {
    if k == 1 then b[0] as int
    else if k == 2 then (b[0] as int - 0xC0) * 64 + (b[1] as int - 0x80)
    else if k == 3 then (b[0] as int - 0xE0) * 4096 + (b[1] as int - 0x80) * 64 + (b[2] as int - 0x80)
    else (b[0] as int - 0xF0) * 262144 + (b[1] as int - 0x80) * 4096 + (b[2] as int - 0x80) * 64 + (b[3] as int - 0x80)
  }

  /** The bytes after the lead are continuation bytes `10xxxxxx`. */
  predicate Continues(b: Bytes, k: nat)
    requires |b| >= k
  {
    forall i :: 1 <= i < k ==> 0x80 <= b[i] < 0xC0
  }

  /** The smallest value a `k`-byte sequence may carry: anything below has
      a shorter encoding, and the longer one is rejected as overlong. */
  function MinValue(k: nat): int {
    if k <= 1 then 0 else if k == 2 then 0x80 else if k == 3 then 0x800 else 0x1_0000
  }

  /** Decoding UTF-8 (`bytes.decode('utf-8')`), `None` where a sequence is
      cut short, a continuation byte is missing, the encoding is overlong
      (which also rejects a stray continuation byte as a lead), or the value
      is a surrogate or beyond U+10FFFF. */
  function DecodeUtf8(b: Bytes): Option<string>
    decreases |b|
  {
    if b == [] then Some([])
    else
      var k := SeqLength(b[0]);
      if |b| < k || !Continues(b, k) then None
      else
        var n := CodePoint(b, k);
        if MinValue(k) <= n && (n < 0xD800 || 0xE000 <= n < 0x11_0000) then
          match DecodeUtf8(b[k..])
          case Some(rest) => Some([n as char] + rest)
          case None => None
        else None
  }

  /** The overlong encoding of NUL and a lead byte without its continuation
      are rejected. */
  lemma MalformedRejected()
    ensures DecodeUtf8([0xC0, 0x80]) == None
    ensures DecodeUtf8([0xC2, 0x41]) == None
  {
    var overlong: Bytes := [0xC0, 0x80];
    var cut: Bytes := [0xC2, 0x41];
    assert CodePoint(overlong, 2) == 0;
    assert cut[1] == 0x41 && !Continues(cut, 2);
  }

  lemma Utf8CharDecodes(c: char, rest: Bytes)
    ensures var e := Utf8Char(c);
            && SeqLength(e[0]) == |e| && CodePoint(e + rest, |e|) == c as int
            && Continues(e + rest, |e|) && MinValue(|e|) <= c as int
  {
    var n := c as int;
    if n < 0x80 {
    } else if n < 0x800 {
      TwoBytesDecode(n, rest);
    } else if n < 0x1_0000 {
      ThreeBytesDecode(n, rest);
    } else {
      FourBytesDecode(n, rest);
    }
  }

  lemma TwoBytesDecode(n: int, rest: Bytes)
    requires 0x80 <= n < 0x800
    ensures var e: Bytes := [0xC0 + n / 64, 0x80 + n % 64];
            SeqLength(e[0]) == 2 && CodePoint(e + rest, 2) == n
  {
  }

  lemma ThreeBytesDecode(n: int, rest: Bytes)
    requires 0x800 <= n < 0x1_0000
    ensures var e: Bytes := [0xE0 + n / 4096, 0x80 + (n / 64) % 64, 0x80 + n % 64];
            SeqLength(e[0]) == 3 && CodePoint(e + rest, 3) == n
  {
    assert (n / 4096) * 64 + (n / 64) % 64 == n / 64;
  }

  lemma FourBytesDecode(n: int, rest: Bytes)
    requires 0x1_0000 <= n < 0x11_0000
    ensures var e: Bytes := [0xF0 + n / 262144, 0x80 + (n / 4096) % 64, 0x80 + (n / 64) % 64, 0x80 + n % 64];
            SeqLength(e[0]) == 4 && CodePoint(e + rest, 4) == n
  {
    assert (n / 262144) * 64 + (n / 4096) % 64 == n / 4096;
    assert (n / 4096) * 64 + (n / 64) % 64 == n / 64;
  }

  /** Decoding gives back the encoded string. */
  lemma {:induction false} DecodeUtf8OfUtf8(s: string)
    ensures DecodeUtf8(Utf8(s)) == Some(s)
  {
    if s != [] {
      var e := Utf8Char(s[0]);
      var rest := Utf8(s[1..]);
      Utf8CharDecodes(s[0], rest);
      assert (e + rest)[|e|..] == rest;
      DecodeUtf8OfUtf8(s[1..]);
      assert s == [s[0]] + s[1..];
    }
  }

  // ---------------------------------------------------------------------
  // Readers that consume from the front

  /** A NUL-terminated string and what follows it. */
  function ReadCString(b: Bytes): (r: Option<(Bytes, Bytes)>)
    ensures r.Some? ==> 0 !in r.value.0 && b == r.value.0 + [0] + r.value.1
    decreases |b|
  {
    if b == [] then None
    else if b[0] == 0 then Some(([], b[1..]))
    else match ReadCString(b[1..])
      case Some(p) => Some(([b[0]] + p.0, p.1))
      case None => None
  }

  lemma {:induction false} ReadCStringOf(s: Bytes, rest: Bytes)
    requires 0 !in s
    ensures ReadCString(s + [0] + rest) == Some((s, rest))
  {
    if s == [] {
      assert s + [0] + rest == [0] + rest;
    } else {
      assert (s + [0] + rest)[1..] == s[1..] + [0] + rest;
      ReadCStringOf(s[1..], rest);
      assert s == [s[0]] + s[1..];
    }
  }

  /** `w` bytes read as a little-endian number, and what follows. */
  function ReadLE(b: Bytes, w: nat): Option<(nat, Bytes)> {
    if |b| < w then None else Some((FromLE(b[..w]), b[w..]))
  }

  lemma ReadLEOf(n: nat, w: nat, rest: Bytes)
    requires n < Pow256(w)
    ensures ReadLE(LE(n, w) + rest, w) == Some((n, rest))
  {
    assert (LE(n, w) + rest)[..w] == LE(n, w);
    assert (LE(n, w) + rest)[w..] == rest;
    FromLEOfLE(n, w);
  }

  /** The next `n` bytes, and what follows them. */
  function ReadBytes(b: Bytes, n: nat): Option<(Bytes, Bytes)> {
    if |b| < n then None else Some((b[..n], b[n..]))
  }

  lemma ReadBytesOf(a: Bytes, rest: Bytes)
    ensures ReadBytes(a + rest, |a|) == Some((a, rest))
  {
    assert (a + rest)[..|a|] == a;
    assert (a + rest)[|a|..] == rest;
  }

  /** A fixed prefix, and what follows it. */
  function Expect(b: Bytes, prefix: Bytes): Option<Bytes> {
    if |b| >= |prefix| && b[..|prefix|] == prefix then Some(b[|prefix|..]) else None
  }

  lemma ExpectOf(prefix: Bytes, rest: Bytes)
    ensures Expect(prefix + rest, prefix) == Some(rest)
  {
    assert (prefix + rest)[..|prefix|] == prefix;
    assert (prefix + rest)[|prefix|..] == rest;
  }
}
